=== FILE: README.md ===
# Nakasendo SDK core in Dafny

This project models the core of the nChain Nakasendo C++ SDK, which manages
secrets and secp256k1 keys:

- **Secure memory.** `SecureByteAlloc` (plain and secure byte allocators with
  placement variants), `SecureAllocator` (the standard-library allocator over
  secure memory), `ArrayAlloc` and `TArray` (the contiguous array behind every
  secure container).
- **Page locking.** `APageLocker` (page address arithmetic) and
  `PageLockerManager` (reference-counted page locks), built on the bucketed
  hit counter `ThreadSafeHash`.
- **Utilities.** `Status` messages with FNV-1a (`FNV1aHash`) family ids, and the
  fixed-width `UInt` arrays.
- **Metadata.** `MetaDataCollectionImpl` and the enumeration tables of
  `MetaDataDefinitions`.
- **Secrets.** `Secret`, the `SecretStoreImpl` registry and the `ContextAction`
  registry of named actions.
- **Keys.** The Base58 / Base58Check encoder (`Base58DataT`) and the private-key
  class `KeyECSecp256k1T`.

There is one Dafny module per source header, written in the header's own
terms.

- **State as values.** Mutable state is an immutable value. Every operation is
  a function from the old state to the new state and its result.
- **Error paths.** Exceptions that escape the C++ appear as a `Failure`
  result. Where an operation changes its target before it throws (the TArray
  assignments clear it first), the result is the target's state with an
  optional error. A failing allocator is one of the answers the caller
  supplies.
- **External code as parameters.** The caller supplies the operating
  system's answer to a page lock, the user's action callback, the cipher, the
  secp256k1 library, SHA-256, the Shamir sharing of Crypto++ and the random
  seeder.
- **Integer widths.** Where the C++ width matters it is written out:
  - `size_t` products wrap modulo 2^64;
  - `uintptr_t` sums wrap too;
  - the FNV rounds use `bv32`/`bv64`;
  - the `uint8_t` fragment index wraps modulo 256.

Several headers declare functions whose bodies live in `.cpp` files that are
not part of this model. These are `Secret`, `SecretStoreImpl`,
`PageLockerManager`, `SecureByteAlloc`, `MetaDataCollectionImpl` and the
`ArrayAlloc` assignments. Their behaviour is taken from the doc comments in
the headers and stated as assumptions below.

## Model

| member | source | states |
|---|---|---|
| ArrayAlloc.Default | include/impl/memory/ArrayAlloc.h:14 | a default allocator reports size 0 for every pointer |
| ArrayAlloc.Copy | include/impl/memory/ArrayAlloc.h:16 | a copy reports the same size as the original, whatever pointer either is asked about |
| ArrayAlloc.Move | include/impl/memory/ArrayAlloc.h:17 | the new allocator reports the source's size and the source afterwards reports 0 |
| ArrayAlloc.MoveThenCopy | include/impl/memory/ArrayAlloc.h:16-17 | after a move, a copy of the target reports the source's original size, the moved-from allocator reports 0, and moving the target back restores the original |
| SecureByteAlloc.ByteAlloc | include/impl/memory/SecureByteAlloc.h:11-18 | succeeds exactly when memory is available, otherwise `bad_alloc`; the block is fresh, non-null, plain, and at least `n` bytes long |
| SecureByteAlloc.ByteFree | include/impl/memory/SecureByteAlloc.h:20-24 | null is a no-op; otherwise the block leaves the heap and is logged unwiped; the invariant holds and the log only grows |
| SecureByteAlloc.ByteAllocAt | include/impl/memory/SecureByteAlloc.h:26-33 | the placement block sits at the stage address; the heap blocks and the log are unchanged |
| SecureByteAlloc.ByteFreeAt | include/impl/memory/SecureByteAlloc.h:35-40 | null is a no-op; otherwise the placement block at the stage is removed and logged as it was |
| SecureByteAlloc.SecureByteAlloc | include/impl/memory/SecureByteAlloc.h:42-49 | `bad_alloc` when allocation fails, `secure_bad_alloc` when locking fails, success exactly when both succeed; the new block is registered as secure |
| SecureByteAlloc.SecureByteAllocAt | include/impl/memory/SecureByteAlloc.h:51-60 | a null stage is `bad_alloc` and a lock failure is `secure_bad_alloc`; otherwise the stage holds a secure placement block |
| SecureByteAlloc.SecureByteFree | include/impl/memory/SecureByteAlloc.h:62-68 | null is a no-op; otherwise the block is removed and its logged contents are all zero |
| SecureByteAlloc.SecureByteFreeAt | include/impl/memory/SecureByteAlloc.h:70-77 | the placement release, also wiped |
| SecureByteAlloc.ConvertToUnsecure | include/impl/memory/SecureByteAlloc.h:79-84 | a secure heap block becomes a plain one with the same contents; nothing is released |
| SecureByteAlloc.EmptyInv | include/impl/memory/SecureByteAlloc.h:42-49 | the empty heap satisfies the invariant and holds no secure block |
| SecureByteAlloc.SecureAllocThenFree | include/impl/memory/SecureByteAlloc.h:42-68 | a secure allocation followed by its free restores the blocks and logs exactly one release, of zeros |
| SecureByteAlloc.PlainFreeKeepsContents | include/impl/memory/SecureByteAlloc.h:11-24 | by contrast, a plain allocation and free logs the contents unwiped |
| SecureByteAlloc.ConvertThenPlainFree | include/impl/memory/SecureByteAlloc.h:79-84 | after `convertToUnsecure` the plain `byteFree` releases the block with its contents |
| SecureAllocator.MaxSize | include/impl/memory/SecureAllocator.h:152 | `max_size()` is the largest count whose byte size fits in `size_t` |
| SecureAllocator.Eq | include/impl/memory/SecureAllocator.h:154 | any two allocators compare equal |
| SecureAllocator.Neq | include/impl/memory/SecureAllocator.h:155 | `!=` is the negation of `==` and so is never true |
| SecureAllocator.RequestedBytes | include/impl/memory/SecureAllocator.h:91 | `n*sizeof(T)` in `size_t` is exact up to `max_size()` and smaller than the true product beyond it |
| SecureAllocator.AllocateAsWritten | include/impl/memory/SecureAllocator.h:87-93 | `allocate` requests the wrapped byte count from `secureByteAlloc`; the block it returns is secure and only that large |
| SecureAllocator.AllocateAsWrittenOverflows | include/impl/memory/SecureAllocator.h:91 | 2^63 two-byte objects request 0 bytes and the allocation still succeeds |
| SecureAllocator.Allocate | include/impl/memory/SecureAllocator.h:87-93 | corrected `allocate`: a count above `max_size()` is `bad_alloc`; otherwise the block holds at least `n*sizeof(T)` bytes |
| SecureAllocator.AllocateAgreesWithinMaxSize | include/impl/memory/SecureAllocator.h:87-93 | both versions agree on every count within `max_size()` |
| SecureAllocator.Deallocate | include/impl/memory/SecureAllocator.h:105-112 | the block goes through `secureByteFree`: it leaves the heap and is logged as zeros |
| SecureAllocator.DeallocateIgnoresCount | include/impl/memory/SecureAllocator.h:105-106 | the count passed to `deallocate` makes no difference |
| SecureAllocator.Construct | include/impl/memory/SecureAllocator.h:121-130 | a null pointer is `bad_alloc` and a lock failure is `secure_bad_alloc`, with the heap unchanged; a successful constructor leaves the object in a secure placement block; a constructor that throws a `std::exception` leaves the storage released and wiped, while any other exception escapes the handler and leaves the storage registered as secure and unwiped |
| SecureAllocator.Destroy | include/impl/memory/SecureAllocator.h:136-145 | the storage is released through the placement `secureByteFree` and wiped; null changes nothing |
| SecureAllocator.ConstructThenDestroy | include/impl/memory/SecureAllocator.h:121-145 | construct then destroy restores the placement table and logs the object as zeros |
| APageLocker.PageStart | include/impl/memory/APageLocker.h:47-50 | masking never raises an address |
| APageLocker.PageEnd | include/impl/memory/APageLocker.h:55-58 | for a span that does not wrap, the end page is the page of the span's last byte |
| APageLocker.PageStartAligned | include/impl/memory/APageLocker.h:47-50 | with the mask `~(pageSize-1)` of a power-of-two page size, `pageStart` rounds down to a multiple of the page size, lies within one page of the address, and is idempotent |
| APageLocker.SpanCovered | include/impl/memory/APageLocker.h:47-58 | for a non-wrapping span, the first page does not lie after the last, and the pages from `pageStart` to `pageEnd` cover every byte |
| APageLocker.PageMonotone | include/impl/memory/APageLocker.h:47-50 | under an aligned mask, `pageStart` preserves the order of addresses |
| APageLocker.AndHighMask | include/impl/memory/APageLocker.h:49 | the mask with bits k..n-1 set clears exactly the remainder modulo 2^k |
| APageLocker.AndIdempotent | include/impl/memory/APageLocker.h:49 | masking twice is masking once |
| Status.StatusHash | include/impl/utils/Status.h:14-16 | the family id is the 32-bit FNV-1a hash of the name; on ASCII names it is the textbook FNV-1a |
| Status.MembersDistinct | include/impl/utils/Status.h:31-33 | two members of one status family compare equal exactly when their offsets are equal |
| Status.EqIsEquivalence | include/impl/utils/Status.h:31-33 | `==` compares ids only: it is an equivalence and ignores the description |
| Status.NeqIsNotEq | include/impl/utils/Status.h:40-42 | `!=` holds exactly when `==` does not |
| Status.GeneralOutsideFamilies | include/impl/utils/Status.h:58-59 | the general `SUCCESS` (0) and `FAILURE` (1) differ, and a family member equals one of them exactly when its base plus index is 0 or 1 modulo 2^32, so no family based at 2 or above with room for 16 members can yield either |
| Fnv1aHash.KnownVector | include/impl/utils/FNV1aHash.h:18-45 | "a" hashes to the published FNV-1a test values 0xe40c292c and 0xaf63dc4c8601ec8c |
| Fnv1aHash.AsciiAgrees32 | include/impl/utils/FNV1aHash.h:32-35 | on ASCII text without NUL, the C-string recursion equals the reference FNV-1a fold over octets |
| Fnv1aHash.AsciiAgrees64 | include/impl/utils/FNV1aHash.h:43-45 | the same for the 64-bit hash |
| Fnv1aHash.StopsAtNul32 | include/impl/utils/FNV1aHash.h:33 | the hash stops at the first NUL and ignores what follows |
| Fnv1aHash.Compose32 | include/impl/utils/FNV1aHash.h:32-35 | for a prefix `s` without NUL, hashing `s+t` from `h` is hashing `t` from the hash of `s`, the chaining the `value` parameter allows |
| Fnv1aHash.Compose64 | include/impl/utils/FNV1aHash.h:43-45 | the same for the 64-bit hash |
| UInt.New | include/impl/utils/UInt.h:25-34 | the constructor succeeds exactly when the vector has `Bits/8` bytes, and otherwise reports the bad size |
| UInt.Size | include/impl/utils/UInt.h:40 | the size is the byte width: 32 for uint256 and 20 for uint160 |
| UInt.ToVectorRoundTrip | include/impl/utils/UInt.h:25-46 | constructing from a vector and reading it back gives the vector, and every valid value is rebuilt from its vector |
| UInt.Equal | include/impl/utils/UInt.h:49-53 | the byte-by-byte `memcmp` loop answers true exactly when the arrays are equal |
| UInt.NotEqual | include/impl/utils/UInt.h:56-59 | `!=` holds exactly when the bytes differ |
| MetaDataCollection.KeyExists | include/impl/MetaDataCollectionImpl.h:42 | true exactly when the key has an entry |
| MetaDataCollection.GetMetaValue | include/impl/MetaDataCollectionImpl.h:44-49 | an absent key is an error, never a default; a present key yields its stored value |
| MetaDataCollection.SetMetaData | include/impl/MetaDataCollectionImpl.h:51-55 | the keys afterwards are the old keys plus the one set |
| MetaDataCollection.GetAllMetaData | include/impl/MetaDataCollectionImpl.h:57-61 | the copy holds exactly the existing keys, each with the value `getMetaValue` returns |
| MetaDataCollection.CopyMetaData | include/impl/MetaDataCollectionImpl.h:68-73 | fails exactly when the source lacks the key's table name; otherwise that entry is copied and every other key is unchanged |
| MetaDataCollection.SetThenGet | include/impl/MetaDataCollectionImpl.h:44-55 | after a set, the key exists and reads back the new value, and every other key reads as before |
| MetaDataCollection.SetOverwrites | include/impl/MetaDataCollectionImpl.h:51-55 | setting a key twice keeps only the second value |
| MetaDataCollection.SetExistingIsIdentity | include/impl/MetaDataCollectionImpl.h:51-55 | setting a key to the value it already has changes nothing |
| MetaDataDefinitions.NameOf | include/impl/MetaDataDefinitions.h:58-69 | enum to string finds a name exactly when some row holds the enumerator, and that row pairs the two |
| MetaDataDefinitions.ValueOf | include/impl/MetaDataDefinitions.h:58-69 | string to enum finds a value exactly when some row has the name, and that row pairs the two |
| MetaDataDefinitions.TableRoundTrip | include/impl/MetaDataDefinitions.h:58-96 | in a table without repeated names or enumerators, the two lookups invert each other on every row |
| MetaDataDefinitions.KeyTypeTableRoundTrip | include/impl/MetaDataDefinitions.h:58-69 | the KeyType table covers every enumerator, and both lookups invert each other |
| MetaDataDefinitions.KeyTypeNamesDistinct | include/impl/MetaDataDefinitions.h:63-66 | distinct key types have distinct names |
| MetaDataDefinitions.NetworkTypeTableRoundTrip | include/impl/MetaDataDefinitions.h:72-83 | the same for the NetworkType table |
| MetaDataDefinitions.CompressionTypeTableRoundTrip | include/impl/MetaDataDefinitions.h:86-96 | the same for the CompressionType table |
| ThreadSafeHash.FamilyDistinct | include/impl/containers/ThreadSafeHash.h:38-45 | the six statuses of the hash family are pairwise different |
| ThreadSafeHash.BucketIndex | include/impl/containers/ThreadSafeHash.h:463-467 | the bucket index is always within the bucket vector |
| ThreadSafeHash.GetMapLookup | include/impl/containers/ThreadSafeHash.h:148-166 | seen through one key, the merged `getMap` is exactly the content of that key's bucket |
| ThreadSafeHash.ReplaceBucket | include/impl/containers/ThreadSafeHash.h:148-166 | changing one key in its own bucket changes `getMap` at that key only |
| ThreadSafeHash.Find | include/impl/containers/ThreadSafeHash.h:200-216 | `find` succeeds exactly when the key is in `getMap`, and returns its value |
| ThreadSafeHash.New | include/impl/containers/ThreadSafeHash.h:67-76 | the constructor loop makes `numBuckets` empty buckets, with both counters zero |
| ThreadSafeHash.Default | include/impl/containers/ThreadSafeHash.h:67-76 | the default table has 191 empty buckets |
| ThreadSafeHash.TryAppendOrUpdate | include/impl/containers/ThreadSafeHash.h:275-315 | a present key is updated without touching the counters; an absent key is added only when the action succeeds; a failed or throwing action changes nothing |
| ThreadSafeHash.TryRemove | include/impl/containers/ThreadSafeHash.h:227-263 | an absent key is `NOT_FOUND`; a present key is removed only when the action succeeds, with both counters decremented |
| ThreadSafeHash.TryAppendOrIncrement | include/impl/containers/ThreadSafeHash.h:326-368 | a present key gains one hit with no action called; an absent key is added with count 1 when the action succeeds |
| ThreadSafeHash.TryRemoveOrDecrement | include/impl/containers/ThreadSafeHash.h:380-422 | an absent key is `NOT_FOUND`; a count above 1 loses one hit; a last hit is removed only when the action succeeds, and otherwise the decrement is rolled back |
| ThreadSafeHash.NewInv | include/impl/containers/ThreadSafeHash.h:67-76 | a fresh table satisfies both the general and the hits-counter invariants |
| ThreadSafeHash.AppendOrUpdatePreservesInv | include/impl/containers/ThreadSafeHash.h:275-315 | `tryAppendOrUpdate` keeps unique = total = number of keys |
| ThreadSafeHash.RemovePreservesInv | include/impl/containers/ThreadSafeHash.h:227-263 | `tryRemove` keeps the same invariant |
| ThreadSafeHash.AppendOrIncrementPreservesInv | include/impl/containers/ThreadSafeHash.h:326-368 | `tryAppendOrIncrement` keeps the hits invariant: unique is the number of keys, total is the sum of the counts, and every count is positive |
| ThreadSafeHash.RemoveOrDecrementPreservesInv | include/impl/containers/ThreadSafeHash.h:380-422 | `tryRemoveOrDecrement` keeps the hits invariant, including on the rollback path |
| ThreadSafeHash.HitsTotalsPositive | include/impl/containers/ThreadSafeHash.h:472-473 | with a key present, unique is at least 1 and the total is at least that key's count |
| ThreadSafeHash.IncrementThenDecrement | include/impl/containers/ThreadSafeHash.h:326-422 | a hit then an un-hit of the same key restores the map and both counters |
| ThreadSafeHash.SumRemove | include/impl/containers/ThreadSafeHash.h:473 | the total hits split into one key's count plus the rest |
| PageLockerManager.StatusesDistinct | include/impl/memory/PageLockerManager.h:38-46 | the seven manager statuses compare equal exactly when they are the same status |
| PageLockerManager.RegisterLock | include/impl/memory/PageLockerManager.h:150 | a page's first reference asks the operating system and reports `SUCCESS_LOCKED`, or fails leaving the table as it was; a later reference only increments and reports `COUNTER_INCREMENTED`; other pages are untouched |
| PageLockerManager.RegisterUnlock | include/impl/memory/PageLockerManager.h:151 | an unlocked page reports `NO_UNLOCK_REQUIRED`; the last reference asks the operating system and reports `SUCCESS_UNLOCKED`, or fails leaving the table as it was; otherwise the count drops and it reports `COUNTER_DECREMENTED` |
| PageLockerManager.PagesFrom | include/impl/memory/PageLockerManager.h:146-148 | the pages `tryLock` visits increase strictly and stay between the first page and the last |
| PageLockerManager.PagesOfCoverSpan | include/impl/memory/PageLockerManager.h:146-148 | for a non-wrapping range, the pages are distinct, start at `pageStart(ptr)`, and include the page of every byte |
| PageLockerManager.LockPages | include/impl/memory/PageLockerManager.h:81 | locking a page list reports exactly those pages and leaves every other page's count alone |
| PageLockerManager.UnlockPages | include/impl/memory/PageLockerManager.h:89 | the same for unlocking |
| PageLockerManager.LockPagesCounts | include/impl/memory/PageLockerManager.h:150 | with distinct pages and every lock granted, each page gains one reference and reports a first lock or an increment accordingly |
| PageLockerManager.UnlockPagesCounts | include/impl/memory/PageLockerManager.h:151 | with distinct pages and every unlock granted, each locked page loses one reference, with the matching status |
| PageLockerManager.LockTwiceUnlockOncePages | include/impl/memory/PageLockerManager.h:28-32 | two locks of the same pages and one unlock leave every page locked with one more reference than before |
| PageLockerManager.LockThenUnlockPages | include/impl/memory/PageLockerManager.h:28-32 | a lock followed by an unlock restores every page's count |
| PageLockerManager.Reported | include/impl/memory/PageLockerManager.h:76-81 | the caller receives one `Status` per reported page, and for no other page |
| PageLockerManager.LockRangeEx | include/impl/memory/PageLockerManager.h:75-81 | keeps the manager's invariants and returns one status for each page the range touches |
| PageLockerManager.UnLockRangeEx | include/impl/memory/PageLockerManager.h:83-89 | the same for unlocking |
| PageLockerManager.RangeLockTwiceUnlockOnce | include/impl/memory/PageLockerManager.h:59-89 | after locking a range twice and unlocking it once, the page of every byte of the range is still locked |
| PageLockerManager.RangeLockThenUnlock | include/impl/memory/PageLockerManager.h:59-89 | locking a range and unlocking it restores every page's count |
| PageLockerManager.LockRange | include/impl/memory/PageLockerManager.h:59-65 | true exactly when every page status is a successful lock or increment; the block is recorded with its size |
| PageLockerManager.UnLockRange | include/impl/memory/PageLockerManager.h:67-73 | true exactly when every page status is a successful unlock or decrement; the block is forgotten |
| PageLockerManager.IsLocked | include/impl/memory/PageLockerManager.h:133-138 | nonzero exactly when some locked block holds the address, and then it is that block's size |
| PageLockerManager.FindBlock | include/impl/memory/PageLockerManager.h:133-138 | the downward search finds a holding block at or below the base, or shows that there is none |
| PageLockerManager.LockedPages | include/impl/memory/PageLockerManager.h:97-101 | the number of pages with at least one reference |
| PageLockerManager.LockedBlocks | include/impl/memory/PageLockerManager.h:103-107 | the number of recorded blocks |
| PageLockerManager.LastError | include/impl/memory/PageLockerManager.h:91-95 | the calling thread's last error, or no error if it has none |
| PageLockerManager.SetLastError | include/impl/memory/PageLockerManager.h:154 | records the error for one thread and changes nothing else |
| PageLockerManager.LastErrorPerThread | include/impl/memory/PageLockerManager.h:91-95 | a thread reads back its own error, and other threads' errors are unaffected |
| PageLockerManager.Instance | include/impl/memory/PageLockerManager.h:53-57 | the first call creates the singleton and later calls return it |
| PageLockerManager.InstanceIsStable | include/impl/memory/PageLockerManager.h:53-57 | every call after the first returns the first call's manager |
| TArray.CheckNumOfElements | include/impl/memory/TArray.h:296-303 | the size when the pointer and the size agree (null with zero, non-null with some), otherwise the allocator's exception |
| TArray.Copy | include/impl/memory/TArray.h:34-43 | an inconsistent source is `InconsistentArray`; an empty one gives an empty copy without allocating; otherwise a failed `byteAlloc` is `AllocFailed` and a successful one gives a new block holding the same elements |
| TArray.CopyAssign | include/impl/memory/TArray.h:51-66 | self-assignment is a no-op and a failed check leaves the target untouched; otherwise the target is cleared first, so a failed allocation leaves it empty with `AllocFailed`, and a successful one leaves it holding the source's elements |
| TArray.Move | include/impl/memory/TArray.h:72-78 | the new instance takes over the block and the source is left null and empty |
| TArray.MoveAssign | include/impl/memory/TArray.h:86-99 | self-assignment is a no-op; otherwise the block moves and the source is emptied |
| TArray.Sized | include/impl/memory/TArray.h:100-108 | a failed `byteAlloc` is `AllocFailed`; otherwise a new block of the requested size, consistent exactly when the size is positive |
| TArray.Placed | include/impl/memory/TArray.h:122-132 | a placement `byteAlloc` that throws is `AllocFailed`; otherwise the block sits at the stage address and is marked as placement |
| TArray.FromRange | include/impl/memory/TArray.h:116-120 | a failed allocation in the private `insert` is `AllocFailed`; otherwise a new block holding exactly the range |
| TArray.Clear | include/impl/memory/TArray.h:243-251 | the instance becomes null and empty; the block is freed through the placement free exactly when it was placed |
| TArray.Assign | include/impl/memory/TArray.h:146-150 | the target is cleared first; a failed allocation then leaves it empty with `AllocFailed`, and a successful one leaves it holding exactly the range |
| TArray.Swap | include/impl/memory/TArray.h:222-237 | the two instances exchange contents unless they share a pointer |
| TArray.SwapTwice | include/impl/memory/TArray.h:222-237 | swapping twice restores both instances |
| TArray.Append | include/impl/memory/TArray.h:253-269 | `+=` checks the operand; appending an empty operand changes nothing; otherwise a failed allocation is `AllocFailed`, before the target is touched, and a successful one holds both element sequences |
| TArray.Concat | include/impl/memory/TArray.h:271-280 | `+` fails with `AllocFailed` when the allocation fails and, because the result leaves through the move constructor's check, with `InconsistentArray` exactly when both operands are empty; otherwise it holds the left elements followed by the right ones in a fresh non-placement block |
| TArray.AppendIsConcat | include/impl/memory/TArray.h:253-280 | `+=` with a non-empty consistent operand gives the same result as `+`: both succeed exactly when the allocation does |
| TArray.SplitCuts | include/impl/memory/TArray.h:166-197 | the cut points increase strictly, start at 0, end at the size, and are exactly the limits below the size |
| TArray.CutsFromFacts | include/impl/memory/TArray.h:166-197 | the walk over the sorted limits lists exactly the limits in range, in increasing order |
| TArray.Split | include/impl/memory/TArray.h:166-197 | when no limit falls below the size, one checked copy, which fails on a failed allocation unless the array is empty; otherwise one new instance per piece between consecutive cuts, failing exactly when the allocation does; `InconsistentArray` arises only from the copy's check; the pieces always rejoin to the original elements |
| TArray.FlattenPieces | include/impl/memory/TArray.h:182-196 | the pieces between consecutive cuts rejoin to the span from the first cut to the last |
| TArray.SplitAtOne | include/impl/memory/TArray.h:166-197 | one limit strictly inside gives the part before it and the part from it on |
| TArray.SplitAtZero | include/impl/memory/TArray.h:166-197 | a split at zero of a non-empty array gives one new copy of it |
| TArray.Insert | include/impl/memory/TArray.h:153-163 | a failed allocation makes `insert` fail, with `AllocFailed` when the array is consistent; a successful insert leaves the array in the new non-placement block |
| TArray.InsertInside | include/impl/memory/TArray.h:153-163 | inserting strictly inside places the range between the two parts |
| TArray.InsertAppends | include/impl/memory/TArray.h:153-163 | inserting at zero into a non-empty array, or at or past its end, appends the range |
| TArray.EqualAsWrittenForBytes | include/impl/memory/TArray.h:282-289 | for one-byte elements the `memcmp` of `size()` bytes is exact |
| TArray.EqualAsWrittenMissesDifference | include/impl/memory/TArray.h:288 | `{0x0100}` and `{0x0200}` of two-byte elements compare equal as written |
| TArray.EqualIsElementEquality | include/impl/memory/TArray.h:282-289 | corrected `==`, comparing `size()*sizeof(T)` bytes, holds exactly when the elements are equal |
| TArray.NotEqualAsWritten | include/impl/memory/TArray.h:291-293 | `!=` as written negates the defective `==`, so when it holds the elements do differ |
| TArray.NotEqualAsWrittenMissesDifference | include/impl/memory/TArray.h:291-293 | `{0x0100}` and `{0x0200}` of two-byte elements are not unequal as written although their elements differ |
| TArray.NotEqual | include/impl/memory/TArray.h:291-293 | corrected `!=`: holds exactly when the elements differ |
| Secret.New | include/interface/Secret.h:49-55 | an empty name is replaced by the random one and null metadata by an empty collection; nothing is encrypted yet |
| Secret.SetSecret | include/interface/Secret.h:80-85 | replaces the plaintext and keeps the name, metadata and ciphertext |
| Secret.SetName | include/interface/Secret.h:108-112 | replaces the name only |
| Secret.SetMetaData | include/interface/Secret.h:123-127 | the key reads back the new value, every other key is unchanged, and the secret itself is untouched |
| Secret.EncryptSecret | include/interface/Secret.h:135-150 | an empty password is refused before anything changes; otherwise success exactly when the cipher step succeeds, recording the password |
| Secret.DecryptSecret | include/interface/Secret.h:159-181 | a secret without ciphertext is refused; otherwise success exactly when the cipher step succeeds |
| Secret.EmptyPasswordAsymmetry | include/interface/Secret.h:135-174 | encryption refuses an empty password but decryption accepts one |
| Secret.EncryptEnablesDecrypt | include/interface/Secret.h:135-181 | a fresh secret cannot be decrypted; after an encryption that leaves ciphertext, it can |
| SecretStore.GetSecret | include/impl/SecretStoreImpl.h:74-79 | the stored secret for a registered name, or none |
| SecretStore.GetAllSecretNames | include/impl/SecretStoreImpl.h:96-100 | exactly the names `getSecret` finds |
| SecretStore.GetAllSecrets | include/impl/SecretStoreImpl.h:81-85 | exactly the secrets some name leads to |
| SecretStore.GetAllSecretsWhere | include/impl/SecretStoreImpl.h:87-94 | exactly the stored secrets whose metadata holds the given pair |
| SecretStore.SetMasterPassword | include/impl/SecretStoreImpl.h:36-40 | stores the password and leaves the registry alone |
| SecretStore.AddSecret | include/impl/SecretStoreImpl.h:49-53 | refused without a backing store or for a taken name; otherwise registered, saved to the backing store, and nothing else changes |
| SecretStore.Clash | include/impl/SecretStoreImpl.h:55-59 | reports no clash exactly when no name is taken and the new names are distinct; a reported clash is one of the new names |
| SecretStore.AddSecrets | include/impl/SecretStoreImpl.h:55-59 | all or nothing: succeeds exactly when there is a backing store and every name is new and distinct; untouched names keep their secrets |
| SecretStore.AddSecretsFindsEach | include/impl/SecretStoreImpl.h:55-79 | after `addSecrets`, `getSecret` finds each new secret |
| SecretStore.ReplaceSecret | include/impl/SecretStoreImpl.h:61-66 | the name must exist; the old entry is dropped and the new secret is filed under its own name, all other entries unchanged, and the update is forwarded under the old name |
| SecretStore.ReplaceRenames | include/impl/SecretStoreImpl.h:61-66 | replacing a secret by one whose name is the same or not yet used keeps the number of stored secrets |
| SecretStore.RemoveSecret | include/impl/SecretStoreImpl.h:68-72 | the name must exist; it is erased and the removal is forwarded |
| SecretStore.SecretUpdated | include/impl/SecretStoreImpl.h:109-114 | the stored secret is forwarded as an update and the registry is unchanged |
| SecretStore.LoadSecret | include/impl/SecretStoreImpl.h:102-107 | registers a loaded secret under its name without calling the backing store |
| SecretStore.SetSecretBackingStore | include/impl/SecretStoreImpl.h:42-47 | keeps the new store and, when there is one, asks it to load everything |
| SecretStore.LoadEachInSync | include/impl/SecretStoreImpl.h:102-107 | loading entries that are already registered changes nothing |
| SecretStore.ReloadIdempotent | include/impl/SecretStoreImpl.h:153-157 | reloading from a store that holds what is registered keeps the registry |
| SecretStore.AddThenRemove | include/impl/SecretStoreImpl.h:49-72 | adding a new secret and removing it restores the registry |
| SecretStore.TesterClear | include/impl/SecretStoreImpl.h:146-151 | the registry is emptied without calling the backing store |
| SecretStore.StoreSize | include/impl/SecretStoreImpl.h:159-164 | the number of registered names |
| SecretStore.TesterReload | include/impl/SecretStoreImpl.h:153-157 | the current backing store is set again |
| SecretStore.TesterResetBackingStore | include/impl/SecretStoreImpl.h:166-171 | with no backing store, every `addSecret` is refused |
| SecretStore.AddGrowsByOne | include/impl/SecretStoreImpl.h:159-164 | a successful `addSecret` grows the store by one |
| ContextAction.AddAction | include/impl/ContextAction.h:56-59 | an emplace: a taken name keeps its first action; a new name gets the functor and arguments; other names are untouched |
| ContextAction.RemoveAction | include/impl/ContextAction.h:61-71 | true exactly when the name was registered, and then it is erased; other names are untouched |
| ContextAction.RunAction | include/impl/ContextAction.h:73-83 | true exactly when the name is registered, invoking the stored functor with the stored arguments |
| ContextAction.RemoveThenRun | include/impl/ContextAction.h:61-83 | a removed name no longer runs |
| ContextAction.AddThenRun | include/impl/ContextAction.h:56-83 | an added name runs the first action registered under it |
| ContextAction.AddThenRemove | include/impl/ContextAction.h:56-71 | adding a new name and removing it restores the registry |
| Base58Data.Symbol | include/impl/Base58DataT.h:15 | each digit maps to an alphabet character between '1' and 'z' |
| Base58Data.Digits | include/impl/Base58DataT.h:41-63 | the base-58 digits of a number have no leading zero, and only 0 has none |
| Base58Data.LeadingZeros | include/impl/Base58DataT.h:27-34 | the count of leading zero bytes: all before it are zero and the next is not |
| Base58Data.CountZeros | include/impl/Base58DataT.h:27-34 | the first loop computes exactly that count |
| Base58Data.MultiplyAdd | include/impl/Base58DataT.h:43-54 | the inner loop turns the buffer's value `v` into `v*256 + ch` and keeps zeros in front of the digits in use |
| Base58Data.BufferLargeEnough | include/impl/Base58DataT.h:36-39 | `n*138/100+1` base-58 digits hold any `n`-byte number |
| Base58Data.SkipZeroDigits | include/impl/Base58DataT.h:58-63 | the skip stops at the first non-zero digit or at the end, passing only zeros |
| Base58Data.AppendSymbols | include/impl/Base58DataT.h:65-72 | the translation appends each digit's character |
| Base58Data.Translate | include/impl/Base58DataT.h:58-72 | the output is one '1' per zero byte, then the digits of the value without leading zeros |
| Base58Data.Encode | include/impl/Base58DataT.h:20-75 | the loop-based encoder equals the reference encoding: one '1' per leading zero byte, then the base-58 digits of the rest |
| Base58Data.CheckEncode | include/impl/Base58DataT.h:77-87 | Base58Check is the encoding of the data followed by the first four bytes of its double SHA-256 |
| Base58Data.DigitsValue | include/impl/Base58DataT.h:41-63 | the digits read back give the number |
| Base58Data.CanonicalDigits | include/impl/Base58DataT.h:58-63 | digits without a leading zero are the digits of their value |
| Base58Data.EncodingAlphabet | include/impl/Base58DataT.h:15 | every output character is in the alphabet, which leaves out '0', 'O', 'I' and 'l' |
| Base58Data.LeadingOnes | include/impl/Base58DataT.h:27-34 | the encoding starts with exactly as many '1's as the data has leading zero bytes |
| Base58Data.ZerosEncodeToOnes | include/impl/Base58DataT.h:27-74 | `n` zero bytes encode to `n` '1's |
| Base58Data.EncodingInjective | include/impl/Base58DataT.h:20-75 | distinct data have distinct encodings, so the encoding can be decoded |
| Base58Data.CheckEncodingInjective | include/impl/Base58DataT.h:77-87 | distinct data have distinct Base58Check encodings, whatever the hash |
| KeyECSecp256k1.NameSecret | include/native/KeyECSecp256k1T.h:632-642 | an unnamed non-empty key is named after its public key and fails exactly when it is not a valid key; a named or empty key is left alone |
| KeyECSecp256k1.NameSecretIdempotent | include/native/KeyECSecp256k1T.h:632-642 | naming twice is naming once |
| KeyECSecp256k1.SetNetworkType | include/native/KeyECSecp256k1T.h:542-552 | records the network name and leaves other metadata unchanged; fails exactly when naming fails |
| KeyECSecp256k1.SetCompressionType | include/native/KeyECSecp256k1T.h:563-570 | records the compression name and leaves other metadata unchanged |
| KeyECSecp256k1.Init | include/native/KeyECSecp256k1T.h:644-660 | the default network and compression are added only when missing; existing entries and the bytes are kept |
| KeyECSecp256k1.InitIdempotent | include/native/KeyECSecp256k1T.h:644-660 | a second `init` changes nothing |
| KeyECSecp256k1.FromSecret | include/native/KeyECSecp256k1T.h:67-87 | construction succeeds exactly when `init` succeeds and the secret's bytes are a valid secp256k1 key, and the key is then the initialised secret, with network and compression recorded |
| KeyECSecp256k1.FromSecretKeepsInitialised | include/native/KeyECSecp256k1T.h:67-87 | a valid secret that already records a network and a compression is taken over unchanged, so constructing from a constructed key gives the same key |
| KeyECSecp256k1.MakeNewKey | include/native/KeyECSecp256k1T.h:229-240 | the first valid 32-byte draw becomes the key; the metadata is kept |
| KeyECSecp256k1.FirstValid | include/native/KeyECSecp256k1T.h:233-236 | the loop stops at the first draw that passes the check |
| KeyECSecp256k1.ImportFromWif | include/native/KeyECSecp256k1T.h:367-404 | the payload must be 32 bytes, or 33 with a trailing 1 for compressed; network and compression are recorded; other metadata is kept |
| KeyECSecp256k1.WifPayloadRoundTrip | include/native/KeyECSecp256k1T.h:375-394 | a payload of version bytes, key bytes and an optional compression flag imports back to the key bytes and the flag |
| KeyECSecp256k1.SplitArguments | include/native/KeyECSecp256k1T.h:280-288 | the arguments pass exactly when 0 < m <= n; a negative n has its own error |
| KeyECSecp256k1.SplitAsWritten | include/native/KeyECSecp256k1T.h:275-352 | n fragments, with the `uint8_t` index `(i+1) mod 256` |
| KeyECSecp256k1.SplitAsWrittenRepeatsIndex | include/native/KeyECSecp256k1T.h:341-349 | with 257 shares, the first and the last fragment both carry index 1 |
| KeyECSecp256k1.Split | include/native/KeyECSecp256k1T.h:275-352 | corrected: n fragments numbered 1 to n, each with the key's public key and metadata |
| KeyECSecp256k1.SplitIndices | include/native/KeyECSecp256k1T.h:341-349 | fragment indices are 1..n in order and so pairwise distinct; for n <= 255 the version as written agrees |
| KeyECSecp256k1.Recover | include/native/KeyECSecp256k1T.h:159-227 | an empty list is refused; otherwise success exactly when the shares combine |
| KeyECSecp256k1.FromFragments | include/native/KeyECSecp256k1T.h:89-95 | the key holds the recovered bytes, with default network and compression |
| KeyECSecp256k1.SplitPassesSharesInOrder | include/native/KeyECSecp256k1T.h:159-352 | the fragments of a split carry the shares in order, so if the Shamir combine restores the key from all the shares, recovering from the fragments gives the key's bytes |
| KeyECSecp256k1.DerivedScalar | include/native/KeyECSecp256k1T.h:476-482 | the new scalar is below the group order |
| KeyECSecp256k1.Derive | include/native/KeyECSecp256k1T.h:466-500 | a key without a network cannot derive; the new key's big-endian value is `(old + SHA256(message)) mod n`, it is valid, and its metadata is the copied network plus compression |
| KeyECSecp256k1.CopyNetwork | include/native/KeyECSecp256k1T.h:486-488 | copying the network entry fails exactly when it is missing |
| KeyECSecp256k1.DeriveCommutes | include/native/KeyECSecp256k1T.h:466-500 | when all four derivations succeed, deriving by two messages in either order gives the same key bytes |
| KeyECSecp256k1.OrderFitsKeySize | include/native/KeyECSecp256k1.h:35 | every scalar below the group order fits in the 32-byte key size |

## Left out

- Locking, atomics and threads: every operation is one atomic step on an immutable value, and a thread id is a parameter.
- I/O, the operating system's page-lock calls, the random seeder, the cipher, secp256k1, SHA-256 and Crypto++'s Shamir sharing are parameters of the operations that use them.
- `lockedBytes`, `getLimit`, `setLimit`, `getPageSize`, `LockingFailed` and the lock/unlock callbacks of PageLockerManager: their bodies are in a `.cpp` file that is not part of this model.
- PageLockerManager `.cpp` is not part of this model. `tryLock` is assumed to visit the pages from `pageStart` to `pageEnd` one page apart, and `lockRange` to record the block's base and size. `NO_LOCK_REQUIRED` and `NO_PAGE_ALLOCATOR` are never produced.
- `lockPage`/`freePage` and the memory limit of APageLocker are operating-system calls, so the locker's answer is a parameter.
- Secret.cpp, SecretStoreImpl.cpp and MetaDataCollectionImpl.cpp are not part of this model: behaviour is taken from the header doc comments.
- The JSON serialisation of secrets, stores and metadata collections is left out, as are `getEncryptedSecret` copies into iterators.
- The ArrayAlloc copy and move assignment operators and `byteAlloc`/`byteFree`/`getException`: their bodies are not part of this model.
- SecureByteAlloc `secureCheckSize` is left out: it is a query on the page-lock manager's internal table.
- KeyECSecp256k1 signing, decryption, `sharedSecret`, public-key export, JSON and DER serialisation are left out.
- KeyECSecp256k1 `getNetworkType`, `getCompressionType` and `enum_cast` lookups are only modelled through the metadata names.
- KeyECSecp256k1.NameSecret: a network lookup failure while naming is not modelled; naming only fails on an invalid key.
- KeyECSecp256k1.MakeNewKey: the seeder's output is a finite list of draws, so running out of draws is an error (`NoValidDraw`) where the source loops until a valid key appears.
- KeyECSecp256k1.Derive: `ecpScalar` and `Integer::Encode` are taken to read and write 32-byte big-endian numbers.
- KeyECSecp256k1.ImportFromWif: the Base58Check decode and version lookup happen before the call; `rawKey` is its result.
- Base58Data.Encode: the `int` cast of the buffer size is not modelled; sizes are unbounded.
- Status.StatusHash: a name containing a character above 255 has no C counterpart and hashes to 0.
- Fnv1aHash: characters at or above 0x80 are sign-extended as on signed-`char` platforms; agreement with the reference hash is stated for ASCII only.
- ThreadSafeHash: `std::hash` is a parameter; a lock that throws (reported as `FAILURE`) is not modelled.
- TArray: `byteAlloc(0)` is taken to return a non-null pointer, so an array built with size 0 fails `checkNumOfElements`.
- TArray.Clear: the allocator's `byteAlloc(n)` is taken to record `n` bytes as the block size and `byteFree` to reset it to 0; `Sized`, `FromRange`, `Append` and `CopyAssign` rely on the same two assumptions, since the allocator's bodies are not part of this model.
- TArray.Move: the allocator's move assignment, which the move constructor and move assignment of the array use, is taken to leave the moved-from allocator with size 0, as its move constructor does; its body is not part of this model.
- TArray.CheckNumOfElements: the allocator's `getException` is taken to always throw, so a failed check ends the operation; its body is not part of this model.
- TArray.Split: all allocations of one operation share one answer, so an operation whose first allocations succeed and a later one fails is not told apart from one whose first allocation fails; both end in `AllocFailed` with the target unchanged. A `std::vector` that fails to grow is not modelled.
- TArray.Placed: a null stage is excluded by the precondition; `byteAlloc(n, stage)` promises a non-null pointer, which a null stage cannot yield, so that case is not modelled.
- SecureByteAlloc.ByteAllocAt: a null stage is excluded by the precondition, for the same reason; the secure variant `SecureByteAllocAt` does model it, as `bad_alloc`.
- ThreadSafeHash.TryAppendOrIncrement: the hit count is an unbounded natural; the source's `++` on its bounded value type would wrap at that type's maximum.
- SecretStore.AddSecret: refusing a name already in the store (`DuplicateName`) is an assumption; the header only says a new secret is added.
- SecretStore.Clash: the duplicate-name test behind `AddSecret` and `AddSecrets` is an assumption, for the same reason.
- SecretStore.AddSecrets: refusing the whole batch when any name clashes with the store or with another name in the batch is an assumption; the header does not say.
- SecretStore.ReplaceSecret: the old entry is dropped and the new secret filed under its own name, following the backing store's note that the name itself may have changed; a new name that clashes with another stored secret overwrites it, which the header does not address.
- SecretStore.RemoveSecret: refusing a name not in the store (`NameNotFound`) is an assumption; the header only says the secret is removed.
- SecretStore.SecretUpdated: refusing a name not in the store (`NameNotFound`) is an assumption; the header does not say what an unknown name does.
- SecureByteAlloc.SecureByteFree: a null pointer is taken to be a no-op, as for `free`; the header only speaks of a pointer to a memory block.
- SecureByteAlloc.SecureByteFreeAt: a null pointer is taken to be a no-op, for the same reason.
- SecureAllocator.Construct: an exception from the constructor is one of three outcomes passed in; which exceptions derive from `std::exception` is not modelled further.

## Findings

| source | as written | input that shows it | evidently intended | confidence | as-written member | corrected member |
|---|---|---|---|---|---|---|
| include/impl/memory/SecureAllocator.h:91 | `allocate(n)` requests `n*sizeof(T)` bytes computed in `size_t`, which wraps | `n = 2^63` with `sizeof(T) = 2` requests 0 bytes and succeeds | refuse counts above `max_size()` with `bad_alloc`, as standard allocators do | high, not executed | SecureAllocator.AllocateAsWritten | SecureAllocator.Allocate |
| include/impl/memory/TArray.h:288 | `operator==` compares `size()` bytes with `memcmp`, which is the element count, not the byte count; `operator!=` (lines 291-293) negates it and inherits the defect | two one-element arrays of 16-bit values `0x0100` and `0x0200` compare equal | compare `size()*sizeof(T)` bytes | high, not executed | TArray.EqualAsWrittenMissesDifference | TArray.EqualIsElementEquality |
| include/native/KeyECSecp256k1T.h:341-349 | the fragment index is a `uint8_t` counting from 1 and wraps after 255 | `split(257, 2)` gives the first and the last fragment index 1 | index fragments 1 to n without repetition, or refuse n above 255 | medium, not executed | KeyECSecp256k1.SplitAsWrittenRepeatsIndex | KeyECSecp256k1.SplitIndices |

=== FILE: array_alloc.dfy ===
/** The allocator `TArray` uses for its blocks. Its only state is the byte
    size of the block it manages, and it reports that size whatever
    pointer it is asked about. */
module ArrayAlloc {
  /** `mSize`, in bytes. */
  datatype Alloc = Alloc(recorded: nat)

  /** `size(ptr)`: the pointer argument is not consulted. */
  function Size(a: Alloc, ptr: nat): nat {
    a.recorded
  }

  /** The default constructor: no block, size zero for every pointer. */
  function Default(): (r: Alloc)
    ensures forall p: nat :: Size(r, p) == 0
  {
    Alloc(0)
  }

  /** The copy constructor: the copy reports the same size as the
      original, for every pair of pointers asked. */
  function Copy(other: Alloc): (r: Alloc)
    ensures forall p: nat, q: nat :: Size(r, p) == Size(other, q)
  {
    Alloc(other.recorded)
  }

  /** The move constructor: the new allocator takes over the size and the
      source is left reporting zero. The pair is (new, source after). */
  function Move(other: Alloc): (r: (Alloc, Alloc))
    ensures forall p: nat, q: nat :: Size(r.0, p) == Size(other, q) && Size(r.1, p) == 0
  {
    (Alloc(other.recorded), Alloc(0))
  }

  /** Moving hands the size over and copying keeps it: a copy of the moved-to
      allocator reports the original's size, the moved-from one reports 0,
      and moving back restores the original. */
  lemma MoveThenCopy(a: Alloc, p: nat)
    ensures var (target, source) := Move(a);
            Size(Copy(target), p) == Size(a, p) && Size(source, p) == 0 &&
            Move(target).0 == a
  {
  }
}

=== FILE: base58.dfy ===
/** Base58 and Base58Check encoding as used for Bitcoin addresses and keys:
    each leading zero byte becomes the character '1', and the remaining
    bytes, read as one big-endian number, are written in base 58 over an
    alphabet without the look-alike characters 0, O, I and l. The double
    SHA-256 behind the check bytes is a parameter. */
module Base58Data {
  import opened Bytes

  /** A base-58 digit, an index into the alphabet. */
  type Digit = d: int | 0 <= d < 58

  /** The character for digit `d` in the alphabet
      "123456789ABCDEFGHJKLMNPQRSTUVWXYZabcdefghijkmnopqrstuvwxyz", given by
      its six runs of consecutive characters: 1-9, A-H, J-N, P-Z, a-k and
      m-z. */
  function Symbol(d: Digit): (c: char)
    ensures '1' <= c <= 'z'
  {
    var code := if d < 9 then 49 + d else if d < 17 then 56 + d else if d < 22 then 57 + d
                else if d < 33 then 58 + d else if d < 44 then 64 + d else 65 + d;
    code as char
  }

  /** The number whose big-endian base-58 digits are `ds`. */
  function Value(ds: seq<Digit>): nat {
    if |ds| == 0 then 0 else Value(ds[..|ds| - 1]) * 58 + ds[|ds| - 1]
  }

  /** The base-58 digits of `v`, most significant first, without leading
      zero digits; zero has none. */
  function Digits(v: nat): (r: seq<Digit>)
    ensures v == 0 <==> |r| == 0
    ensures |r| > 0 ==> r[0] != 0
    decreases v
  {
    if v == 0 then [] else Digits(v / 58) + [v % 58]
  }

  /** The number of leading zero bytes. */
  function LeadingZeros(data: seq<byte>): (z: nat)
    ensures z <= |data|
    ensures forall j :: 0 <= j < z ==> data[j] == 0
    ensures z == |data| || data[z] != 0
  {
    if |data| == 0 || data[0] != 0 then 0
    else
      var z := LeadingZeros(data[1..]);
      assert forall j :: 1 <= j < z + 1 ==> data[j] == data[1..][j - 1];
      1 + z
  }

  function Ones(n: nat): (r: string)
    ensures |r| == n && forall j :: 0 <= j < n ==> r[j] == '1'
  {
    seq(n, _ => '1')
  }

  function Symbols(ds: seq<Digit>): (r: string)
    ensures |r| == |ds| && forall j :: 0 <= j < |ds| ==> r[j] == Symbol(ds[j])
  {
    seq(|ds|, j requires 0 <= j < |ds| => Symbol(ds[j]))
  }

  /** The Base58 encoding of `data`: one '1' per leading zero byte, then
      the base-58 digits of the rest read as a big-endian number. */
  function Encoding(data: seq<byte>): string {
    var z := LeadingZeros(data);
    Ones(z) + Symbols(Digits(BigEndian(data[z..])))
  }

  // ---------------------------------------------------------------------
  // The encoder

  /** `Base58Data::encode(data)`: the leading zero bytes are counted; the
      rest is accumulated byte by byte into a buffer of `n * 138 / 100 + 1`
      base-58 digits; leading zero digits of the buffer are skipped and the
      digits translated through the alphabet. */
  method Encode(data: seq<byte>) returns (s: string)
    ensures s == Encoding(data)
  {
    var zeroes := CountZeros(data);
    var rest := data[zeroes..];
    var n := |rest|;
    var size := n * 138 / 100 + 1;
    BufferLargeEnough(n);
    var b58: seq<Digit> := seq(size, _ => 0);
    ValueOfZeros(b58);
    var length := 0;
    var k := 0;
    while k < n
      invariant 0 <= k <= n && |b58| == size && 0 <= length <= size
      invariant forall j :: 0 <= j < size - length ==> b58[j] == 0
      invariant Value(b58) == BigEndian(rest[..k])
    {
      assert rest[..k + 1][..k] == rest[..k];
      BigEndianBound(rest[..k + 1]);
      PowMonotone(256, k + 1, n);
      b58, length := MultiplyAdd(b58, length, rest[k]);
      k := k + 1;
    }
    assert rest[..n] == rest;
    s := Translate(zeroes, b58, length);
  }

  /** The first loop of `encode`: skip and count the leading zero bytes. */
  method CountZeros(data: seq<byte>) returns (zeroes: nat)
    ensures zeroes == LeadingZeros(data)
  {
    zeroes := 0;
    while zeroes < |data| && data[zeroes] == 0
      invariant 0 <= zeroes <= |data|
      invariant forall j :: 0 <= j < zeroes ==> data[j] == 0
    {
      zeroes := zeroes + 1;
    }
    LeadingZerosUnique(data, zeroes);
  }

  /** The last two loops of `encode`: skip the zero digits in front of the
      `length` digits in use and any leading zeros among those, then write
      `zeroes` '1's followed by the remaining digits' characters. */
  method Translate(zeroes: nat, b58: seq<Digit>, length: nat) returns (s: string)
    requires length <= |b58|
    requires forall j :: 0 <= j < |b58| - length ==> b58[j] == 0
    ensures s == Ones(zeroes) + Symbols(Digits(Value(b58)))
  {
    var it := SkipZeroDigits(b58, length);
    var lo := Value(b58[it..]);
    ValueSplit(b58, it);
    ValueOfZeros(b58[..it]);
    assert Value(b58) == 0 * Pow(58, |b58| - it) + lo;
    CanonicalDigits(b58[it..]);
    s := AppendSymbols(Ones(zeroes), b58[it..]);
  }

  /** The third loop of `encode`: from the first digit in use, skip zero
      digits; the result is the position of the first non-zero digit, or
      the end of the buffer. */
  method SkipZeroDigits(b58: seq<Digit>, length: nat) returns (it: nat)
    requires length <= |b58|
    requires forall j :: 0 <= j < |b58| - length ==> b58[j] == 0
    ensures it <= |b58| && (it == |b58| || b58[it] != 0)
    ensures forall j :: 0 <= j < it ==> b58[j] == 0
  {
    it := |b58| - length;
    while it < |b58| && b58[it] == 0
      invariant it <= |b58|
      invariant forall j :: 0 <= j < it ==> b58[j] == 0
    {
      it := it + 1;
    }
  }

  /** The last loop of `encode`: append each digit's character. */
  method AppendSymbols(prefix: string, ds: seq<Digit>) returns (s: string)
    ensures s == prefix + Symbols(ds)
  {
    s := prefix;
    var p := 0;
    while p < |ds|
      invariant p <= |ds|
      invariant s == prefix + Symbols(ds[..p])
    {
      SymbolsSnoc(ds, p);
      s := s + [Symbol(ds[p])];
      p := p + 1;
    }
    assert ds[..|ds|] == ds;
  }

  lemma SymbolsSnoc(ds: seq<Digit>, p: nat)
    requires p < |ds|
    ensures Symbols(ds[..p + 1]) == Symbols(ds[..p]) + [Symbol(ds[p])]
  {
    assert |Symbols(ds[..p + 1])| == p + 1;
  }

  /** The inner loop of `encode`: "b58 = b58 * 256 + ch", carrying from the
      least significant digit and stopping once the carry is spent and the
      `length` digits in use are passed, or at the front of the buffer.
      When the result fits the buffer no carry is lost, and the digits in
      use afterwards are counted in the new length. */
  method MultiplyAdd(b58: seq<Digit>, length: nat, ch: byte) returns (r: seq<Digit>, length': nat)
    requires length <= |b58|
    requires forall j :: 0 <= j < |b58| - length ==> b58[j] == 0
    requires Value(b58) * 256 + ch < Pow(58, |b58|)
    ensures |r| == |b58| && length' <= |r|
    ensures forall j :: 0 <= j < |r| - length' ==> r[j] == 0
    ensures Value(r) == Value(b58) * 256 + ch
  {
    var size := |b58|;
    ghost var total := Value(b58) * 256 + ch;
    r := b58;
    var carry: nat := ch;
    var i := 0;
    CarryStart(b58, ch);
    while (carry != 0 || i < length) && i < size
      invariant Carrying(b58, total, r, i, carry)
      decreases size - i
    {
      var pos := size - 1 - i;
      var t: nat := carry + 256 * (r[pos] as int);
      CarryKeeps(b58, total, r, i, carry);
      r := r[pos := t % 58];
      carry := t / 58;
      i := i + 1;
    }
    CarryDone(b58, length, total, r, i, carry);
    length' := i;
  }

  /** Before the first step nothing is written and the carry is the byte. */
  lemma CarryStart(b58: seq<Digit>, ch: byte)
    ensures Carrying(b58, Value(b58) * 256 + ch, b58, 0, ch)
  {
    ValueSplit(b58, |b58|);
    assert b58[|b58|..] == [];
  }

  /** When the loop stops, either the front of the buffer was reached, and
      then no carry is left because the target fits, or the carry is spent
      past the digits in use, and the digits not reached are zeros. Either
      way the buffer holds the target, and only the digits reached can be
      non-zero. */
  lemma CarryDone(b58: seq<Digit>, length: nat, total: int, r: seq<Digit>, i: nat, carry: nat)
    requires length <= |b58| && forall j :: 0 <= j < |b58| - length ==> b58[j] == 0
    requires Carrying(b58, total, r, i, carry) && total < Pow(58, |b58|)
    requires i == |b58| || (carry == 0 && i >= length)
    ensures Value(r) == total
    ensures forall j :: 0 <= j < |r| - i ==> r[j] == 0
  {
    if i == |b58| {
      CarryAtFront(b58, total, r, carry);
    } else {
      CarrySpent(b58, length, total, r, i);
    }
  }

  lemma CarryAtFront(b58: seq<Digit>, total: int, r: seq<Digit>, carry: nat)
    requires Carrying(b58, total, r, |b58|, carry) && total < Pow(58, |b58|)
    ensures Value(r) == total
  {
    var p, lo := Pow(58, |b58|), Value(r[0..]);
    assert b58[..0] == [] && r[0..] == r;
    assert total == (0 * 256 + carry) * p + lo;
    NoCarryLeft(total, carry, p, lo);
  }

  lemma CarrySpent(b58: seq<Digit>, length: nat, total: int, r: seq<Digit>, i: nat)
    requires length <= i < |b58| && forall j :: 0 <= j < |b58| - length ==> b58[j] == 0
    requires Carrying(b58, total, r, i, 0)
    ensures Value(r) == total
    ensures forall j :: 0 <= j < |r| - i ==> r[j] == 0
  {
    var m := |b58| - i;
    var lo := Value(r[m..]);
    ValueOfZeros(b58[..m]);
    assert total == (0 * 256 + 0) * Pow(58, i) + lo;
    assert r[..m] == b58[..m];
    ValueSplit(r, m);
    assert Value(r) == 0 * Pow(58, i) + lo;
  }

  /** The loop invariant of `MultiplyAdd` after `i` steps: the digits not
      yet reached are unchanged, and the untouched high part times 256 plus
      the carry, shifted up by the `i` digits already written, makes up the
      target value `total`. */
  ghost predicate Carrying(b58: seq<Digit>, total: int, r: seq<Digit>, i: nat, carry: nat) {
    i <= |b58| && |r| == |b58| && r[..|b58| - i] == b58[..|b58| - i] &&
    total == (Value(b58[..|b58| - i]) * 256 + carry) * Pow(58, i) + Value(r[|b58| - i..])
  }

  lemma CarryKeeps(b58: seq<Digit>, total: int, r: seq<Digit>, i: nat, carry: nat)
    requires Carrying(b58, total, r, i, carry) && i < |b58|
    ensures var pos := |b58| - 1 - i;
            var t := carry + 256 * (r[pos] as int);
            Carrying(b58, total, r[pos := t % 58], i + 1, t / 58)
  {
    var size, pos := |b58|, |b58| - 1 - i;
    var d: nat := r[pos];
    var hi, lo := Value(b58[..pos]), Value(r[pos + 1..]);
    assert b58[..size - i][..pos] == b58[..pos];
    assert Value(b58[..size - i]) == hi * 58 + d;
    var t: nat := carry + 256 * d;
    var r' := r[pos := t % 58];
    assert r'[pos..] == [t % 58] + r[pos + 1..];
    ValuePrepend(t % 58, r[pos + 1..]);
    CarryInvariant(total, hi, d, carry, Pow(58, i), lo, Value(r'[pos..]));
    assert r'[..pos] == b58[..pos];
  }

  /** One carry step keeps "b58 * 256 + ch" intact: the digit `d` becomes
      `(carry + 256 * d) % 58` and the carry moves one place up. */
  lemma CarryInvariant(total: int, hi: int, d: int, carry: int, p: int, lo: int, newLo: int)
    requires total == ((hi * 58 + d) * 256 + carry) * p + lo
    requires newLo == ((carry + 256 * d) % 58) * p + lo
    ensures total == (hi * 256 + (carry + 256 * d) / 58) * (58 * p) + newLo
  {
    CarryStep(hi, d, carry, p, lo);
  }

  lemma NoCarryLeft(total: int, carry: nat, p: nat, lo: nat)
    requires total == (0 * 256 + carry) * p + lo && total < p
    ensures carry == 0
  {
    if carry != 0 {
      MulSign(p, carry);
    }
  }

  /** `Base58Data::checkEncode(data)`: the first four bytes of the double
      SHA-256 of the data are appended, and the whole is encoded. */
  method CheckEncode(data: seq<byte>, hash256: seq<byte> -> seq<byte>) returns (s: string)
    requires forall x :: |hash256(x)| == 32
    ensures s == Encoding(data + hash256(data)[..4])
  {
    var all := data + hash256(data)[..4];
    s := Encode(all);
  }

  // ---------------------------------------------------------------------
  // Arithmetic behind the encoder

  lemma CarryStep(hi: int, d: int, carry: int, p: int, lo: int)
    ensures ((hi * 58 + d) * 256 + carry) * p + lo ==
            (hi * 256 + (carry + 256 * d) / 58) * (58 * p) + ((carry + 256 * d) % 58) * p + lo
  {
    var t := carry + 256 * d;
    var q, r := t / 58, t % 58;
    assert t == 58 * q + r;
    assert (hi * 58 + d) * 256 + carry == hi * 256 * 58 + t;
    calc {
      ((hi * 58 + d) * 256 + carry) * p;
      (hi * 256 * 58 + 58 * q + r) * p;
      { assert (hi * 256 * 58 + 58 * q + r) * p == (hi * 256 + q) * 58 * p + r * p; }
      (hi * 256 + q) * 58 * p + r * p;
      { assert (hi * 256 + q) * 58 * p == (hi * 256 + q) * (58 * p); }
      (hi * 256 + q) * (58 * p) + r * p;
    }
  }

  lemma {:induction false} ValuePrepend(x: Digit, ds: seq<Digit>)
    ensures Value([x] + ds) == x * Pow(58, |ds|) + Value(ds)
    decreases |ds|
  {
    if |ds| > 0 {
      var init, last := ds[..|ds| - 1], ds[|ds| - 1];
      var xs := [x] + ds;
      assert xs[..|xs| - 1] == [x] + init && xs[|xs| - 1] == last;
      ValuePrepend(x, init);
      var p, v := Pow(58, |init|), Value(init);
      assert Value(xs) == (x * p + v) * 58 + last;
      assert Value(ds) == v * 58 + last;
      assert Pow(58, |ds|) == 58 * p;
      PrependStep(x, p, v, last);
    }
  }

  lemma PrependStep(x: int, p: int, v: int, last: int)
    ensures (x * p + v) * 58 + last == x * (58 * p) + (v * 58 + last)
  {
  }

  lemma {:induction false} ValueSplit(ds: seq<Digit>, m: nat)
    requires m <= |ds|
    ensures Value(ds) == Value(ds[..m]) * Pow(58, |ds| - m) + Value(ds[m..])
    decreases m
  {
    if m > 0 {
      ValueSplit(ds, m - 1);
      var x, a, l, P := ds[m - 1], Value(ds[..m - 1]), Value(ds[m..]), Pow(58, |ds| - m);
      assert ds[m - 1..] == [x] + ds[m..];
      ValuePrepend(x, ds[m..]);
      assert ds[..m][..m - 1] == ds[..m - 1];
      assert Value(ds[..m]) == a * 58 + x;
      assert Pow(58, |ds| - (m - 1)) == 58 * P;
      Regroup(a, x, P, l);
    } else {
      assert ds[0..] == ds;
    }
  }

  lemma Regroup(a: int, x: int, p: int, l: int)
    ensures a * (58 * p) + (x * p + l) == (a * 58 + x) * p + l
  {
  }

  lemma {:induction false} ValueOfZeros(ds: seq<Digit>)
    requires forall j :: 0 <= j < |ds| ==> ds[j] == 0
    ensures Value(ds) == 0
    decreases |ds|
  {
    if |ds| > 0 {
      ValueOfZeros(ds[..|ds| - 1]);
    }
  }

  /** Digits without a leading zero are the digits of their value. */
  lemma {:induction false} CanonicalDigits(ds: seq<Digit>)
    requires |ds| == 0 || ds[0] != 0
    ensures Digits(Value(ds)) == ds
    decreases |ds|
  {
    if |ds| > 0 {
      var init, last := ds[..|ds| - 1], ds[|ds| - 1];
      var v := Value(ds);
      if |init| == 0 {
        assert v == last && v / 58 == 0;
      } else {
        CanonicalDigits(init);
        assert Value(init) != 0;
        DivModUnique(v, 58, Value(init), last);
        assert ds == init + [last];
      }
    }
  }

  /** The leading-zero count is the only count with its two properties. */
  lemma {:induction false} LeadingZerosUnique(data: seq<byte>, z: nat)
    requires z <= |data| && (forall j :: 0 <= j < z ==> data[j] == 0) && (z == |data| || data[z] != 0)
    ensures z == LeadingZeros(data)
  {
    if z > 0 {
      assert data[0] == 0;
      LeadingZerosUnique(data[1..], z - 1);
    }
  }

  /** `log(256) / log(58)` is below 1.38, so `n * 138 / 100 + 1` base-58
      digits hold any `n`-byte number: 58^11 > 256^8, and eight times the
      digit count exceeds eleven times the byte count. */
  lemma BufferLargeEnough(n: nat)
    ensures Pow(256, n) < Pow(58, n * 138 / 100 + 1)
  {
    var s := n * 138 / 100 + 1;
    DigitCount(n);
    if n == 0 {
      assert Pow(58, 1) == 58;
    } else {
      EighthPowers(n, s);
      if Pow(58, s) <= Pow(256, n) {
        PowBaseMonotone(Pow(58, s), Pow(256, n), 8);
        assert false;
      }
    }
  }

  lemma DigitCount(n: nat)
    ensures 8 * (n * 138 / 100 + 1) > 11 * n
  {
    assert 100 * (n * 138 / 100) + (n * 138) % 100 == n * 138;
  }

  lemma ElevenOverEight()
    ensures Pow(256, 8) < Pow(58, 11)
  {
    assert Pow(58, 11) == 24986644000165537792;
    assert Pow(256, 8) == 18446744073709551616;
  }

  /** `(256^n)^8 = (256^8)^n < (58^11)^n = 58^(11n) <= 58^(8s) = (58^s)^8`. */
  lemma EighthPowers(n: nat, s: nat)
    requires n > 0 && 8 * s > 11 * n
    ensures Pow(Pow(256, n), 8) < Pow(Pow(58, s), 8)
  {
    ElevenOverEight();
    PowMultiply(256, n, 8);
    PowMultiply(256, 8, n);
    assert n * 8 == 8 * n;
    PowBaseMonotone(Pow(256, 8), Pow(58, 11), n);
    PowMultiply(58, 11, n);
    PowMonotone(58, 11 * n, s * 8);
    PowMultiply(58, s, 8);
  }

  // ---------------------------------------------------------------------
  // Properties of the encoding

  /** Reading the digits back gives the number: the digits are its base-58
      representation. */
  lemma {:induction false} DigitsValue(v: nat)
    ensures Value(Digits(v)) == v
    decreases v
  {
    if v > 0 {
      DigitsValue(v / 58);
      var ds := Digits(v);
      assert ds[..|ds| - 1] == Digits(v / 58);
    }
  }

  /** The alphabet runs in increasing character order, so distinct digits
      have distinct characters. */
  lemma SymbolIncreasing(d: Digit, e: Digit)
    requires d < e
    ensures Symbol(d) < Symbol(e)
  {
  }

  /** Every character of an encoding is a letter or a digit other than the
      look-alikes 0, O, I and l. */
  lemma EncodingAlphabet(data: seq<byte>)
    ensures forall j :: 0 <= j < |Encoding(data)| ==> var c := Encoding(data)[j];
              ('1' <= c <= '9' || 'A' <= c <= 'Z' || 'a' <= c <= 'z') && c != 'O' && c != 'I' && c != 'l'
  {
  }

  /** The encoding starts with exactly one '1' per leading zero byte: the
      character after them, if any, is not '1'. */
  lemma LeadingOnes(data: seq<byte>)
    ensures var e, z := Encoding(data), LeadingZeros(data);
            z <= |e| && (forall j :: 0 <= j < z ==> e[j] == '1') && (z == |e| || e[z] != '1')
  {
    var z := LeadingZeros(data);
    var ds := Digits(BigEndian(data[z..]));
    if |ds| > 0 {
      assert Encoding(data)[z] == Symbol(ds[0]);
      SymbolIncreasing(0, ds[0]);
    }
  }

  /** Zero bytes alone encode to as many '1's, and nothing to nothing. */
  lemma ZerosEncodeToOnes(n: nat)
    ensures Encoding(Zeros(n)) == Ones(n)
  {
    var z := LeadingZeros(Zeros(n));
    assert z == n;
    assert Zeros(n)[n..] == [];
  }

  /** A byte string without leading zero bytes is at least 256^(n-1). */
  lemma {:induction false} BigEndianLower(s: seq<byte>)
    requires |s| > 0 && s[0] != 0
    ensures Pow(256, |s| - 1) <= BigEndian(s)
    decreases |s|
  {
    if |s| > 1 {
      var init := s[..|s| - 1];
      BigEndianLower(init);
      assert Pow(256, |s| - 1) == 256 * Pow(256, |init| - 1);
    }
  }

  /** Byte strings without leading zero bytes are told apart by their
      value. */
  lemma BigEndianCanonical(a: seq<byte>, b: seq<byte>)
    requires |a| == 0 || a[0] != 0
    requires |b| == 0 || b[0] != 0
    requires BigEndian(a) == BigEndian(b)
    ensures a == b
  {
    if |a| != |b| {
      var (short, long) := if |a| < |b| then (a, b) else (b, a);
      BigEndianLower(long);
      BigEndianBound(short);
      PowMonotone(256, |short|, |long| - 1);
      assert false;
    }
    ToBigEndianOfBigEndian(a);
    ToBigEndianOfBigEndian(b);
  }

  /** Distinct byte strings have distinct encodings, so the encoding can
      be decoded. */
  lemma EncodingInjective(a: seq<byte>, b: seq<byte>)
    requires Encoding(a) == Encoding(b)
    ensures a == b
  {
    var za, zb := LeadingZeros(a), LeadingZeros(b);
    SameLeadingOnes(a, b);
    var ra, rb := a[za..], b[zb..];
    EncodingTail(a);
    EncodingTail(b);
    SymbolsInjective(Digits(BigEndian(ra)), Digits(BigEndian(rb)));
    DigitsValue(BigEndian(ra));
    DigitsValue(BigEndian(rb));
    BigEndianCanonical(ra, rb);
    ZerosThenRest(a);
    ZerosThenRest(b);
  }

  /** Equal encodings have equally many leading '1's, hence equally many
      leading zero bytes. */
  lemma SameLeadingOnes(a: seq<byte>, b: seq<byte>)
    requires Encoding(a) == Encoding(b)
    ensures LeadingZeros(a) == LeadingZeros(b)
  {
    LeadingOnes(a);
    LeadingOnes(b);
  }

  /** After the leading '1's comes the translation of the digits. */
  lemma EncodingTail(data: seq<byte>)
    ensures var z := LeadingZeros(data);
            Encoding(data)[z..] == Symbols(Digits(BigEndian(data[z..])))
  {
  }

  /** The translation of digit sequences is one-to-one. */
  lemma SymbolsInjective(da: seq<Digit>, db: seq<Digit>)
    requires Symbols(da) == Symbols(db)
    ensures da == db
  {
    forall j | 0 <= j < |da|
      ensures da[j] == db[j]
    {
      assert Symbols(da)[j] == Symbols(db)[j];
      if da[j] < db[j] {
        SymbolIncreasing(da[j], db[j]);
      } else if db[j] < da[j] {
        SymbolIncreasing(db[j], da[j]);
      }
    }
  }

  /** A byte string is its leading zero bytes followed by the rest. */
  lemma ZerosThenRest(data: seq<byte>)
    ensures data == Zeros(LeadingZeros(data)) + data[LeadingZeros(data)..]
  {
    var z := LeadingZeros(data);
    assert data[..z] == Zeros(z);
    assert data == data[..z] + data[z..];
  }

  /** Distinct data have distinct Base58Check encodings, whatever the
      check bytes. */
  lemma CheckEncodingInjective(a: seq<byte>, b: seq<byte>, hash256: seq<byte> -> seq<byte>)
    requires forall x :: |hash256(x)| == 32
    requires Encoding(a + hash256(a)[..4]) == Encoding(b + hash256(b)[..4])
    ensures a == b
  {
    EncodingInjective(a + hash256(a)[..4], b + hash256(b)[..4]);
    assert a == (a + hash256(a)[..4])[..|a|];
  }
}

=== FILE: bytes.dfy ===
/** Bytes and unsigned big-endian integers, shared by the Base58 encoder,
    the fixed-width integer arrays and the key derivation arithmetic. */
module Bytes {

  /** An 8-bit unsigned value (`uint8_t`). */
  type byte = x: int | 0 <= x < 256

  function Pow(b: nat, e: nat): (r: nat)
    ensures b > 0 ==> r > 0
  {
    if e == 0 then 1 else b * Pow(b, e - 1)
  }

  function Zeros(n: nat): (r: seq<byte>)
    ensures |r| == n
    ensures forall i :: 0 <= i < n ==> r[i] == 0
  {
    seq(n, _ => 0)
  }

  predicate AllZero(s: seq<byte>) {
    forall i :: 0 <= i < |s| ==> s[i] == 0
  }

  /** The unsigned integer whose big-endian base-256 digits are `s`. */
  function BigEndian(s: seq<byte>): nat {
    if |s| == 0 then 0 else BigEndian(s[..|s| - 1]) * 256 + s[|s| - 1]
  }

  /** The `n` low-order base-256 digits of `x`, most significant first. */
  function ToBigEndian(x: nat, n: nat): (r: seq<byte>)
    ensures |r| == n
  {
    if n == 0 then [] else ToBigEndian(x / 256, n - 1) + [x % 256]
  }

  /** Division by a positive modulus is determined by any decomposition
      with an in-range remainder. */
  lemma DivModUnique(x: int, m: int, q: int, r: int)
    requires m > 0 && 0 <= r < m && x == m * q + r
    ensures x / m == q && x % m == r
  {
    var d := q - x / m;
    assert m * d == x % m - r;
    MulSign(m, d);
  }

  lemma MulSign(m: int, d: int)
    requires m > 0
    ensures d >= 1 ==> m * d >= m
    ensures d <= -1 ==> m * d <= -m
  {
    if d >= 1 {
      assert m * d == m + m * (d - 1);
    } else if d <= -1 {
      assert m * d == -m + m * (d + 1);
    }
  }

  lemma {:induction false} BigEndianBound(s: seq<byte>)
    ensures BigEndian(s) < Pow(256, |s|)
  {
    if |s| > 0 {
      var init := s[..|s| - 1];
      BigEndianBound(init);
      assert BigEndian(init) + 1 <= Pow(256, |init|);
      calc {
        BigEndian(s);
      ==
        BigEndian(init) * 256 + s[|s| - 1];
      <
        (BigEndian(init) + 1) * 256;
      <=
        { assert BigEndian(init) + 1 <= Pow(256, |init|); }
        Pow(256, |init|) * 256;
      ==
        Pow(256, |s|);
      }
    }
  }

  /** Encoding a value that fits in `n` bytes and reading it back is the identity. */
  lemma {:induction false} BigEndianRoundTrip(x: nat, n: nat)
    requires x < Pow(256, n)
    ensures BigEndian(ToBigEndian(x, n)) == x
  {
    if n == 0 {
    } else {
      DivModUnique(x, 256, x / 256, x % 256);
      assert x < Pow(256, n - 1) * 256;
      assert x / 256 < Pow(256, n - 1);
      BigEndianRoundTrip(x / 256, n - 1);
      var r := ToBigEndian(x, n);
      assert r[..n - 1] == ToBigEndian(x / 256, n - 1);
      assert r[n - 1] == x % 256;
    }
  }

  /** Reading a byte string and writing it back at its own width is the identity. */
  lemma {:induction false} ToBigEndianOfBigEndian(s: seq<byte>)
    ensures ToBigEndian(BigEndian(s), |s|) == s
  {
    if |s| > 0 {
      var init := s[..|s| - 1];
      DivModUnique(BigEndian(s), 256, BigEndian(init), s[|s| - 1]);
      ToBigEndianOfBigEndian(init);
      assert s == init + [s[|s| - 1]];
    }
  }

  lemma {:induction false} PowMonotone(b: nat, j: nat, k: nat)
    requires b >= 1 && j <= k
    ensures Pow(b, j) <= Pow(b, k)
    decreases k
  {
    if j < k {
      PowMonotone(b, j, k - 1);
      MulSign(Pow(b, k - 1), b);
    }
  }

  lemma {:induction false} PowAdd(b: nat, j: nat, k: nat)
    ensures Pow(b, j + k) == Pow(b, j) * Pow(b, k)
    decreases k
  {
    if k > 0 {
      PowAdd(b, j, k - 1);
      var x, y := Pow(b, j), Pow(b, k - 1);
      assert Pow(b, j + k) == b * Pow(b, j + (k - 1));
      assert Pow(b, k) == b * y;
      MulRotate(b, x, y);
    }
  }

  lemma MulRotate(b: int, x: int, y: int)
    ensures b * (x * y) == x * (b * y)
  {
  }

  lemma {:induction false} PowMultiply(b: nat, j: nat, k: nat)
    ensures Pow(b, j * k) == Pow(Pow(b, j), k)
    decreases k
  {
    if k > 0 {
      PowMultiply(b, j, k - 1);
      assert j * k == j + j * (k - 1);
      PowAdd(b, j, j * (k - 1));
    }
  }

  lemma MulLe(m: nat, a: nat, b: nat)
    requires a <= b
    ensures m * a <= m * b
  {
    if m > 0 && a < b {
      MulSign(m, b - a);
    }
  }

  /** A larger base gives a larger power. */
  lemma {:induction false} PowBaseMonotone(a: nat, b: nat, k: nat)
    requires a <= b
    ensures Pow(a, k) <= Pow(b, k)
    ensures a < b && k > 0 ==> Pow(a, k) < Pow(b, k)
    decreases k
  {
    if k > 0 {
      PowBaseMonotone(a, b, k - 1);
      ProductMonotone(a, b, Pow(a, k - 1), Pow(b, k - 1));
    }
  }

  lemma ProductMonotone(a: nat, b: nat, x: nat, y: nat)
    requires a <= b && x <= y
    ensures a * x <= b * y
    ensures a < b && x > 0 ==> a * x < b * y
  {
    MulLe(x, a, b);
    MulLe(b, x, y);
    if a < b && x > 0 {
      MulSign(x, b - a);
    }
  }
}

=== FILE: context_action.dfy ===
/** A registry of named actions: each name holds a functor together with the
    arguments it is to be called with. Running an action calls the functor
    with its stored arguments; the call itself is outside the model, so
    running returns the action it invoked. */
module ContextAction {
  import opened Wrappers

  /** `FunctorArgsPack`. */
  datatype Action<F, A> = Action(functor: F, args: A)

  /** `mActions`, ordered by name in the source. */
  datatype Registry<F, A> = Registry(actions: map<string, Action<F, A>>)

  function Empty<F, A>(): Registry<F, A> {
    Registry(map[])
  }

  /** `addAction(name, functor, args...)`: an emplace, so a name that is
      already registered keeps its first action. */
  function AddAction<F, A>(r: Registry<F, A>, name: string, functor: F, args: A): (r': Registry<F, A>)
    ensures name in r'.actions
    ensures name in r.actions ==> r' == r
    ensures name !in r.actions ==> r'.actions[name] == Action(functor, args)
    ensures forall n :: n != name ==> (n in r'.actions <==> n in r.actions)
    ensures forall n :: n != name && n in r.actions ==> r'.actions[n] == r.actions[n]
  {
    if name in r.actions then r else Registry(r.actions[name := Action(functor, args)])
  }

  /** `removeAction(name)`: true and the entry erased when the name is
      registered; false and nothing changed otherwise. */
  function RemoveAction<F, A>(r: Registry<F, A>, name: string): (res: (bool, Registry<F, A>))
    ensures res.0 <==> name in r.actions
    ensures !res.0 ==> res.1 == r
    ensures name !in res.1.actions
    ensures forall n :: n != name ==> (n in res.1.actions <==> n in r.actions)
    ensures forall n :: n != name && n in r.actions ==> res.1.actions[n] == r.actions[n]
  {
    if name in r.actions then (true, Registry(r.actions - {name})) else (false, r)
  }

  /** `runAction(name)`: true when the name is registered, and then the
      stored functor is invoked with the stored arguments; the registry is
      not changed. The second component is the invocation, if any. */
  function RunAction<F, A>(r: Registry<F, A>, name: string): (res: (bool, Option<Action<F, A>>))
    ensures res.0 <==> name in r.actions
    ensures res.0 <==> res.1.Some?
    ensures res.0 ==> res.1.value == r.actions[name]
  {
    if name in r.actions then (true, Some(r.actions[name])) else (false, None)
  }

  /** After a successful removal the name no longer runs. */
  lemma RemoveThenRun<F, A>(r: Registry<F, A>, name: string)
    requires RemoveAction(r, name).0
    ensures RunAction(RemoveAction(r, name).1, name) == (false, None)
  {
  }

  /** An added name runs, invoking the first action registered under it. */
  lemma AddThenRun<F, A>(r: Registry<F, A>, name: string, f1: F, a1: A, f2: F, a2: A)
    requires name !in r.actions
    ensures RunAction(AddAction(AddAction(r, name, f1, a1), name, f2, a2), name) == (true, Some(Action(f1, a1)))
  {
  }

  /** Adding a new name and removing it restores the registry. */
  lemma AddThenRemove<F, A>(r: Registry<F, A>, name: string, f: F, a: A)
    requires name !in r.actions
    ensures RemoveAction(AddAction(r, name, f, a), name) == (true, r)
  {
    assert r.actions[name := Action(f, a)] - {name} == r.actions;
  }
}

=== FILE: fnv1a_hash.dfy ===
/** Fowler–Noll–Vo FNV-1a hashing of NUL-terminated C strings, 32- and
    64-bit variants, as the compile-time `Hash::fnv1a32`/`Hash::fnv1a64`
    compute it. Unsigned wrap-around is exact because the state lives in
    `bv32`/`bv64`, whose multiplication is modulo 2^32 / 2^64. */
module Fnv1aHash {

  const Offset32: bv32 := 0x811c9dc5
  const Prime32: bv32 := 0x1000193
  const Offset64: bv64 := 0xcbf29ce484222325
  const Prime64: bv64 := 0x100000001b3

  /** Every character fits in one C `char`. */
  predicate CChars(s: string) {
    forall i :: 0 <= i < |s| ==> s[i] as int < 256
  }

  /** No byte of the string has its top bit set. */
  predicate Ascii(s: string) {
    forall i :: 0 <= i < |s| ==> s[i] as int < 128
  }

  /** The operand `value ^ str[0]` sees: the `char` is promoted to `int`
      and converted to the unsigned hash width. On platforms whose `char`
      is signed, bytes from 0x80 up are negative and sign-extend. */
  function Widen32(c: char): bv32
    requires c as int < 256
  {
    if c as int < 128 then c as int as bv32 else (c as int + 0xFFFF_FF00) as bv32
  }

  function Widen64(c: char): bv64
    requires c as int < 256
  {
    if c as int < 128 then c as int as bv64 else (c as int + 0xFFFF_FFFF_FFFF_FF00) as bv64
  }

  /** One FNV-1a round: exclusive-or the operand in, then multiply by the
      prime modulo 2^32. */
  function Step32(h: bv32, operand: bv32): bv32 {
    (h ^ operand) * Prime32
  }

  function Step64(h: bv64, operand: bv64): bv64 {
    (h ^ operand) * Prime64
  }

  /** `fnv1a32(str, value)`: folds the characters up to the first NUL
      (or the end of the sequence) into `value`. */
  function Fnv1a32(s: string, value: bv32): bv32
    requires CChars(s)
  {
    if |s| == 0 || s[0] == '\0' then value
    else Fnv1a32(s[1..], Step32(value, Widen32(s[0])))
  }

  function Fnv1a64(s: string, value: bv64): bv64
    requires CChars(s)
  {
    if |s| == 0 || s[0] == '\0' then value
    else Fnv1a64(s[1..], Step64(value, Widen64(s[0])))
  }

  /** Reference FNV-1a over octets: a left fold of the round over the whole
      input, each octet zero-extended. */
  function Reference32(s: string, h: bv32): bv32
    requires CChars(s)
  {
    if |s| == 0 then h else Reference32(s[1..], Step32(h, s[0] as int as bv32))
  }

  function Reference64(s: string, h: bv64): bv64
    requires CChars(s)
  {
    if |s| == 0 then h else Reference64(s[1..], Step64(h, s[0] as int as bv64))
  }

  predicate NoNul(s: string) {
    forall i :: 0 <= i < |s| ==> s[i] != '\0'
  }

  /** The published FNV-1a test vector for the one-letter string "a". */
  lemma KnownVector()
    ensures Fnv1a32("a", Offset32) == 0xe40c292c
    ensures Fnv1a64("a", Offset64) == 0xaf63dc4c8601ec8c
  {
    assert "a"[1..] == [];
    assert Widen32('a') == 0x61;
    assert Widen64('a') == 0x61;
  }

  /** On ASCII text without NUL the C-string hash is the textbook FNV-1a. */
  lemma {:induction false} AsciiAgrees32(s: string, h: bv32)
    requires CChars(s) && Ascii(s) && NoNul(s)
    ensures Fnv1a32(s, h) == Reference32(s, h)
  {
    if |s| > 0 {
      assert Widen32(s[0]) == s[0] as int as bv32;
      AsciiAgrees32(s[1..], Step32(h, s[0] as int as bv32));
    }
  }

  lemma {:induction false} AsciiAgrees64(s: string, h: bv64)
    requires CChars(s) && Ascii(s) && NoNul(s)
    ensures Fnv1a64(s, h) == Reference64(s, h)
  {
    if |s| > 0 {
      assert Widen64(s[0]) == s[0] as int as bv64;
      AsciiAgrees64(s[1..], Step64(h, s[0] as int as bv64));
    }
  }

  /** The hash stops at the first NUL: whatever follows it is ignored. */
  lemma {:induction false} StopsAtNul32(s: string, t: string, h: bv32)
    requires CChars(s) && CChars(t) && NoNul(s)
    ensures Fnv1a32(s + ['\0'] + t, h) == Fnv1a32(s, h)
  {
    if |s| > 0 {
      assert (s + ['\0'] + t)[1..] == s[1..] + ['\0'] + t;
      StopsAtNul32(s[1..], t, Step32(h, Widen32(s[0])));
    } else {
      assert (s + ['\0'] + t)[0] == '\0';
    }
  }

  /** Folding composes over concatenation: hashing `s ++ t` from `h` is
      hashing `t` from the state reached after `s`. */
  lemma {:induction false} Compose32(s: string, t: string, h: bv32)
    requires CChars(s) && CChars(t) && NoNul(s)
    ensures Fnv1a32(s + t, h) == Fnv1a32(t, Fnv1a32(s, h))
  {
    if |s| == 0 {
      assert s + t == t;
    } else {
      assert (s + t)[1..] == s[1..] + t;
      Compose32(s[1..], t, Step32(h, Widen32(s[0])));
    }
  }

  lemma {:induction false} Compose64(s: string, t: string, h: bv64)
    requires CChars(s) && CChars(t) && NoNul(s)
    ensures Fnv1a64(s + t, h) == Fnv1a64(t, Fnv1a64(s, h))
  {
    if |s| == 0 {
      assert s + t == t;
    } else {
      assert (s + t)[1..] == s[1..] + t;
      Compose64(s[1..], t, Step64(h, Widen64(s[0])));
    }
  }
}

=== FILE: key_ec_secp256k1.dfy ===
/** The secp256k1 private key: a secret of 32 bytes whose metadata records
    its network and whether its public key is compressed. The elliptic-curve
    operations (the secp256k1 key check, the public key's hex form, SHA-256)
    are parameters, as are the Shamir sharing of Crypto++, the seeder's
    output and the WIF decoder's results. */
module KeyECSecp256k1 {
  import opened Wrappers
  import opened Bytes
  import opened MetaDataDefinitions
  import MetaDataCollection
  import Secret

  /** `KEY_ECSECP256K1_SIZE`. */
  const KeySize: nat := 32

  /** The order n of the secp256k1 base point (section 2.4.1 of SEC 2:
      Recommended Elliptic Curve Domain Parameters). */
  const Order: nat := 0xFFFFFFFFFFFFFFFFFFFFFFFFFFFFFFFEBAAEDCE6AF48A03BBFD25E8CD0364141

  /** A key is a secret: its bytes, name and metadata. */
  type Key = Secret.Secret

  /** The operations the key borrows from libsecp256k1 and Crypto++:
      `secp256k1_ec_seckey_verify`, the hex form of the compressed public
      key, and SHA-256. */
  datatype Curve = Curve(checkSecKey: seq<byte> -> bool, pubKeyHex: seq<byte> -> string, sha256: seq<byte> -> seq<byte>)

  /** One key fragment: a share, its index, the public key of the key it
      came from, and that key's metadata. */
  datatype Fragment = Fragment(share: seq<byte>, index: int, pubKey: string, meta: MetaDataCollection.Collection)

  datatype KeyError =
    | InvalidKey             // "Private key is not secp256k1 compliant key."
    | BadWifLength(length: nat)
    | NegativeShareCount
    | InvalidRecoveryShares
    | EmptyFragments
    | RecoveryFailed
    | MissingMetaData(key: string)
    | NoValidDraw            // the seeder produced no valid key within the draws given

  const NetworkKey: string := KeyTypeName(NetworkTypeKey)
  const CompressionKey: string := KeyTypeName(CompressionTypeKey)

  /** The metadata value under `key`, if any. */
  function Meta(k: Key, key: string): Option<string> {
    if key in k.meta.meta then Some(k.meta.meta[key]) else None
  }

  // ---------------------------------------------------------------------
  // Naming and metadata

  /** `nameSecret()`: a key with secret bytes but no name is named after its
      compressed public key; computing that key fails for an invalid
      secret. A named or empty key is left alone. */
  function NameSecret(k: Key, curve: Curve): (r: Result<Key, KeyError>)
    ensures r.Failure? <==> !Secret.Empty(k) && k.name == "" && !curve.checkSecKey(k.data)
    ensures r.Failure? ==> r.error == InvalidKey
    ensures r.Success? ==> r.value.data == k.data && r.value.meta == k.meta && r.value.encryptedData == k.encryptedData
    ensures r.Success? && k.name != "" ==> r.value == k
    ensures r.Success? && Secret.Empty(k) ==> r.value == k
  {
    if !Secret.Empty(k) && k.name == "" then
      if curve.checkSecKey(k.data) then Success(Secret.SetName(k, curve.pubKeyHex(k.data)))
      else Failure(InvalidKey)
    else Success(k)
  }

  /** Naming twice is naming once. */
  lemma NameSecretIdempotent(k: Key, curve: Curve)
    requires NameSecret(k, curve).Success?
    ensures NameSecret(NameSecret(k, curve).value, curve) == NameSecret(k, curve)
  {
  }

  /** `setNetworkType(network)`: records the network and then names the
      key, which may fail as `NameSecret` does. */
  function SetNetworkType(k: Key, network: NetworkType, curve: Curve): (r: Result<Key, KeyError>)
    ensures r.Success? <==> NameSecret(k, curve).Success?
    ensures r.Success? ==> Meta(r.value, NetworkKey) == Some(NetworkTypeName(network))
    ensures r.Success? ==> forall key :: key != NetworkKey ==> Meta(r.value, key) == Meta(k, key)
  {
    NameSecret(Secret.SetMetaData(k, NetworkKey, NetworkTypeName(network)), curve)
  }

  /** `setCompressionType(compression)`. */
  function SetCompressionType(k: Key, c: CompressionType): (r: Key)
    ensures Meta(r, CompressionKey) == Some(CompressionTypeName(c))
    ensures forall key :: key != CompressionKey ==> Meta(r, key) == Meta(k, key)
    ensures r.data == k.data && r.name == k.name
  {
    Secret.SetMetaData(k, CompressionKey, CompressionTypeName(c))
  }

  /** `init()`: the default network is recorded only when no network is
      recorded yet (which names the key), and compression defaults to
      compressed only when none is recorded. */
  function Init(k: Key, defaultNetwork: NetworkType, curve: Curve): (r: Result<Key, KeyError>)
    ensures r.Failure? <==> Meta(k, NetworkKey).None? && NameSecret(k, curve).Failure?
    ensures r.Success? ==> Meta(r.value, NetworkKey).Some? && Meta(r.value, CompressionKey).Some?
    ensures r.Success? ==> forall key :: Meta(k, key).Some? ==> Meta(r.value, key) == Meta(k, key)
    ensures r.Success? && Meta(k, NetworkKey).None? ==> Meta(r.value, NetworkKey) == Some(NetworkTypeName(defaultNetwork))
    ensures r.Success? && Meta(k, CompressionKey).None? ==> Meta(r.value, CompressionKey) == Some(CompressionTypeName(Compressed))
    ensures r.Success? ==> forall key :: key != NetworkKey && key != CompressionKey ==> Meta(r.value, key) == Meta(k, key)
    ensures r.Success? ==> r.value.data == k.data
  {
    var k1 :- if NetworkKey in k.meta.meta then Success(k) else SetNetworkType(k, defaultNetwork, curve);
    if CompressionKey in k1.meta.meta then Success(k1) else Success(SetCompressionType(k1, Compressed))
  }

  /** A second `init` finds both entries and changes nothing. */
  lemma InitIdempotent(k: Key, defaultNetwork: NetworkType, curve: Curve)
    requires Init(k, defaultNetwork, curve).Success?
    ensures Init(Init(k, defaultNetwork, curve).value, defaultNetwork, curve) == Init(k, defaultNetwork, curve)
  {
  }

  // ---------------------------------------------------------------------
  // Construction

  /** The constructor from a secret: `init`, then the secret must be a
      valid secp256k1 key. */
  function FromSecret(s: Secret.Secret, defaultNetwork: NetworkType, curve: Curve): (r: Result<Key, KeyError>)
    ensures r.Success? ==> curve.checkSecKey(r.value.data) && r.value.data == s.data
    ensures !curve.checkSecKey(s.data) ==> r.Failure?
    ensures r.Success? <==> Init(s, defaultNetwork, curve).Success? && curve.checkSecKey(s.data)
    ensures r.Success? ==> r.value == Init(s, defaultNetwork, curve).value
    ensures r.Success? ==> Meta(r.value, NetworkKey).Some? && Meta(r.value, CompressionKey).Some?
  {
    var k :- Init(s, defaultNetwork, curve);
    if curve.checkSecKey(k.data) then Success(k) else Failure(InvalidKey)
  }

  /** A valid secret that already records a network and a compression is
      taken over unchanged, so constructing again from a constructed key
      gives the same key. */
  lemma FromSecretKeepsInitialised(s: Secret.Secret, defaultNetwork: NetworkType, curve: Curve)
    requires curve.checkSecKey(s.data)
    ensures Meta(s, NetworkKey).Some? && Meta(s, CompressionKey).Some? ==> FromSecret(s, defaultNetwork, curve) == Success(s)
    ensures FromSecret(s, defaultNetwork, curve).Success? ==>
              FromSecret(FromSecret(s, defaultNetwork, curve).value, defaultNetwork, curve) == FromSecret(s, defaultNetwork, curve)
  {
  }

  /** The index of the first draw that is a valid key. */
  function FirstValid(draws: seq<seq<byte>>, check: seq<byte> -> bool): (r: Option<nat>)
    ensures r.Some? <==> exists i :: 0 <= i < |draws| && check(draws[i])
    ensures r.Some? ==> r.value < |draws| && check(draws[r.value]) &&
                        forall j :: 0 <= j < r.value ==> !check(draws[j])
  {
    if |draws| == 0 then None
    else if check(draws[0]) then Some(0)
    else
      var rest := FirstValid(draws[1..], check);
      assert forall i :: 1 <= i < |draws| ==> draws[i] == draws[1..][i - 1];
      if rest.Some? then Some(rest.value + 1) else None
  }

  /** `makeNewKey()`: 32-byte draws from the seeder (`draws`, in order) are
      taken until one passes the secp256k1 check; that one becomes the
      secret, which is then named. The source loops until a draw passes;
      here the draws are finite and running out is `NoValidDraw`. */
  method MakeNewKey(k: Key, draws: seq<seq<byte>>, curve: Curve) returns (r: Result<Key, KeyError>)
    requires forall i :: 0 <= i < |draws| ==> |draws[i]| == KeySize
    ensures r.Failure? <==> forall i :: 0 <= i < |draws| ==> !curve.checkSecKey(draws[i])
    ensures r.Success? ==> |r.value.data| == KeySize && curve.checkSecKey(r.value.data)
    ensures r.Success? ==> FirstValid(draws, curve.checkSecKey).Some? && r.value.data == draws[FirstValid(draws, curve.checkSecKey).value]
    ensures r.Success? ==> r.value.meta == k.meta
  {
    var i := 0;
    while i < |draws| && !curve.checkSecKey(draws[i])
      invariant 0 <= i <= |draws|
      invariant forall j :: 0 <= j < i ==> !curve.checkSecKey(draws[j])
    {
      i := i + 1;
    }
    if i == |draws| {
      return Failure(NoValidDraw);
    }
    FirstValidIs(draws, curve.checkSecKey, i);
    var k1 := Secret.SetSecret(k, draws[i]);
    var named := NameSecret(k1, curve);
    r := Success(named.value);
  }

  lemma FirstValidIs(draws: seq<seq<byte>>, check: seq<byte> -> bool, i: nat)
    requires i < |draws| && check(draws[i]) && forall j :: 0 <= j < i ==> !check(draws[j])
    ensures FirstValid(draws, check) == Some(i)
  {
    var f := FirstValid(draws, check);
    assert f.value == i by {
      if f.value < i {
      } else if f.value > i {
      }
    }
  }

  // ---------------------------------------------------------------------
  // Wallet import format

  /** `importFromWIF(wif)` after the Base58Check decode: `rawKey` is the
      decoded payload, `versionLength` the length of its version prefix
      and `network` the prefix's network. The prefix is stripped; 32 bytes
      are an uncompressed key, 33 bytes ending in 0x01 a compressed key
      without that byte, any other 33 bytes an uncompressed 33-byte key, and
      any other length an error. */
  function ImportFromWif(k: Key, rawKey: seq<byte>, versionLength: nat, network: NetworkType, curve: Curve): (r: Result<Key, KeyError>)
    requires versionLength <= |rawKey|
    ensures var n := |rawKey| - versionLength;
            n != KeySize && n != KeySize + 1 <==> r == Failure(BadWifLength(n))
    ensures r.Success? ==> var payload := rawKey[versionLength..];
            var compressed := |payload| == KeySize + 1 && payload[KeySize] == 1;
            r.value.data == (if compressed then payload[..KeySize] else payload) &&
            Meta(r.value, CompressionKey) == Some(CompressionTypeName(if compressed then Compressed else Uncompressed)) &&
            Meta(r.value, NetworkKey) == Some(NetworkTypeName(network))
    ensures r.Success? ==> forall key :: key != NetworkKey && key != CompressionKey ==> Meta(r.value, key) == Meta(k, key)
  {
    var payload := rawKey[versionLength..];
    if |payload| != KeySize && |payload| != KeySize + 1 then Failure(BadWifLength(|payload|))
    else
      var compressed := |payload| == KeySize + 1 && payload[KeySize] == 1;
      var data := if compressed then payload[..KeySize] else payload;
      var k1 := SetCompressionType(k, if compressed then Compressed else Uncompressed);
      var k2 := Secret.SetMetaData(k1, NetworkKey, NetworkTypeName(network));
      NameSecret(Secret.SetSecret(k2, data), curve)
  }

  /** A WIF payload built as version bytes, the 32 key bytes and, for a
      compressed key, the byte 0x01 imports back to the same key bytes and
      compression. */
  lemma WifPayloadRoundTrip(k: Key, version: seq<byte>, data: seq<byte>, compressed: bool, network: NetworkType, curve: Curve)
    requires |data| == KeySize && curve.checkSecKey(data)
    ensures var raw := version + data + (if compressed then [1] else []);
            var r := ImportFromWif(k, raw, |version|, network, curve);
            r.Success? && r.value.data == data &&
            Meta(r.value, CompressionKey) == Some(CompressionTypeName(if compressed then Compressed else Uncompressed))
  {
    var raw := version + data + (if compressed then [1] else []);
    var payload := raw[|version|..];
    assert payload == data + (if compressed then [1] else []);
    if compressed {
      assert |payload| == KeySize + 1 && payload[KeySize] == 1;
      assert payload[..KeySize] == data;
    } else {
      assert payload == data;
    }
  }

  // ---------------------------------------------------------------------
  // Splitting and recovery

  /** The argument checks of `split(n, m)`: a negative share count, or a
      recovery threshold above the share count or not positive, is
      refused. */
  function SplitArguments(n: int, m: int): (r: Option<KeyError>)
    ensures r.None? <==> 0 < m <= n
    ensures n < 0 ==> r == Some(NegativeShareCount)
  {
    if n < 0 then Some(NegativeShareCount)
    else if m > n || m <= 0 then Some(InvalidRecoveryShares)
    else None
  }

  /** `split(n, m)` as written: after the argument checks and the key check
      (the DER export and the public key both need a valid key), share `i`
      (`shareOf(i)`, from Crypto++'s Shamir sharing) becomes a fragment
      whose index is counted in a `uint8_t` from 1, so it wraps to 0 after
      255. */
  function SplitAsWritten(k: Key, n: int, m: int, shareOf: nat -> seq<byte>, curve: Curve): (r: Result<seq<Fragment>, KeyError>)
    ensures r.Success? <==> 0 < m <= n && curve.checkSecKey(k.data)
    ensures r.Success? ==> (|r.value| == n &&
            forall i :: 0 <= i < n ==> r.value[i].index == (i + 1) % 256 && r.value[i].share == shareOf(i))
  {
    if SplitArguments(n, m).Some? then Failure(SplitArguments(n, m).value)
    else if !curve.checkSecKey(k.data) then Failure(InvalidKey)
    else Success(seq(n, i requires 0 <= i => Fragment(shareOf(i), (i + 1) % 256, curve.pubKeyHex(k.data), k.meta)))
  }

  /** With 257 shares the first and the last fragment carry the same
      index, 1. */
  lemma SplitAsWrittenRepeatsIndex(k: Key, shareOf: nat -> seq<byte>, curve: Curve)
    requires curve.checkSecKey(k.data)
    ensures var r := SplitAsWritten(k, 257, 2, shareOf, curve);
            r.Success? && r.value[0].index == r.value[256].index == 1
  {
  }

  /** `split(n, m)` with the fragments numbered 1 to n. */
  function Split(k: Key, n: int, m: int, shareOf: nat -> seq<byte>, curve: Curve): (r: Result<seq<Fragment>, KeyError>)
    ensures r.Success? <==> 0 < m <= n && curve.checkSecKey(k.data)
    ensures r.Failure? && !(0 < m <= n) ==> Some(r.error) == SplitArguments(n, m)
    ensures r.Success? ==> (|r.value| == n &&
            forall i :: 0 <= i < n ==> r.value[i].share == shareOf(i) && r.value[i].pubKey == curve.pubKeyHex(k.data) &&
                                       r.value[i].meta == k.meta)
  {
    if SplitArguments(n, m).Some? then Failure(SplitArguments(n, m).value)
    else if !curve.checkSecKey(k.data) then Failure(InvalidKey)
    else Success(seq(n, i requires 0 <= i => Fragment(shareOf(i), i + 1, curve.pubKeyHex(k.data), k.meta)))
  }

  /** The fragments of a split are numbered 1 to n in order, so no two
      share an index; up to 255 fragments the numbering is the source's. */
  lemma SplitIndices(k: Key, n: int, m: int, shareOf: nat -> seq<byte>, curve: Curve)
    requires Split(k, n, m, shareOf, curve).Success?
    ensures var fs := Split(k, n, m, shareOf, curve).value;
            (forall i :: 0 <= i < n ==> fs[i].index == i + 1) &&
            (forall i, j :: 0 <= i < j < n ==> fs[i].index != fs[j].index)
    ensures n <= 255 ==> SplitAsWritten(k, n, m, shareOf, curve) == Split(k, n, m, shareOf, curve)
  {
    var fs := Split(k, n, m, shareOf, curve).value;
    if n <= 255 {
      var ws := SplitAsWritten(k, n, m, shareOf, curve).value;
      assert |ws| == |fs|;
      forall i | 0 <= i < n
        ensures ws[i] == fs[i]
      {
        assert (i + 1) % 256 == i + 1;
      }
      assert ws == fs;
    }
  }

  /** The shares of a list of fragments, in order. */
  function Shares(fragments: seq<Fragment>): (r: seq<seq<byte>>)
    ensures |r| == |fragments| && forall i :: 0 <= i < |r| ==> r[i] == fragments[i].share
  {
    seq(|fragments|, i requires 0 <= i < |fragments| => fragments[i].share)
  }

  /** `recover(fragments)`: an empty list is refused; otherwise the shares
      are combined by Crypto++'s Shamir recovery and DER-decoded
      (`combine`, which fails with `None`). */
  function Recover(fragments: seq<Fragment>, combine: seq<seq<byte>> -> Option<seq<byte>>): (r: Result<seq<byte>, KeyError>)
    ensures |fragments| == 0 <==> r == Failure(EmptyFragments)
    ensures |fragments| > 0 ==> (r.Success? <==> combine(Shares(fragments)).Some?)
    ensures r.Success? ==> r.value == combine(Shares(fragments)).value
  {
    if |fragments| == 0 then Failure(EmptyFragments)
    else match combine(Shares(fragments))
      case None => Failure(RecoveryFailed)
      case Some(key) => Success(key)
  }

  /** The constructor from fragments: `init` on an empty key, then the
      recovered bytes become the secret, which is named. */
  function FromFragments(fragments: seq<Fragment>, combine: seq<seq<byte>> -> Option<seq<byte>>,
                         defaultNetwork: NetworkType, curve: Curve): (r: Result<Key, KeyError>)
    ensures r.Success? ==> Recover(fragments, combine) == Success(r.value.data)
    ensures Recover(fragments, combine).Failure? ==> r.Failure?
    ensures r.Success? ==> Meta(r.value, NetworkKey) == Some(NetworkTypeName(defaultNetwork)) &&
                           Meta(r.value, CompressionKey) == Some(CompressionTypeName(Compressed))
  {
    var empty := Secret.Secret("", [], [], [], MetaDataCollection.Empty);
    var k := Init(empty, defaultNetwork, curve).value;
    var data :- Recover(fragments, combine);
    NameSecret(Secret.SetSecret(k, data), curve)
  }

  /** The fragments of a split carry the shares in order, so whenever the
      Shamir combine restores the key from all n shares, recovering from
      the fragments gives back the key's bytes. */
  lemma SplitPassesSharesInOrder(k: Key, n: int, m: int, shareOf: nat -> seq<byte>, curve: Curve,
                                 combine: seq<seq<byte>> -> Option<seq<byte>>)
    requires 0 < m <= n && curve.checkSecKey(k.data)
    requires combine(seq(n, i requires 0 <= i => shareOf(i))) == Some(k.data)
    ensures Recover(Split(k, n, m, shareOf, curve).value, combine) == Success(k.data)
  {
    var fs := Split(k, n, m, shareOf, curve).value;
    assert Shares(fs) == seq(n, i requires 0 <= i => shareOf(i));
  }

  // ---------------------------------------------------------------------
  // Derivation

  /** The scalar of a derived key: the old scalar plus the message's SHA-256
      as a big-endian number, modulo the group order. */
  function DerivedScalar(scalar: nat, hash: seq<byte>): (r: nat)
    ensures r < Order
  {
    (scalar + BigEndian(hash)) % Order
  }

  /** `derive(message)`: the new key's bytes are the 32-byte big-endian
      encoding of the derived scalar; its metadata holds only the network,
      copied from this key (a key without one cannot derive), before the
      new key's own `init` adds the compression; its name is the random one
      the secret constructor picks for an empty name; and it must be a
      valid key. */
  function Derive(k: Key, message: seq<byte>, randomName: string, defaultNetwork: NetworkType, curve: Curve): (r: Result<Key, KeyError>)
    ensures Meta(k, NetworkKey).None? ==> r == Failure(MissingMetaData(NetworkKey))
    ensures r.Success? ==> (|r.value.data| == KeySize && curve.checkSecKey(r.value.data) &&
            BigEndian(r.value.data) == DerivedScalar(BigEndian(k.data), curve.sha256(message)))
    ensures r.Success? ==> (Meta(r.value, NetworkKey) == Meta(k, NetworkKey) &&
            Meta(r.value, CompressionKey) == Some(CompressionTypeName(Compressed)) &&
            r.value.meta.meta.Keys == {NetworkKey, CompressionKey})
    ensures Meta(k, NetworkKey).Some? ==>
            (r.Success? <==> curve.checkSecKey(ToBigEndian(DerivedScalar(BigEndian(k.data), curve.sha256(message)), KeySize)))
  {
    var v := DerivedScalar(BigEndian(k.data), curve.sha256(message));
    var newMeta :- CopyNetwork(k);
    var bytes := ToBigEndian(v, KeySize);
    OrderFitsKeySize();
    BigEndianRoundTrip(v, KeySize);
    var s := Secret.New(bytes, "", Some(newMeta), randomName);
    FromSecret(s, defaultNetwork, curve)
  }

  /** `copyMetaData(ours, NETWORK_TYPE)` into a new, empty collection. */
  function CopyNetwork(k: Key): (r: Result<MetaDataCollection.Collection, KeyError>)
    ensures Meta(k, NetworkKey).None? <==> r == Failure(MissingMetaData(NetworkKey))
    ensures r.Success? ==> r.value.meta == map[NetworkKey := k.meta.meta[NetworkKey]]
  {
    match MetaDataCollection.CopyMetaData(MetaDataCollection.Empty, k.meta, NetworkTypeKey)
    case Failure(_) => Failure(MissingMetaData(NetworkKey))
    case Success(c) => Success(c)
  }

  lemma OrderFitsKeySize()
    ensures Order < Pow(256, KeySize)
  {
    Pow256To32();
  }

  lemma Pow256To8()
    ensures Pow(256, 8) == 0x1_0000_0000_0000_0000
  {
  }

  lemma Pow256To16()
    ensures Pow(256, 16) == 0x1_0000_0000_0000_0000_0000_0000_0000_0000
  {
    PowAdd(256, 8, 8);
    Pow256To8();
  }

  lemma Pow256To32()
    ensures Pow(256, 32) == 0x1_0000_0000_0000_0000_0000_0000_0000_0000_0000_0000_0000_0000_0000_0000_0000_0000
  {
    PowAdd(256, 16, 16);
    Pow256To16();
  }

  /** A derived key's bytes are the fixed-width encoding of its scalar. */
  lemma DeriveData(k: Key, m: seq<byte>, name: string, net: NetworkType, curve: Curve)
    requires Derive(k, m, name, net, curve).Success?
    ensures Derive(k, m, name, net, curve).value.data ==
            ToBigEndian(DerivedScalar(BigEndian(k.data), curve.sha256(m)), KeySize)
  {
    ToBigEndianOfBigEndian(Derive(k, m, name, net, curve).value.data);
  }

  /** Derivation by two messages reaches the same scalar in either order:
      the hashes add up modulo the order. */
  lemma DeriveCommutes(k: Key, m1: seq<byte>, m2: seq<byte>, n1: string, n2: string, net: NetworkType, curve: Curve)
    requires Derive(k, m1, n1, net, curve).Success? && Derive(k, m2, n1, net, curve).Success?
    requires Derive(Derive(k, m1, n1, net, curve).value, m2, n2, net, curve).Success?
    requires Derive(Derive(k, m2, n1, net, curve).value, m1, n2, net, curve).Success?
    ensures Derive(Derive(k, m1, n1, net, curve).value, m2, n2, net, curve).value.data ==
            Derive(Derive(k, m2, n1, net, curve).value, m1, n2, net, curve).value.data
  {
    var k1 := Derive(k, m1, n1, net, curve).value;
    var k2 := Derive(k, m2, n1, net, curve).value;
    DeriveData(k1, m2, n2, net, curve);
    DeriveData(k2, m1, n2, net, curve);
    ScalarsCommute(BigEndian(k.data), curve.sha256(m1), curve.sha256(m2));
  }

  lemma ScalarsCommute(a: nat, h1: seq<byte>, h2: seq<byte>)
    ensures DerivedScalar(DerivedScalar(a, h1), h2) == DerivedScalar(DerivedScalar(a, h2), h1)
  {
    AddModSwap(a, BigEndian(h1), BigEndian(h2), Order);
  }

  lemma AddModSwap(a: nat, x: nat, y: nat, n: nat)
    requires n > 0
    ensures ((a + x) % n + y) % n == ((a + y) % n + x) % n
  {
    var s := a + x + y;
    var q1, q2 := (a + x) / n, (a + y) / n;
    assert (a + x) % n + y == s - n * q1;
    assert (a + y) % n + x == s - n * q2;
    ModShift(s, q1, n);
    ModShift(s, q2, n);
  }

  lemma ModShift(s: int, q: int, n: int)
    requires n > 0
    ensures (s - n * q) % n == s % n
  {
    DivModUnique(s - n * q, n, s / n - q, s % n);
  }
}

=== FILE: meta_data_collection.dfy ===
/** A collection of string-keyed metadata, one value per key. */
module MetaDataCollection {
  import opened Wrappers
  import opened MetaDataDefinitions

  type MetaDataKey = string
  type MetaDataValue = string
  type MetaMap = map<MetaDataKey, MetaDataValue>

  datatype Error = KeyNotFound(key: MetaDataKey)

  /** `MetaDataCollectionImpl`: the key→value map behind the mutex. */
  datatype Collection = Collection(meta: MetaMap)

  const Empty := Collection(map[])

  function KeyExists(c: Collection, key: MetaDataKey): (b: bool)
    ensures b <==> key in c.meta
  {
    key in c.meta
  }

  /** Looking up an absent key is an error, never a default value. */
  function GetMetaValue(c: Collection, key: MetaDataKey): (r: Result<MetaDataValue, Error>)
    ensures r.Success? <==> KeyExists(c, key)
    ensures r.Success? ==> r.value == c.meta[key]
    ensures r.Failure? ==> r.error == KeyNotFound(key)
  {
    if key in c.meta then Success(c.meta[key]) else Failure(KeyNotFound(key))
  }

  /** `setMetaData({key, value})`: adds the pair or overwrites the key's value. */
  function SetMetaData(c: Collection, key: MetaDataKey, value: MetaDataValue): (c': Collection)
    ensures c'.meta.Keys == c.meta.Keys + {key}
  {
    Collection(c.meta[key := value])
  }

  /** A copy of the whole map; the collection itself is not touched. */
  function GetAllMetaData(c: Collection): (m: MetaMap)
    ensures forall k :: KeyExists(c, k) <==> k in m
    ensures forall k :: k in m ==> GetMetaValue(c, k) == Success(m[k])
  {
    c.meta
  }

  /** `copyMetaData(src, key)`: the key's table name is looked up in `src`
      and the value stored here under that name; a missing source entry
      is the lookup's error and leaves this collection unchanged. */
  function CopyMetaData(c: Collection, src: Collection, key: KeyType): (r: Result<Collection, Error>)
    ensures r.Success? <==> KeyExists(src, KeyTypeName(key))
    ensures r.Success? ==> GetMetaValue(r.value, KeyTypeName(key)) == GetMetaValue(src, KeyTypeName(key))
    ensures r.Success? ==> forall k :: k != KeyTypeName(key) ==> GetMetaValue(r.value, k) == GetMetaValue(c, k)
    ensures r.Failure? ==> r.error == KeyNotFound(KeyTypeName(key))
  {
    var keyName := KeyTypeName(key);
    var v :- GetMetaValue(src, keyName);
    Success(SetMetaData(c, keyName, v))
  }

  /** After setting a pair the key exists and reads back the new value;
      every other key reads back as before. */
  lemma SetThenGet(c: Collection, key: MetaDataKey, value: MetaDataValue, other: MetaDataKey)
    ensures KeyExists(SetMetaData(c, key, value), key)
    ensures GetMetaValue(SetMetaData(c, key, value), key) == Success(value)
    ensures other != key ==> GetMetaValue(SetMetaData(c, key, value), other) == GetMetaValue(c, other)
  {
  }

  /** Setting a key twice keeps only the second value: a key has at most one value. */
  lemma SetOverwrites(c: Collection, key: MetaDataKey, v1: MetaDataValue, v2: MetaDataValue)
    ensures SetMetaData(SetMetaData(c, key, v1), key, v2) == SetMetaData(c, key, v2)
  {
  }

  /** Setting a key to the value it already has changes nothing. */
  lemma SetExistingIsIdentity(c: Collection, key: MetaDataKey)
    requires KeyExists(c, key)
    ensures SetMetaData(c, key, c.meta[key]) == c
  {
  }
}

=== FILE: meta_data_definitions.dfy ===
/** Metadata key types and their expected values, each with the
    enumerator↔string table that `enum_cast` consults. */
module MetaDataDefinitions {
  import opened Wrappers

  datatype KeyType = KeyUnknown | NetworkTypeKey | PublicKey | CompressionTypeKey
  datatype NetworkType = NetUnknown | MainNet | TestNet | RegTest
  datatype CompressionType = CompUnknown | Compressed | Uncompressed

  /** One row of an enumeration table. */
  datatype Entry<E> = Entry(value: E, name: string)

  const KeyTypeTable: seq<Entry<KeyType>> := [
    Entry(KeyUnknown, "Unknown"),
    Entry(NetworkTypeKey, "NetworkType"),
    Entry(PublicKey, "PublicKey"),
    Entry(CompressionTypeKey, "CompressionType")
  ]

  const NetworkTypeTable: seq<Entry<NetworkType>> := [
    Entry(NetUnknown, "Unknown"),
    Entry(MainNet, "MainNet"),
    Entry(TestNet, "TestNet"),
    Entry(RegTest, "RegTest")
  ]

  const CompressionTypeTable: seq<Entry<CompressionType>> := [
    Entry(CompUnknown, "Unknown"),
    Entry(Compressed, "Compressed"),
    Entry(Uncompressed, "Uncompressed")
  ]

  /** Enumerator to string: the name of the first row holding `e`. */
  function NameOf<E(==)>(table: seq<Entry<E>>, e: E): (r: Option<string>)
    ensures r.Some? <==> exists i :: 0 <= i < |table| && table[i].value == e
    ensures r.Some? ==> exists i :: 0 <= i < |table| && table[i] == Entry(e, r.value)
  {
    if |table| == 0 then None
    else if table[0].value == e then Some(table[0].name)
    else
      var r := NameOf(table[1..], e);
      assert r.Some? ==> table[1..][0] == table[1];
      r
  }

  /** String to enumerator: the value of the first row named `s`. */
  function ValueOf<E>(table: seq<Entry<E>>, s: string): (r: Option<E>)
    ensures r.Some? <==> exists i :: 0 <= i < |table| && table[i].name == s
    ensures r.Some? ==> exists i :: 0 <= i < |table| && table[i] == Entry(r.value, s)
  {
    if |table| == 0 then None
    else if table[0].name == s then Some(table[0].value)
    else ValueOf(table[1..], s)
  }

  /** No two rows share a name, and no two rows share an enumerator. */
  ghost predicate Bijective<E>(table: seq<Entry<E>>) {
    (forall i, j :: 0 <= i < j < |table| ==> table[i].name != table[j].name) &&
    (forall i, j :: 0 <= i < j < |table| ==> table[i].value != table[j].value)
  }

  /** In a table without repeated names or values, the two lookups are
      inverse to each other on every row. */
  lemma {:induction false} TableRoundTrip<E>(table: seq<Entry<E>>, k: nat)
    requires Bijective(table) && k < |table|
    ensures NameOf(table, table[k].value) == Some(table[k].name)
    ensures ValueOf(table, table[k].name) == Some(table[k].value)
  {
    if k > 0 {
      assert table[0].value != table[k].value && table[0].name != table[k].name;
      TableRoundTrip(table[1..], k - 1);
    }
  }

  function KeyTypeName(k: KeyType): string {
    match k
    case KeyUnknown => "Unknown"
    case NetworkTypeKey => "NetworkType"
    case PublicKey => "PublicKey"
    case CompressionTypeKey => "CompressionType"
  }

  /** The key table is total over the enumerators, has pairwise distinct
      names, and `enum_cast` round-trips through it. */
  lemma KeyTypeTableRoundTrip(k: KeyType, s: string)
    ensures NameOf(KeyTypeTable, k) == Some(KeyTypeName(k))
    ensures ValueOf(KeyTypeTable, KeyTypeName(k)) == Some(k)
    ensures ValueOf(KeyTypeTable, s).Some? ==> NameOf(KeyTypeTable, ValueOf(KeyTypeTable, s).value) == Some(s)
  {
    assert Bijective(KeyTypeTable);
    match k {
      case KeyUnknown => TableRoundTrip(KeyTypeTable, 0);
      case NetworkTypeKey => TableRoundTrip(KeyTypeTable, 1);
      case PublicKey => TableRoundTrip(KeyTypeTable, 2);
      case CompressionTypeKey => TableRoundTrip(KeyTypeTable, 3);
    }
    if ValueOf(KeyTypeTable, s).Some? {
      var j :| 0 <= j < |KeyTypeTable| && KeyTypeTable[j].name == s;
      TableRoundTrip(KeyTypeTable, j);
    }
  }

  lemma KeyTypeNamesDistinct(a: KeyType, b: KeyType)
    ensures KeyTypeName(a) == KeyTypeName(b) <==> a == b
  {
  }

  function NetworkTypeName(n: NetworkType): string {
    match n
    case NetUnknown => "Unknown"
    case MainNet => "MainNet"
    case TestNet => "TestNet"
    case RegTest => "RegTest"
  }

  lemma NetworkTypeTableRoundTrip(n: NetworkType, s: string)
    ensures NameOf(NetworkTypeTable, n) == Some(NetworkTypeName(n))
    ensures ValueOf(NetworkTypeTable, NetworkTypeName(n)) == Some(n)
    ensures ValueOf(NetworkTypeTable, s).Some? ==> NameOf(NetworkTypeTable, ValueOf(NetworkTypeTable, s).value) == Some(s)
  {
    assert Bijective(NetworkTypeTable);
    match n {
      case NetUnknown => TableRoundTrip(NetworkTypeTable, 0);
      case MainNet => TableRoundTrip(NetworkTypeTable, 1);
      case TestNet => TableRoundTrip(NetworkTypeTable, 2);
      case RegTest => TableRoundTrip(NetworkTypeTable, 3);
    }
    if ValueOf(NetworkTypeTable, s).Some? {
      var j :| 0 <= j < |NetworkTypeTable| && NetworkTypeTable[j].name == s;
      TableRoundTrip(NetworkTypeTable, j);
    }
  }

  function CompressionTypeName(c: CompressionType): string {
    match c
    case CompUnknown => "Unknown"
    case Compressed => "Compressed"
    case Uncompressed => "Uncompressed"
  }

  lemma CompressionTypeTableRoundTrip(c: CompressionType, s: string)
    ensures NameOf(CompressionTypeTable, c) == Some(CompressionTypeName(c))
    ensures ValueOf(CompressionTypeTable, CompressionTypeName(c)) == Some(c)
    ensures ValueOf(CompressionTypeTable, s).Some? ==> NameOf(CompressionTypeTable, ValueOf(CompressionTypeTable, s).value) == Some(s)
  {
    assert Bijective(CompressionTypeTable);
    match c {
      case CompUnknown => TableRoundTrip(CompressionTypeTable, 0);
      case Compressed => TableRoundTrip(CompressionTypeTable, 1);
      case Uncompressed => TableRoundTrip(CompressionTypeTable, 2);
    }
    if ValueOf(CompressionTypeTable, s).Some? {
      var j :| 0 <= j < |CompressionTypeTable| && CompressionTypeTable[j].name == s;
      TableRoundTrip(CompressionTypeTable, j);
    }
  }
}

=== FILE: page_locker.dfy ===
/** Page address arithmetic of the page locker: the page holding an
    address, and the page holding the last byte of a span, obtained by
    masking a 64-bit address with the page mask. */
module APageLocker {
  import opened Bytes

  const TwoTo64: nat := 0x1_0000_0000_0000_0000

  /** `uintptr_t` / `size_t`. */
  type Word = x: nat | x < TwoTo64

  /** `mPageSize` and `mPageMask`; both start at zero and are set by the
      platform-specific locker. */
  datatype Locker = Locker(pageSize: Word, pageMask: Word)

  const Default := Locker(0, 0)

  /** Bitwise and of two naturals, least significant bit first. */
  function And(a: nat, b: nat): nat {
    if a == 0 || b == 0 then 0
    else 2 * And(a / 2, b / 2) + (if a % 2 == 1 && b % 2 == 1 then 1 else 0)
  }

  /** `pageSize()`. */
  function PageSize(l: Locker): Word {
    l.pageSize
  }

  /** `pageStart(ptr)`: the address with the mask applied. */
  function PageStart(l: Locker, p: Word): (r: Word)
    ensures r <= p
  {
    AndBound(p, l.pageMask);
    And(p, l.pageMask)
  }

  /** `pageEnd(ptr, len)`: the page of the span's last byte. The sum
      `ptr + len - 1` is computed in `uintptr_t`, so it wraps. */
  function PageEnd(l: Locker, p: Word, len: Word): (r: Word)
    ensures len >= 1 && p + len <= TwoTo64 ==> r == PageStart(l, p + len - 1)
  {
    var last := (p + len + TwoTo64 - 1) % TwoTo64;
    AndBound(last, l.pageMask);
    And(last, l.pageMask)
  }

  lemma {:induction false} AndBound(a: nat, b: nat)
    ensures And(a, b) <= a && And(a, b) <= b
  {
    if a != 0 && b != 0 {
      AndBound(a / 2, b / 2);
    }
  }

  /** Masking twice is masking once. */
  lemma {:induction false} AndIdempotent(a: nat, m: nat)
    ensures And(And(a, m), m) == And(a, m)
  {
    if a != 0 && m != 0 {
      AndIdempotent(a / 2, m / 2);
      var x := And(a, m);
      assert x / 2 == And(a / 2, m / 2) && x % 2 == (if a % 2 == 1 && m % 2 == 1 then 1 else 0);
    }
  }

  /** The all-ones mask of `n` bits keeps every `n`-bit value. */
  lemma {:induction false} AndLowOnes(p: nat, n: nat)
    requires p < Pow(2, n)
    ensures And(p, Pow(2, n) - 1) == p
  {
    if p != 0 && n > 0 {
      assert Pow(2, n) == 2 * Pow(2, n - 1);
      assert (Pow(2, n) - 1) / 2 == Pow(2, n - 1) - 1;
      AndLowOnes(p / 2, n - 1);
    }
  }

  /** The mask with bits `k .. n-1` set. */
  function HighMask(n: nat, k: nat): nat
    requires k <= n
  {
    PowMonotone(2, k, n);
    Pow(2, n) - Pow(2, k)
  }

  /** The high mask clears exactly the remainder modulo `2^k`. */
  lemma {:induction false} AndHighMask(p: nat, n: nat, k: nat)
    requires k <= n && p < Pow(2, n)
    ensures And(p, HighMask(n, k)) == p - p % Pow(2, k)
  {
    if k == 0 {
      AndLowOnes(p, n);
    } else if p == 0 {
    } else if k == n {
      DivModUnique(p, Pow(2, k), 0, p);
    } else {
      HighMaskHalves(n, k);
      AndHighMask(p / 2, n - 1, k - 1);
      HighMaskStep(p, n, k);
    }
  }

  lemma HighMaskHalves(n: nat, k: nat)
    requires 0 < k < n
    ensures HighMask(n, k) == 2 * HighMask(n - 1, k - 1)
  {
    assert Pow(2, k) == 2 * Pow(2, k - 1);
    assert Pow(2, n) == 2 * Pow(2, n - 1);
    PowMonotone(2, k - 1, n - 1);
  }

  /** The step of `AndHighMask`: the masked value is twice the masked half. */
  lemma HighMaskStep(p: nat, n: nat, k: nat)
    requires 0 < k < n && 0 < p
    requires HighMask(n, k) == 2 * HighMask(n - 1, k - 1)
    requires And(p / 2, HighMask(n - 1, k - 1)) == p / 2 - (p / 2) % Pow(2, k - 1)
    ensures And(p, HighMask(n, k)) == p - p % Pow(2, k)
  {
    var P := Pow(2, k - 1);
    assert Pow(2, k) == 2 * P;
    RemainderSplit(p, P);
  }

  /** Peeling off the lowest bit of a remainder modulo `2 * P`. */
  lemma RemainderSplit(p: nat, P: nat)
    requires P > 0
    ensures p % (2 * P) == 2 * ((p / 2) % P) + p % 2
  {
    var q, r := p / 2, p % 2;
    var Q, R := q / P, q % P;
    assert q == P * Q + R;
    assert 2 * (P * Q) == (2 * P) * Q;
    DivModUnique(p, 2 * P, Q, 2 * R + r);
  }

  lemma TwoTo64IsPow()
    ensures Pow(2, 64) == TwoTo64
  {
    PowAdd(2, 32, 32);
    TwoTo32IsPow();
  }

  lemma TwoTo16IsPow()
    ensures Pow(2, 16) == 0x1_0000
  {
    PowAdd(2, 8, 8);
  }

  lemma TwoTo32IsPow()
    ensures Pow(2, 32) == 0x1_0000_0000
  {
    PowAdd(2, 16, 16);
    TwoTo16IsPow();
  }

  /** A locker whose mask is `~(pageSize - 1)` for a power-of-two page
      size — how the platform lockers set them up. */
  ghost predicate Aligned(l: Locker) {
    exists k :: 0 <= k <= 64 && l.pageSize == Pow(2, k) && l.pageMask == TwoTo64 - Pow(2, k)
  }

  /** Under an aligned mask, `pageStart(p)` rounds `p` down to a multiple of
      the page size, and masking is idempotent. */
  lemma PageStartAligned(l: Locker, p: Word)
    requires Aligned(l)
    ensures PageStart(l, p) == p - p % l.pageSize
    ensures PageStart(l, p) % l.pageSize == 0
    ensures p - PageStart(l, p) < l.pageSize
    ensures PageStart(l, PageStart(l, p)) == PageStart(l, p)
  {
    var k :| 0 <= k <= 64 && l.pageSize == Pow(2, k) && l.pageMask == TwoTo64 - Pow(2, k);
    TwoTo64IsPow();
    assert l.pageMask == HighMask(64, k);
    AndHighMask(p, 64, k);
    AndIdempotent(p, l.pageMask);
    RoundDown(p, l.pageSize);
  }

  /** Rounding down to a multiple of `ps` moves back by less than `ps`. */
  lemma RoundDown(p: nat, ps: nat)
    requires ps > 0
    ensures (p - p % ps) % ps == 0
  {
    assert p == ps * (p / ps) + p % ps;
    DivModUnique(p - p % ps, ps, p / ps, 0);
  }

  lemma RoundDownMonotone(a: nat, b: nat, ps: nat)
    requires ps > 0 && a <= b
    ensures a - a % ps <= b - b % ps
  {
    var qa, qb := a / ps, b / ps;
    assert a == ps * qa + a % ps && b == ps * qb + b % ps;
    if qa > qb {
      MulSign(ps, qa - qb);
      assert false;
    }
  }

  /** For a non-empty span that does not wrap around the address space,
      the first page does not lie after the last, and the pages from
      `pageStart` to `pageEnd` cover every byte of the span. */
  lemma SpanCovered(l: Locker, p: Word, len: Word)
    requires Aligned(l) && len >= 1 && p + len <= TwoTo64
    ensures PageStart(l, p) <= PageEnd(l, p, len)
    ensures PageStart(l, p) <= p
    ensures p + len <= PageEnd(l, p, len) + l.pageSize
  {
    PageStartAligned(l, p);
    PageStartAligned(l, p + len - 1);
    PageMonotone(l, p, p + len - 1);
  }

  /** Masking with an aligned mask preserves the order of addresses. */
  lemma PageMonotone(l: Locker, a: Word, b: Word)
    requires Aligned(l) && a <= b
    ensures PageStart(l, a) <= PageStart(l, b)
  {
    PageStartAligned(l, a);
    PageStartAligned(l, b);
    RoundDownMonotone(a, b, l.pageSize);
  }
}

=== FILE: page_locker_manager.dfy ===
/** The process-wide registry of locked memory. Pages are reference-counted
    in a hits-counter table keyed by page address, so a page touched by
    several locked ranges stays locked until the last of them is unlocked;
    locked blocks are kept in an address→size table; the last system error
    is kept per thread. The operating system's page lock is the action the
    table consults when a page gains its first or loses its last reference,
    so it is a parameter here. Every public operation runs under the
    manager's mutex and is modelled as one atomic step. */
module PageLockerManager {
  import Status
  import opened ThreadSafeHash
  import opened APageLocker
  import opened Bytes

  /** The manager's own status family, offsets 0..6 from its base. */
  datatype PageStatus =
    | SuccessLocked
    | SuccessUnlocked
    | CounterIncremented
    | CounterDecremented
    | NoLockRequired
    | NoUnlockRequired
    | NoPageAllocator

  /** `mStatusBase`: `fnv1a32("PageLockerManager")`. */
  function StatusBase(): Status.StatusType {
    Status.StatusHash("PageLockerManager")
  }

  function Offset(s: PageStatus): nat {
    match s
    case SuccessLocked => 0
    case SuccessUnlocked => 1
    case CounterIncremented => 2
    case CounterDecremented => 3
    case NoLockRequired => 4
    case NoUnlockRequired => 5
    case NoPageAllocator => 6
  }

  /** The description each status carries. */
  function Description(s: PageStatus): string {
    match s
    case SuccessLocked => "Page lock succeeded"
    case SuccessUnlocked => "Page unlock succeeded"
    case CounterIncremented => "Page is already locked, counter incremented"
    case CounterDecremented => "Page is already locked, counter decremented"
    case NoLockRequired => "No page lock required"
    case NoUnlockRequired => "No page unlock required"
    case NoPageAllocator => "No page allocator found"
  }

  /** The `utils::Status` each result stands for. */
  function ToStatus(s: PageStatus): Status.Status {
    Status.Member(StatusBase(), Offset(s), Description(s))
  }

  /** The seven statuses sit at `base + 0 .. base + 6` and are pairwise
      distinct under `Status` equality. */
  lemma StatusesDistinct(a: PageStatus, b: PageStatus)
    ensures Status.Eq(ToStatus(a), ToStatus(b)) <==> a == b
  {
    OffsetInjective(a, b);
    Status.MembersDistinct(StatusBase(), Offset(a), Offset(b), Description(a), Description(b));
  }

  lemma OffsetInjective(a: PageStatus, b: PageStatus)
    ensures Offset(a) < 7 && (Offset(a) == Offset(b) ==> a == b)
  {
  }

  /** `utils::Error`: an id (0 means no error) and a description. */
  datatype SysError = SysError(id: int, desc: string)
  {
    predicate IsError() {
      id != 0
    }
  }

  const NoError := SysError(0, "")

  /** `std::thread::id`. */
  type ThreadId = nat

  /** `std::hash<uintptr_t>`: the identity. */
  function AddrHash(p: Word): nat {
    p
  }

  datatype Manager = Manager(
    locker: Locker,
    pages: Table<Word, nat>,
    blocks: Table<Word, nat>,
    lastError: Table<ThreadId, SysError>,
    threadHash: ThreadId -> nat)

  /** The tables keep their invariants: pages as a hits counter, blocks as
      a general table, and every thread's error in its bucket. */
  ghost predicate Valid(m: Manager) {
    HitsInv(m.pages, AddrHash) && GeneralInv(m.blocks, AddrHash) && Placed(m.lastError, m.threadHash)
  }

  /** How many locked ranges hold a page; zero for an unlocked page. */
  function Count(t: Table<Word, nat>, page: Word): nat {
    if page in GetMap(t) then GetMap(t)[page] else 0
  }

  /** `isLocked` on a page address: it has at least one reference. */
  function PageLocked(m: Manager, page: Word): bool {
    Count(m.pages, page) > 0
  }

  /** What one page operation reports: a status of the manager's family,
      or the generic `FAILURE`. */
  datatype Report = Page(s: PageStatus) | Failure

  function ReportStatus(r: Report): Status.Status {
    match r
    case Page(s) => ToStatus(s)
    case Failure => Status.FAILURE
  }

  datatype Registered = Registered(table: Table<Word, nat>, status: Report)

  /** `registerLockRange(page)`: a page's first reference asks the operating
      system to lock it (`mActionOnLocked`) and reports `SUCCESS_LOCKED`; a
      further reference only counts and reports `COUNTER_INCREMENTED`; a
      refused first lock reports `FAILURE` and records nothing. */
  function RegisterLock(t: Table<Word, nat>, page: Word, osLock: ActionOutcome): (r: Registered)
    requires HitsInv(t, AddrHash)
    ensures HitsInv(r.table, AddrHash)
    ensures Count(t, page) == 0 && osLock == Succeeded ==>
              r.status == Page(SuccessLocked) && Count(r.table, page) == 1
    ensures Count(t, page) > 0 ==>
              r.status == Page(CounterIncremented) && Count(r.table, page) == Count(t, page) + 1
    ensures Count(t, page) == 0 && osLock != Succeeded ==> r.status == Failure && r.table == t
    ensures forall q :: q != page ==> Count(r.table, q) == Count(t, q)
  {
    var o := TryAppendOrIncrement(t, AddrHash, page, osLock);
    AppendOrIncrementPreservesInv(t, AddrHash, page, osLock);
    var s := match o.status
      case Append => Page(SuccessLocked)
      case Increment => Page(CounterIncremented)
      case _ => Failure;
    Registered(o.table, s)
  }

  /** `registerUnlockRange(page)`: the last reference asks the operating
      system to unlock the page (`mActionOnUnlocked`) and reports
      `SUCCESS_UNLOCKED`; an earlier one only counts down and reports
      `COUNTER_DECREMENTED`; a page nobody locked reports
      `NO_UNLOCK_REQUIRED`; a refused unlock keeps the page and reports
      `FAILURE`. */
  function RegisterUnlock(t: Table<Word, nat>, page: Word, osUnlock: ActionOutcome): (r: Registered)
    requires HitsInv(t, AddrHash)
    ensures HitsInv(r.table, AddrHash)
    ensures Count(t, page) == 0 ==> r.status == Page(NoUnlockRequired) && r.table == t
    ensures Count(t, page) == 1 && osUnlock == Succeeded ==>
              r.status == Page(SuccessUnlocked) && Count(r.table, page) == 0
    ensures Count(t, page) == 1 && osUnlock != Succeeded ==> r.status == Failure && r.table == t
    ensures Count(t, page) > 1 ==>
              r.status == Page(CounterDecremented) && Count(r.table, page) == Count(t, page) - 1
    ensures forall q :: q != page ==> Count(r.table, q) == Count(t, q)
  {
    var o := TryRemoveOrDecrement(t, AddrHash, page, osUnlock);
    RemoveOrDecrementPreservesInv(t, AddrHash, page, osUnlock);
    var s := match o.status
      case Remove => Page(SuccessUnlocked)
      case Decrement => Page(CounterDecremented)
      case NotFound => Page(NoUnlockRequired)
      case _ => Failure;
    Registered(o.table, s)
  }

  /** The page addresses from `cur` up to `last`, one page apart. */
  function PagesFrom(cur: Word, last: Word, ps: Word): (r: seq<Word>)
    requires ps > 0
    ensures forall i :: 0 <= i < |r| ==> cur <= r[i] <= last
    ensures forall i, j :: 0 <= i < j < |r| ==> r[i] < r[j]
    decreases last - cur
  {
    if cur > last then []
    else if cur + ps >= TwoTo64 || cur + ps > last then [cur]
    else [cur] + PagesFrom(cur + ps, last, ps)
  }

  /** The pages a range touches: `pageStart(ptr)` to `pageEnd(ptr, size)`. */
  function PagesOf(l: Locker, p: Word, size: Word): seq<Word> {
    if size == 0 || l.pageSize == 0 then []
    else PagesFrom(PageStart(l, p), PageEnd(l, p, size), l.pageSize)
  }

  ghost predicate Distinct(s: seq<Word>) {
    forall i, j :: 0 <= i < j < |s| ==> s[i] != s[j]
  }

  datatype RangeResult = RangeResult(table: Table<Word, nat>, statuses: map<Word, Report>)

  /** One `registerLockRange` per page, collecting each page's status;
      pages outside the list keep their counts. */
  function LockPages(t: Table<Word, nat>, pages: seq<Word>, osLock: Word -> ActionOutcome): (r: RangeResult)
    requires HitsInv(t, AddrHash)
    ensures HitsInv(r.table, AddrHash)
    ensures forall q :: q in r.statuses <==> q in pages
    ensures forall q :: q !in r.statuses ==> Count(r.table, q) == Count(t, q)
    decreases |pages|
  {
    if |pages| == 0 then RangeResult(t, map[])
    else
      var one := RegisterLock(t, pages[0], osLock(pages[0]));
      var rest := LockPages(one.table, pages[1..], osLock);
      HeadTail(pages);
      RangeResult(rest.table, rest.statuses[pages[0] := one.status])
  }

  /** One `registerUnlockRange` per page, collecting each page's status;
      pages outside the list keep their counts. */
  function UnlockPages(t: Table<Word, nat>, pages: seq<Word>, osUnlock: Word -> ActionOutcome): (r: RangeResult)
    requires HitsInv(t, AddrHash)
    ensures HitsInv(r.table, AddrHash)
    ensures forall q :: q in r.statuses <==> q in pages
    ensures forall q :: q !in r.statuses ==> Count(r.table, q) == Count(t, q)
    decreases |pages|
  {
    if |pages| == 0 then RangeResult(t, map[])
    else
      var one := RegisterUnlock(t, pages[0], osUnlock(pages[0]));
      var rest := UnlockPages(one.table, pages[1..], osUnlock);
      HeadTail(pages);
      RangeResult(rest.table, rest.statuses[pages[0] := one.status])
  }

  /** A page is in a non-empty list exactly when it is its head or in its tail. */
  lemma HeadTail(pages: seq<Word>)
    requires |pages| > 0
    ensures forall q :: q in pages <==> q == pages[0] || q in pages[1..]
  {
    assert pages == [pages[0]] + pages[1..];
  }

  /** The tail of a list of distinct pages is distinct and misses the head. */
  lemma DistinctTail(pages: seq<Word>)
    requires |pages| > 0 && Distinct(pages)
    ensures Distinct(pages[1..]) && pages[0] !in pages[1..]
  {
    assert forall i :: 0 <= i < |pages| - 1 ==> pages[1..][i] == pages[i + 1];
  }

  /** With distinct pages and an operating system that grants every lock,
      each page gains exactly one reference and reports `SUCCESS_LOCKED` or
      `COUNTER_INCREMENTED` by whether it was locked before. */
  lemma {:induction false} LockPagesCounts(t: Table<Word, nat>, pages: seq<Word>, osLock: Word -> ActionOutcome)
    requires HitsInv(t, AddrHash) && Distinct(pages)
    requires forall i :: 0 <= i < |pages| ==> osLock(pages[i]) == Succeeded
    ensures var r := LockPages(t, pages, osLock);
            forall q :: q in r.statuses ==>
              Count(r.table, q) == Count(t, q) + 1 &&
              r.statuses[q] == (if Count(t, q) == 0 then Page(SuccessLocked) else Page(CounterIncremented))
    decreases |pages|
  {
    if |pages| > 0 {
      var one := RegisterLock(t, pages[0], osLock(pages[0]));
      var tail := pages[1..];
      DistinctTail(pages);
      LockPagesCounts(one.table, tail, osLock);
      var rest := LockPages(one.table, tail, osLock);
      assert pages[0] !in rest.statuses;
      var r := LockPages(t, pages, osLock);
      assert r == RangeResult(rest.table, rest.statuses[pages[0] := one.status]);
      forall q | q in r.statuses
        ensures Count(r.table, q) == Count(t, q) + 1
        ensures r.statuses[q] == (if Count(t, q) == 0 then Page(SuccessLocked) else Page(CounterIncremented))
      {
        if q == pages[0] {
          assert Count(r.table, q) == Count(one.table, q);
        } else {
          assert q in rest.statuses && Count(one.table, q) == Count(t, q);
        }
      }
    }
  }

  /** With distinct pages and an operating system that grants every
      unlock, each locked page loses exactly one reference and reports
      `SUCCESS_UNLOCKED` or `COUNTER_DECREMENTED` by whether that was its
      last; an unlocked page reports `NO_UNLOCK_REQUIRED`. */
  lemma {:induction false} UnlockPagesCounts(t: Table<Word, nat>, pages: seq<Word>, osUnlock: Word -> ActionOutcome)
    requires HitsInv(t, AddrHash) && Distinct(pages)
    requires forall i :: 0 <= i < |pages| ==> osUnlock(pages[i]) == Succeeded
    ensures var r := UnlockPages(t, pages, osUnlock);
            forall q :: q in r.statuses ==>
              Count(r.table, q) == (if Count(t, q) == 0 then 0 else Count(t, q) - 1) &&
              r.statuses[q] == (if Count(t, q) == 0 then Page(NoUnlockRequired)
                                else if Count(t, q) == 1 then Page(SuccessUnlocked)
                                else Page(CounterDecremented))
    decreases |pages|
  {
    if |pages| > 0 {
      var one := RegisterUnlock(t, pages[0], osUnlock(pages[0]));
      var tail := pages[1..];
      DistinctTail(pages);
      UnlockPagesCounts(one.table, tail, osUnlock);
      var rest := UnlockPages(one.table, tail, osUnlock);
      assert pages[0] !in rest.statuses;
      var r := UnlockPages(t, pages, osUnlock);
      assert r == RangeResult(rest.table, rest.statuses[pages[0] := one.status]);
      forall q | q in r.statuses
        ensures Count(r.table, q) == (if Count(t, q) == 0 then 0 else Count(t, q) - 1)
        ensures r.statuses[q] == (if Count(t, q) == 0 then Page(NoUnlockRequired)
                                  else if Count(t, q) == 1 then Page(SuccessUnlocked)
                                  else Page(CounterDecremented))
      {
        if q == pages[0] {
          assert Count(r.table, q) == Count(one.table, q);
        } else {
          assert q in rest.statuses && Count(one.table, q) == Count(t, q);
        }
      }
    }
  }

  /** The reports of a range as the statuses the caller receives. */
  function Reported(reports: map<Word, Report>): (r: map<Word, Status.Status>)
    ensures r.Keys == reports.Keys
    ensures forall q :: q in r ==> r[q] == ReportStatus(reports[q])
  {
    map q | q in reports :: ReportStatus(reports[q])
  }

  /** `lockRangeEx(ptr, size)`: one status per page the range touches. */
  function LockRangeEx(m: Manager, p: Word, size: Word, osLock: Word -> ActionOutcome): (r: (Manager, map<Word, Status.Status>))
    requires Valid(m)
    ensures Valid(r.0)
    ensures forall q :: q in r.1 <==> q in PagesOf(m.locker, p, size)
  {
    var res := LockPages(m.pages, PagesOf(m.locker, p, size), osLock);
    (m.(pages := res.table), Reported(res.statuses))
  }

  /** `unLockRangeEx(ptr, size)`: one status per page the range touches. */
  function UnLockRangeEx(m: Manager, p: Word, size: Word, osUnlock: Word -> ActionOutcome): (r: (Manager, map<Word, Status.Status>))
    requires Valid(m)
    ensures Valid(r.0)
    ensures forall q :: q in r.1 <==> q in PagesOf(m.locker, p, size)
  {
    var res := UnlockPages(m.pages, PagesOf(m.locker, p, size), osUnlock);
    (m.(pages := res.table), Reported(res.statuses))
  }

  /** The pages of a non-wrapping range are distinct, start at the page of
      the range's first byte, and include the page of every byte of the
      range. */
  lemma PagesOfCoverSpan(l: Locker, p: Word, size: Word, a: Word)
    requires Aligned(l) && size >= 1 && p + size <= TwoTo64
    ensures Distinct(PagesOf(l, p, size))
    ensures |PagesOf(l, p, size)| > 0 && PagesOf(l, p, size)[0] == PageStart(l, p)
    ensures p <= a < p + size ==> PageStart(l, a) in PagesOf(l, p, size)
  {
    var k :| 0 <= k <= 64 && l.pageSize == Pow(2, k) && l.pageMask == TwoTo64 - Pow(2, k);
    var ps := l.pageSize;
    SpanCovered(l, p, size);
    if p <= a < p + size {
      PageMonotone(l, p, a);
      PageMonotone(l, a, p + size - 1);
      PageStartAligned(l, p);
      PageStartAligned(l, a);
      MultipleDifference(PageStart(l, p), PageStart(l, a), ps);
      PagesFromCovers(PageStart(l, p), PageEnd(l, p, size), ps, PageStart(l, a));
    }
  }

  lemma MultipleDifference(x: nat, y: nat, ps: nat)
    requires ps > 0 && x <= y && x % ps == 0 && y % ps == 0
    ensures (y - x) % ps == 0
  {
    var qx, qy := x / ps, y / ps;
    assert x == ps * qx && y == ps * qy;
    assert y - x == ps * (qy - qx);
    DivModUnique(y - x, ps, qy - qx, 0);
  }

  /** Every address a whole number of pages above `cur`, up to `last`, is
      one of the listed pages. */
  lemma {:induction false} PagesFromCovers(cur: Word, last: Word, ps: Word, x: Word)
    requires ps > 0 && cur <= x <= last && (x - cur) % ps == 0
    ensures x in PagesFrom(cur, last, ps)
    decreases last - cur
  {
    if x != cur {
      var d := x - cur;
      assert d == ps * (d / ps);
      MulSign(ps, d / ps);
      DivModUnique(d - ps, ps, d / ps - 1, 0);
      PagesFromCovers(cur + ps, last, ps, x);
    }
  }

  /** Reference counting across ranges, on the page table: locking a list
      of distinct pages twice and unlocking it once leaves each of them
      with one more reference than before, and no other page is touched;
      each second lock reports `COUNTER_INCREMENTED` and each unlock
      `COUNTER_DECREMENTED`. */
  lemma LockTwiceUnlockOncePages(t: Table<Word, nat>, pages: seq<Word>, osLock: Word -> ActionOutcome, osUnlock: Word -> ActionOutcome)
    requires HitsInv(t, AddrHash) && Distinct(pages)
    requires forall i :: 0 <= i < |pages| ==> osLock(pages[i]) == Succeeded && osUnlock(pages[i]) == Succeeded
    ensures var r1 := LockPages(t, pages, osLock);
            var r2 := LockPages(r1.table, pages, osLock);
            var r3 := UnlockPages(r2.table, pages, osUnlock);
            forall q :: q in pages ==>
              Count(r3.table, q) == Count(t, q) + 1 &&
              r2.statuses[q] == Page(CounterIncremented) && r3.statuses[q] == Page(CounterDecremented)
    ensures var r1 := LockPages(t, pages, osLock);
            var r2 := LockPages(r1.table, pages, osLock);
            forall q :: q !in pages ==> Count(UnlockPages(r2.table, pages, osUnlock).table, q) == Count(t, q)
  {
    var r1 := LockPages(t, pages, osLock);
    LockPagesCounts(t, pages, osLock);
    var r2 := LockPages(r1.table, pages, osLock);
    LockPagesCounts(r1.table, pages, osLock);
    UnlockPagesCounts(r2.table, pages, osUnlock);
  }

  /** Locking a list of distinct pages and unlocking it again restores
      every page's count. */
  lemma LockThenUnlockPages(t: Table<Word, nat>, pages: seq<Word>, osLock: Word -> ActionOutcome, osUnlock: Word -> ActionOutcome)
    requires HitsInv(t, AddrHash) && Distinct(pages)
    requires forall i :: 0 <= i < |pages| ==> osLock(pages[i]) == Succeeded && osUnlock(pages[i]) == Succeeded
    ensures var r1 := LockPages(t, pages, osLock);
            forall q :: q in pages ==> Count(UnlockPages(r1.table, pages, osUnlock).table, q) == Count(t, q)
    ensures var r1 := LockPages(t, pages, osLock);
            forall q :: q !in pages ==> Count(UnlockPages(r1.table, pages, osUnlock).table, q) == Count(t, q)
  {
    var r1 := LockPages(t, pages, osLock);
    LockPagesCounts(t, pages, osLock);
    UnlockPagesCounts(r1.table, pages, osUnlock);
  }

  /** The same for a whole range through `lockRangeEx` and
      `unLockRangeEx`: after two locks and one unlock, the page of every
      byte of the range is still locked. */
  lemma RangeLockTwiceUnlockOnce(m: Manager, p: Word, size: Word, osLock: Word -> ActionOutcome, osUnlock: Word -> ActionOutcome)
    requires Valid(m) && Aligned(m.locker) && size >= 1 && p + size <= TwoTo64
    requires forall q :: osLock(q) == Succeeded && osUnlock(q) == Succeeded
    ensures var m1 := LockRangeEx(m, p, size, osLock).0;
            var m2 := LockRangeEx(m1, p, size, osLock).0;
            forall a :: p <= a < p + size ==> PageLocked(UnLockRangeEx(m2, p, size, osUnlock).0, PageStart(m.locker, a))
  {
    var pages := PagesOf(m.locker, p, size);
    PagesOfCoverSpan(m.locker, p, size, p);
    assert HitsInv(m.pages, AddrHash);
    assert forall i :: 0 <= i < |pages| ==> osLock(pages[i]) == Succeeded && osUnlock(pages[i]) == Succeeded;
    LockTwiceUnlockOncePages(m.pages, pages, osLock, osUnlock);
    var m1 := LockRangeEx(m, p, size, osLock).0;
    assert m1.pages == LockPages(m.pages, pages, osLock).table && m1.locker == m.locker;
    var m2 := LockRangeEx(m1, p, size, osLock).0;
    assert m2.pages == LockPages(m1.pages, pages, osLock).table && m2.locker == m.locker;
    var m3 := UnLockRangeEx(m2, p, size, osUnlock).0;
    assert m3.pages == UnlockPages(m2.pages, pages, osUnlock).table;
    forall a | p <= a < p + size
      ensures PageLocked(m3, PageStart(m.locker, a))
    {
      PagesOfCoverSpan(m.locker, p, size, a);
    }
  }

  /** Locking a range and unlocking it again restores every page's count. */
  lemma RangeLockThenUnlock(m: Manager, p: Word, size: Word, osLock: Word -> ActionOutcome, osUnlock: Word -> ActionOutcome)
    requires Valid(m) && Aligned(m.locker) && size >= 1 && p + size <= TwoTo64
    requires forall q :: osLock(q) == Succeeded && osUnlock(q) == Succeeded
    ensures var m1 := LockRangeEx(m, p, size, osLock).0;
            forall q :: Count(UnLockRangeEx(m1, p, size, osUnlock).0.pages, q) == Count(m.pages, q)
  {
    var pages := PagesOf(m.locker, p, size);
    PagesOfCoverSpan(m.locker, p, size, p);
    assert HitsInv(m.pages, AddrHash);
    assert forall i :: 0 <= i < |pages| ==> osLock(pages[i]) == Succeeded && osUnlock(pages[i]) == Succeeded;
    LockThenUnlockPages(m.pages, pages, osLock, osUnlock);
    var m1 := LockRangeEx(m, p, size, osLock).0;
    assert m1.pages == LockPages(m.pages, pages, osLock).table;
    assert UnLockRangeEx(m1, p, size, osUnlock).0.pages == UnlockPages(m1.pages, pages, osUnlock).table;
  }

  /** Whether every page status reports a lock or unlock that went through. */
  predicate AllLocked(statuses: map<Word, Status.Status>) {
    forall q :: q in statuses ==> statuses[q] == ToStatus(SuccessLocked) || statuses[q] == ToStatus(CounterIncremented)
  }

  predicate AllUnlocked(statuses: map<Word, Status.Status>) {
    forall q :: q in statuses ==> statuses[q] == ToStatus(SuccessUnlocked) || statuses[q] == ToStatus(CounterDecremented)
  }

  /** `lockRange(ptr, size)`: the pages are locked as by `lockRangeEx`, the
      block is recorded with its size, and the answer is whether every page
      lock went through. */
  function LockRange(m: Manager, p: Word, size: Word, osLock: Word -> ActionOutcome): (r: (Manager, bool))
    requires Valid(m)
    ensures Valid(r.0)
    ensures r.1 <==> AllLocked(LockRangeEx(m, p, size, osLock).1)
    ensures p in GetMap(r.0.blocks) && GetMap(r.0.blocks)[p] == size
  {
    var (m1, statuses) := LockRangeEx(m, p, size, osLock);
    AppendOrUpdatePreservesInv(m1.blocks, AddrHash, p, size, Succeeded);
    var o := TryAppendOrUpdate(m1.blocks, AddrHash, p, size, Succeeded);
    (m1.(blocks := o.table), AllLocked(statuses))
  }

  /** `unLockRange(ptr, size)`: the pages are unlocked as by
      `unLockRangeEx`, the block record is dropped, and the answer is
      whether every page unlock went through. */
  function UnLockRange(m: Manager, p: Word, size: Word, osUnlock: Word -> ActionOutcome): (r: (Manager, bool))
    requires Valid(m)
    ensures Valid(r.0)
    ensures r.1 <==> AllUnlocked(UnLockRangeEx(m, p, size, osUnlock).1)
    ensures p !in GetMap(r.0.blocks)
  {
    var (m1, statuses) := UnLockRangeEx(m, p, size, osUnlock);
    RemovePreservesInv(m1.blocks, AddrHash, p, Succeeded);
    var o := TryRemove(m1.blocks, AddrHash, p, Succeeded);
    (m1.(blocks := o.table), AllUnlocked(statuses))
  }

  /** The closest block base at or below `base` whose block holds `p`. */
  function FindBlock(blocks: map<Word, nat>, p: Word, base: Word): (r: nat)
    requires base <= p
    ensures r > 0 ==> exists b: Word :: b <= base && b in blocks && p < b + blocks[b] && blocks[b] == r
    ensures r == 0 ==> forall b: Word :: b <= base && b in blocks ==> p >= b + blocks[b]
    decreases base
  {
    if base in blocks && p < base + blocks[base] then blocks[base]
    else if base == 0 then 0
    else FindBlock(blocks, p, base - 1)
  }

  /** `isLocked(ptr)`: the size of a locked block holding `ptr`, or 0 when
      no locked block holds it. */
  function IsLocked(m: Manager, p: Word): (r: nat)
    ensures r > 0 <==> exists b: Word :: b in GetMap(m.blocks) && b <= p < b + GetMap(m.blocks)[b]
    ensures r > 0 ==> exists b: Word :: b in GetMap(m.blocks) && b <= p < b + GetMap(m.blocks)[b] && GetMap(m.blocks)[b] == r
  {
    FindBlock(GetMap(m.blocks), p, p)
  }

  /** `lockedPages()` / `lockedBlocks()`. */
  function LockedPages(m: Manager): (n: nat)
    requires Valid(m)
    ensures n == |GetMap(m.pages)|
  {
    GetUniqueHits(m.pages)
  }

  function LockedBlocks(m: Manager): (n: nat)
    requires Valid(m)
    ensures n == |GetMap(m.blocks)|
  {
    GetUniqueHits(m.blocks)
  }

  /** `lastError()`: the calling thread's last error, or no error. */
  function LastError(m: Manager, tid: ThreadId): (e: SysError)
    requires Valid(m)
    ensures tid in GetMap(m.lastError) ==> e == GetMap(m.lastError)[tid]
    ensures tid !in GetMap(m.lastError) ==> e == NoError && !e.IsError()
  {
    match Find(m.lastError, m.threadHash, tid)
    case Some(e) => e
    case None => NoError
  }

  /** `setLastError(error)` on behalf of thread `tid`. */
  function SetLastError(m: Manager, tid: ThreadId, e: SysError): (m': Manager)
    requires Valid(m)
    ensures Valid(m')
    ensures GetMap(m'.lastError) == GetMap(m.lastError)[tid := e]
    ensures m'.pages == m.pages && m'.blocks == m.blocks
  {
    var o := TryAppendOrUpdate(m.lastError, m.threadHash, tid, e, Succeeded);
    m.(lastError := o.table)
  }

  /** A thread reads back its own last error, and another thread's error
      never shows through. */
  lemma LastErrorPerThread(m: Manager, tid: ThreadId, other: ThreadId, e: SysError)
    requires Valid(m)
    ensures LastError(SetLastError(m, tid, e), tid) == e
    ensures other != tid ==> LastError(SetLastError(m, tid, e), other) == LastError(m, other)
  {
  }

  /** `Instance()`: the singleton slot, filled once. */
  datatype Singleton = Uninitialised | Ready(instance: Manager)

  function Instance(s: Singleton, create: Manager): (r: (Singleton, Manager))
    ensures r.0.Ready? && r.0.instance == r.1
    ensures s.Ready? ==> r.0 == s
  {
    match s
    case Uninitialised => (Ready(create), create)
    case Ready(m) => (s, m)
  }

  /** Every call after the first returns the first call's manager. */
  lemma InstanceIsStable(s: Singleton, c1: Manager, c2: Manager)
    ensures Instance(Instance(s, c1).0, c2).1 == Instance(s, c1).1
  {
  }
}

=== FILE: secret.dfy ===
/** A secret: a named sequence of secure bytes with metadata, which can be
    encrypted and decrypted under a password. The cipher itself is not
    modelled: the outcome of the unlocked encrypt/decrypt step (the new
    plaintext and ciphertext, or its exception) is a parameter. */
module Secret {
  import opened Wrappers
  import opened Bytes
  import MetaDataCollection

  /** What the unlocked encrypt or decrypt step leaves in the two buffers. */
  datatype Payload = Payload(plain: seq<byte>, cipher: seq<byte>)

  /** `mName`, `mSecretData`, `mEncryptedData`, `mEncryptPasswd`, `mMetaData`. */
  datatype Secret = Secret(name: string, data: seq<byte>, encryptedData: seq<byte>,
                           passwd: seq<byte>, meta: MetaDataCollection.Collection)

  datatype SecretError = EmptyPassword | NotEncrypted | CipherFailed

  /** `empty()`: no secret data. */
  predicate Empty(s: Secret) {
    |s.data| == 0
  }

  /** `encrypted()`: the secret holds encrypted data, which is the condition
      `decryptSecret` checks before decrypting. */
  predicate Encrypted(s: Secret) {
    |s.encryptedData| > 0
  }

  /** `getEncryptedSecret()`. */
  function GetEncryptedSecret(s: Secret): seq<byte> {
    s.encryptedData
  }

  /** The constructor from secret bytes, a name and optional metadata: an
      empty name is replaced by a random one (`randomName`), a null
      metadata pointer by an empty collection; nothing is encrypted yet. */
  function New(secret: seq<byte>, name: string, meta: Option<MetaDataCollection.Collection>, randomName: string): (r: Secret)
    ensures r.data == secret && GetEncryptedSecret(r) == [] && !Encrypted(r)
    ensures Empty(r) <==> |secret| == 0
    ensures name != "" ==> r.name == name
    ensures name == "" ==> r.name == randomName
    ensures meta.Some? ==> r.meta == meta.value
    ensures meta.None? ==> forall k :: !MetaDataCollection.KeyExists(r.meta, k)
  {
    Secret(if name == "" then randomName else name, secret, [], [],
           if meta.Some? then meta.value else MetaDataCollection.Empty)
  }

  /** `setSecret(secret)`: replaces the unencrypted contents; the name,
      metadata and any encrypted copy are kept. */
  function SetSecret(s: Secret, data: seq<byte>): (r: Secret)
    ensures r.data == data && (Empty(r) <==> |data| == 0)
    ensures r.name == s.name && r.encryptedData == s.encryptedData && r.passwd == s.passwd && r.meta == s.meta
  {
    s.(data := data)
  }

  /** `setName(name)`. */
  function SetName(s: Secret, name: string): (r: Secret)
    ensures r.name == name && r.data == s.data && r.encryptedData == s.encryptedData && r.meta == s.meta
  {
    s.(name := name)
  }

  /** `setMetaData({key, value})`: the only way to change a secret's
      metadata; nothing else about the secret changes. */
  function SetMetaData(s: Secret, key: string, value: string): (r: Secret)
    ensures MetaDataCollection.GetMetaValue(r.meta, key) == Success(value)
    ensures forall k :: k != key ==> MetaDataCollection.GetMetaValue(r.meta, k) == MetaDataCollection.GetMetaValue(s.meta, k)
    ensures r.name == s.name && r.data == s.data && r.encryptedData == s.encryptedData && r.passwd == s.passwd
  {
    s.(meta := MetaDataCollection.SetMetaData(s.meta, key, value))
  }

  /** `encryptSecret(begin, end)`: an empty password is refused before
      anything changes; otherwise the unlocked step runs (`step`) and, if it
      does not throw, the password bytes are recorded. */
  function EncryptSecret(s: Secret, passwd: seq<byte>, step: Result<Payload, SecretError>): (r: Result<Secret, SecretError>)
    ensures |passwd| == 0 ==> r == Failure(EmptyPassword)
    ensures |passwd| > 0 ==> (r.Success? <==> step.Success?)
    ensures r.Success? ==> r.value.passwd == passwd && r.value.name == s.name && r.value.meta == s.meta &&
                           r.value.data == step.value.plain && r.value.encryptedData == step.value.cipher
  {
    if |passwd| == 0 then Failure(EmptyPassword)
    else
      var p :- step;
      Success(s.(data := p.plain, encryptedData := p.cipher, passwd := passwd))
  }

  /** `decryptSecret(begin, end)`: a secret without encrypted data is
      refused before anything changes; the password is not checked for
      emptiness. On success the password bytes are recorded. */
  function DecryptSecret(s: Secret, passwd: seq<byte>, step: Result<Payload, SecretError>): (r: Result<Secret, SecretError>)
    ensures !Encrypted(s) ==> r == Failure(NotEncrypted)
    ensures Encrypted(s) ==> (r.Success? <==> step.Success?)
    ensures r.Success? ==> r.value.passwd == passwd && r.value.name == s.name && r.value.meta == s.meta &&
                           r.value.data == step.value.plain && r.value.encryptedData == step.value.cipher
  {
    if |s.encryptedData| == 0 then Failure(NotEncrypted)
    else
      var p :- step;
      Success(s.(data := p.plain, encryptedData := p.cipher, passwd := passwd))
  }

  /** Decryption is the one direction that accepts an empty password. */
  lemma EmptyPasswordAsymmetry(s: Secret, step: Result<Payload, SecretError>)
    requires Encrypted(s) && step.Success?
    ensures EncryptSecret(s, [], step).Failure?
    ensures DecryptSecret(s, [], step).Success? && DecryptSecret(s, [], step).value.passwd == []
  {
  }

  /** A freshly built secret cannot be decrypted; once an encryption that
      leaves ciphertext succeeds, decryption gets past its guard. */
  lemma EncryptEnablesDecrypt(secret: seq<byte>, name: string, randomName: string, passwd: seq<byte>,
                              enc: Result<Payload, SecretError>, dec: Result<Payload, SecretError>, passwd2: seq<byte>)
    requires |passwd| > 0 && enc.Success? && |enc.value.cipher| > 0 && dec.Success?
    ensures var s := New(secret, name, None, randomName);
            DecryptSecret(s, passwd2, dec) == Failure(NotEncrypted) &&
            var e := EncryptSecret(s, passwd, enc);
            e.Success? && Encrypted(e.value) && DecryptSecret(e.value, passwd2, dec).Success?
  {
  }
}

=== FILE: secret_store.dfy ===
/** The secret store: a registry from names to secrets that forwards every
    change to a pluggable backing store. The backing store is a
    collaborator outside the model: each call the store makes to it is
    appended to `calls`, and what its `loadAll` reads back is a parameter.
    Locking is not modelled; each operation is one atomic step. */
module SecretStore {
  import opened Wrappers
  import opened Bytes
  import MetaDataCollection
  import Secret

  type Name = string

  /** The identity of a backing store object. */
  type BackingId = nat

  /** The calls the store makes on its backing store. */
  datatype BackingCall =
    | SaveSecret(secret: Secret.Secret)
    | SaveSecrets(secrets: seq<Secret.Secret>)
    | UpdateSecret(name: Name, secret: Secret.Secret)
    | RemoveSecret(name: Name)
    | LoadAll

  /** `mSecretMap`, `mBackingStore`, `mMasterPasswd`, `mReloading`, and the
      calls made so far. */
  datatype Store = Store(secrets: map<Name, Secret.Secret>, backing: Option<BackingId>,
                         master: seq<byte>, reloading: bool, calls: seq<BackingCall>)

  datatype StoreError = NoBackingStore | DuplicateName(name: Name) | NameNotFound(name: Name)

  const Initial := Store(map[], None, [], false, [])

  // ---------------------------------------------------------------------
  // Queries

  /** `getSecret(name)`: the stored secret, or null. */
  function GetSecret(st: Store, name: Name): (r: Option<Secret.Secret>)
    ensures r.Some? <==> name in st.secrets
    ensures r.Some? ==> r.value == st.secrets[name]
  {
    if name in st.secrets then Some(st.secrets[name]) else None
  }

  /** `getAllSecretNames()`: exactly the names `getSecret` finds. */
  function GetAllSecretNames(st: Store): (r: set<Name>)
    ensures forall n :: n in r <==> GetSecret(st, n).Some?
  {
    st.secrets.Keys
  }

  /** `getAllSecrets()`: exactly the secrets some name leads to. */
  function GetAllSecrets(st: Store): (r: set<Secret.Secret>)
    ensures forall s :: s in r <==> exists n :: GetSecret(st, n) == Some(s)
  {
    var r := st.secrets.Values;
    assert forall s :: s in r ==> exists n :: GetSecret(st, n) == Some(s) by {
      forall s | s in r ensures exists n :: GetSecret(st, n) == Some(s) {
        var n :| n in st.secrets && st.secrets[n] == s;
        assert GetSecret(st, n) == Some(s);
      }
    }
    r
  }

  /** `getAllSecretsWhere(key, value)`: the stored secrets whose metadata
      holds `value` under `key`; a secret without the key is left out. */
  function GetAllSecretsWhere(st: Store, key: string, value: string): (r: set<Secret.Secret>)
    ensures forall s :: s in r <==> s in GetAllSecrets(st) && MetaDataCollection.GetMetaValue(s.meta, key) == Success(value)
  {
    set s | s in st.secrets.Values && MetaDataCollection.GetMetaValue(s.meta, key) == Success(value)
  }

  // ---------------------------------------------------------------------
  // Changes

  /** `setMasterPassword(passwd)`: stored; the registry is not touched. */
  function SetMasterPassword(st: Store, passwd: seq<byte>): (r: Store)
    ensures r.master == passwd && r.secrets == st.secrets && r.calls == st.calls
  {
    st.(master := passwd)
  }

  /** `addSecret(secret)`: needs a backing store and a name not yet in use;
      the secret is registered under its name and saved. A refusal changes
      nothing. */
  function AddSecret(st: Store, s: Secret.Secret): (r: Result<Store, StoreError>)
    ensures st.backing.None? ==> r == Failure(NoBackingStore)
    ensures st.backing.Some? && s.name in st.secrets ==> r == Failure(DuplicateName(s.name))
    ensures r.Success? <==> st.backing.Some? && s.name !in st.secrets
    ensures r.Success? ==> GetSecret(r.value, s.name) == Some(s) &&
                           (forall n :: n != s.name ==> GetSecret(r.value, n) == GetSecret(st, n)) &&
                           r.value.calls == st.calls + [SaveSecret(s)]
  {
    if st.backing.None? then Failure(NoBackingStore)
    else if s.name in st.secrets then Failure(DuplicateName(s.name))
    else Success(st.(secrets := st.secrets[s.name := s], calls := st.calls + [SaveSecret(s)]))
  }

  ghost predicate DistinctNames(ss: seq<Secret.Secret>) {
    forall i, j :: 0 <= i < j < |ss| ==> ss[i].name != ss[j].name
  }

  /** The first name in `ss` that is already taken, counting names in
      `taken` and names earlier in `ss`. */
  function Clash(taken: set<Name>, ss: seq<Secret.Secret>): (r: Option<Name>)
    ensures r.None? <==> (forall i :: 0 <= i < |ss| ==> ss[i].name !in taken) && DistinctNames(ss)
    ensures r.Some? ==> exists i :: 0 <= i < |ss| && ss[i].name == r.value
    decreases |ss|
  {
    if |ss| == 0 then None
    else if ss[0].name in taken then Some(ss[0].name)
    else
      var rest := Clash(taken + {ss[0].name}, ss[1..]);
      assert rest.Some? ==> exists i :: 0 <= i < |ss| && ss[i].name == rest.value by {
        if rest.Some? {
          var i :| 0 <= i < |ss[1..]| && ss[1..][i].name == rest.value;
          assert ss[i + 1].name == rest.value;
        }
      }
      rest
  }

  /** Registers every secret of `ss` under its name, later ones last. */
  function Register(m: map<Name, Secret.Secret>, ss: seq<Secret.Secret>): (r: map<Name, Secret.Secret>)
    ensures forall n :: n in r <==> n in m || exists i :: 0 <= i < |ss| && ss[i].name == n
    ensures forall n :: n in m && (forall i :: 0 <= i < |ss| ==> ss[i].name != n) ==> r[n] == m[n]
    decreases |ss|
  {
    if |ss| == 0 then m
    else
      var r := Register(m[ss[0].name := ss[0]], ss[1..]);
      assert forall i :: 0 <= i < |ss[1..]| ==> ss[1..][i] == ss[i + 1];
      r
  }

  /** With distinct names, each secret of `ss` ends up under its own name. */
  lemma {:induction false} RegisterPlaces(m: map<Name, Secret.Secret>, ss: seq<Secret.Secret>, k: nat)
    requires DistinctNames(ss) && k < |ss|
    ensures ss[k].name in Register(m, ss) && Register(m, ss)[ss[k].name] == ss[k]
    decreases |ss|
  {
    var m' := m[ss[0].name := ss[0]];
    if k == 0 {
      assert forall i :: 0 <= i < |ss[1..]| ==> ss[1..][i].name != ss[0].name by {
        forall i | 0 <= i < |ss[1..]| ensures ss[1..][i].name != ss[0].name {
          assert ss[1..][i] == ss[i + 1];
        }
      }
    } else {
      assert DistinctNames(ss[1..]) by {
        forall i, j | 0 <= i < j < |ss[1..]| ensures ss[1..][i].name != ss[1..][j].name {
          assert ss[1..][i] == ss[i + 1] && ss[1..][j] == ss[j + 1];
        }
      }
      assert ss[1..][k - 1] == ss[k];
      RegisterPlaces(m', ss[1..], k - 1);
    }
  }

  /** `addSecrets(secrets)`: needs a backing store, and every name must be
      new and distinct from the others; then all are registered and saved
      in one call. A refusal changes nothing. */
  function AddSecrets(st: Store, ss: seq<Secret.Secret>): (r: Result<Store, StoreError>)
    ensures st.backing.None? ==> r == Failure(NoBackingStore)
    ensures r.Success? <==> st.backing.Some? && (forall i :: 0 <= i < |ss| ==> ss[i].name !in st.secrets) && DistinctNames(ss)
    ensures r.Failure? && st.backing.Some? ==> r.error.DuplicateName? && exists i :: 0 <= i < |ss| && ss[i].name == r.error.name
    ensures r.Success? ==> (forall n :: (forall i :: 0 <= i < |ss| ==> ss[i].name != n) ==> GetSecret(r.value, n) == GetSecret(st, n)) &&
                           r.value.calls == st.calls + [SaveSecrets(ss)]
  {
    if st.backing.None? then Failure(NoBackingStore)
    else match Clash(st.secrets.Keys, ss)
      case Some(n) => Failure(DuplicateName(n))
      case None => Success(st.(secrets := Register(st.secrets, ss), calls := st.calls + [SaveSecrets(ss)]))
  }

  /** After a successful `addSecrets`, `getSecret` finds each new secret. */
  lemma AddSecretsFindsEach(st: Store, ss: seq<Secret.Secret>, k: nat)
    requires AddSecrets(st, ss).Success? && k < |ss|
    ensures GetSecret(AddSecrets(st, ss).value, ss[k].name) == Some(ss[k])
  {
    RegisterPlaces(st.secrets, ss, k);
  }

  /** `replaceSecret(name, secret)`: the entry under `name`, which must
      exist, is replaced by `secret`, which is filed under its own name; the
      backing store is told of the change under the old name, since the
      name itself may be what changed. */
  function ReplaceSecret(st: Store, name: Name, s: Secret.Secret): (r: Result<Store, StoreError>)
    ensures st.backing.None? ==> r == Failure(NoBackingStore)
    ensures st.backing.Some? && name !in st.secrets ==> r == Failure(NameNotFound(name))
    ensures r.Success? <==> st.backing.Some? && name in st.secrets
    ensures r.Success? ==> GetSecret(r.value, s.name) == Some(s) &&
                           (s.name != name ==> GetSecret(r.value, name).None?) &&
                           (forall n :: n != name && n != s.name ==> GetSecret(r.value, n) == GetSecret(st, n)) &&
                           r.value.calls == st.calls + [UpdateSecret(name, s)]
  {
    if st.backing.None? then Failure(NoBackingStore)
    else if name !in st.secrets then Failure(NameNotFound(name))
    else Success(st.(secrets := (st.secrets - {name})[s.name := s], calls := st.calls + [UpdateSecret(name, s)]))
  }

  /** Replacing a secret by one with a fresh name renames the entry: the
      store keeps its size. */
  lemma ReplaceRenames(st: Store, name: Name, s: Secret.Secret)
    requires st.backing.Some? && name in st.secrets && (s.name == name || s.name !in st.secrets)
    ensures ReplaceSecret(st, name, s).Success?
    ensures StoreSize(ReplaceSecret(st, name, s).value) == StoreSize(st)
  {
    var m := (st.secrets - {name})[s.name := s];
    assert m.Keys == st.secrets.Keys - {name} + {s.name};
    assert |st.secrets.Keys - {name}| == |st.secrets.Keys| - 1;
  }

  /** `removeSecret(name)`: the entry, which must exist, is erased and the
      removal forwarded. */
  function RemoveSecret(st: Store, name: Name): (r: Result<Store, StoreError>)
    ensures st.backing.None? ==> r == Failure(NoBackingStore)
    ensures st.backing.Some? && name !in st.secrets ==> r == Failure(NameNotFound(name))
    ensures r.Success? <==> st.backing.Some? && name in st.secrets
    ensures r.Success? ==> GetSecret(r.value, name).None? &&
                           (forall n :: n != name ==> GetSecret(r.value, n) == GetSecret(st, n)) &&
                           r.value.calls == st.calls + [BackingCall.RemoveSecret(name)]
  {
    if st.backing.None? then Failure(NoBackingStore)
    else if name !in st.secrets then Failure(NameNotFound(name))
    else Success(st.(secrets := st.secrets - {name}, calls := st.calls + [BackingCall.RemoveSecret(name)]))
  }

  /** `secretUpdated(name)`: the secret currently stored under `name` is
      forwarded to the backing store; the registry does not change. */
  function SecretUpdated(st: Store, name: Name): (r: Result<Store, StoreError>)
    ensures r.Success? <==> st.backing.Some? && name in st.secrets
    ensures r.Success? ==> r.value.secrets == st.secrets && r.value.calls == st.calls + [UpdateSecret(name, st.secrets[name])]
  {
    if st.backing.None? then Failure(NoBackingStore)
    else if name !in st.secrets then Failure(NameNotFound(name))
    else Success(st.(calls := st.calls + [UpdateSecret(name, st.secrets[name])]))
  }

  /** `loadSecret(secret)`: registers a secret read back from the backing
      store, and saves nothing. */
  function LoadSecret(st: Store, s: Secret.Secret): (r: Store)
    ensures GetSecret(r, s.name) == Some(s)
    ensures forall n :: n != s.name ==> GetSecret(r, n) == GetSecret(st, n)
    ensures r.calls == st.calls && r.backing == st.backing
  {
    st.(secrets := st.secrets[s.name := s])
  }

  /** The backing store's `loadAll` replaying what it holds, one
      `loadSecret` per entry. */
  function LoadEach(st: Store, loaded: seq<Secret.Secret>): (r: Store)
    ensures r.calls == st.calls && r.backing == st.backing && r.reloading == st.reloading
    decreases |loaded|
  {
    if |loaded| == 0 then st else LoadEach(LoadSecret(st, loaded[0]), loaded[1..])
  }

  /** `setSecretBackingStore(db)`: the new backing store is kept and, when
      it is not null, asked to `loadAll`, with the reload flag raised while
      its entries come back (`loaded`) so that they are not saved again. */
  function SetSecretBackingStore(st: Store, db: Option<BackingId>, loaded: seq<Secret.Secret>): (r: Store)
    ensures r.backing == db && !r.reloading
    ensures db.None? ==> r.secrets == st.secrets && r.calls == st.calls
    ensures db.Some? ==> r.calls == st.calls + [LoadAll]
  {
    if db.None? then st.(backing := None, reloading := false)
    else
      var during := LoadEach(st.(backing := db, reloading := true, calls := st.calls + [LoadAll]), loaded);
      during.(reloading := false)
  }

  /** Whether every entry the backing store returns is already registered,
      unchanged, under its name. */
  ghost predicate InSync(st: Store, loaded: seq<Secret.Secret>) {
    forall i :: 0 <= i < |loaded| ==> loaded[i].name in st.secrets && st.secrets[loaded[i].name] == loaded[i]
  }

  lemma {:induction false} LoadEachInSync(st: Store, loaded: seq<Secret.Secret>)
    requires InSync(st, loaded)
    ensures LoadEach(st, loaded).secrets == st.secrets
    decreases |loaded|
  {
    if |loaded| > 0 {
      var s := loaded[0];
      assert st.secrets[s.name := s] == st.secrets;
      assert LoadSecret(st, s).secrets == st.secrets;
      assert InSync(LoadSecret(st, s), loaded[1..]) by {
        forall i | 0 <= i < |loaded[1..]| ensures loaded[1..][i].name in st.secrets && st.secrets[loaded[1..][i].name] == loaded[1..][i] {
          assert loaded[1..][i] == loaded[i + 1];
        }
      }
      LoadEachInSync(LoadSecret(st, s), loaded[1..]);
    }
  }

  /** Reloading from a backing store that holds exactly what is registered
      leaves the registry as it was. */
  lemma ReloadIdempotent(st: Store, db: BackingId, loaded: seq<Secret.Secret>)
    requires InSync(st, loaded)
    ensures SetSecretBackingStore(st, Some(db), loaded).secrets == st.secrets
  {
    var st1 := st.(backing := Some(db), reloading := true, calls := st.calls + [LoadAll]);
    assert InSync(st1, loaded);
    LoadEachInSync(st1, loaded);
  }

  /** Adding a secret and removing it again restores the registry. */
  lemma AddThenRemove(st: Store, s: Secret.Secret)
    requires st.backing.Some? && s.name !in st.secrets
    ensures var a := AddSecret(st, s);
            a.Success? && RemoveSecret(a.value, s.name).Success? &&
            RemoveSecret(a.value, s.name).value.secrets == st.secrets
  {
    assert st.secrets[s.name := s] - {s.name} == st.secrets;
  }

  // ---------------------------------------------------------------------
  // The unit-test helper

  /** `SecretStoreTester::clear()`: the registry is emptied; nothing is
      forwarded. */
  function TesterClear(st: Store): (r: Store)
    ensures GetAllSecretNames(r) == {} && r.calls == st.calls && r.backing == st.backing
  {
    st.(secrets := map[])
  }

  /** `SecretStoreTester::storeSize()`: the number of registered names. */
  function StoreSize(st: Store): (n: nat)
    ensures n == |GetAllSecretNames(st)|
  {
    |st.secrets|
  }

  /** `SecretStoreTester::reload()`: the current backing store set again. */
  function TesterReload(st: Store, loaded: seq<Secret.Secret>): (r: Store)
    ensures r.backing == st.backing && !r.reloading
  {
    SetSecretBackingStore(st, st.backing, loaded)
  }

  /** `SecretStoreTester::resetBackingStore()`: no backing store, so every
      change is refused from then on. */
  function TesterResetBackingStore(st: Store): (r: Store)
    ensures r.secrets == st.secrets
    ensures forall s :: AddSecret(r, s) == Failure(NoBackingStore)
  {
    st.(backing := None)
  }

  /** A successful `addSecret` grows the store by one. */
  lemma AddGrowsByOne(st: Store, s: Secret.Secret)
    requires AddSecret(st, s).Success?
    ensures StoreSize(AddSecret(st, s).value) == StoreSize(st) + 1
  {
    assert st.secrets[s.name := s].Keys == st.secrets.Keys + {s.name};
  }
}

=== FILE: secure_allocator.dfy ===
/** The standard-library allocator over secure memory: a stateless wrapper
    that turns object counts into byte counts for `secureByteAlloc` and
    places every constructed object in registered memory. `sizeof(T)` is
    the parameter `w`. */
module SecureAllocator {
  import opened Wrappers
  import opened Bytes
  import opened SecureByteAlloc

  /** `std::numeric_limits<size_t>::max()`. */
  const SizeMax: nat := 0xFFFF_FFFF_FFFF_FFFF

  type Size = x: nat | x <= SizeMax

  /** `sizeof(T)`: at least one byte. */
  type Width = w: nat | 1 <= w <= SizeMax witness 1

  /** The allocator carries no state. */
  datatype SecureAllocator = SecureAllocator

  /** `max_size()`: the largest count whose byte size fits in `size_t`. */
  function MaxSize(w: Width): (r: Size)
    ensures r * w <= SizeMax < (r + 1) * w
  {
    var r := SizeMax / w;
    assert SizeMax == w * r + SizeMax % w;
    r
  }

  /** `operator==`: any two allocators are interchangeable. */
  function Eq(a: SecureAllocator, b: SecureAllocator): (r: bool)
    ensures r
  {
    true
  }

  /** `operator!=`: the negation of `==`, hence never true. */
  function Neq(a: SecureAllocator, b: SecureAllocator): (r: bool)
    ensures r == !Eq(a, b) && !r
  {
    !Eq(a, b)
  }

  /** `n * sizeof(T)` evaluated in `size_t`: exact while the count is within
      `max_size()`, wrapped modulo `SIZE_MAX + 1` beyond it. */
  function RequestedBytes(n: Size, w: Width): (b: Size)
    ensures n <= MaxSize(w) ==> b == n * w
    ensures n > MaxSize(w) ==> b < n * w
  {
    (n * w) % (SizeMax + 1)
  }

  /** `allocate(n, hint)` as written: the hint is ignored and the wrapped
      byte count is requested. */
  function AllocateAsWritten(h: Heap, n: Size, w: Width, initial: seq<byte>, ok: bool, lockOk: bool): (r: Result<Allocated, AllocError>)
    requires Inv(h) && |initial| >= RequestedBytes(n, w)
    ensures r.Success? <==> ok && lockOk
    ensures r.Success? ==> r.value.ptr in r.value.heap.blocks && r.value.heap.blocks[r.value.ptr].secure &&
                           |r.value.heap.blocks[r.value.ptr].contents| >= RequestedBytes(n, w)
  {
    SecureByteAlloc.SecureByteAlloc(h, RequestedBytes(n, w), initial, ok, lockOk)
  }

  /** A count above `max_size()` gets a block too small for it: two-byte
      objects, 2^63 of them, request zero bytes and the allocation succeeds. */
  lemma AllocateAsWrittenOverflows(h: Heap)
    requires Inv(h)
    ensures var n: Size := 0x8000_0000_0000_0000;
            n > MaxSize(2) && RequestedBytes(n, 2) == 0 &&
            AllocateAsWritten(h, n, 2, [], true, true).Success?
  {
  }

  /** `allocate(n, hint)` as the allocator requirements intend it: a count
      above `max_size()` is refused with `bad_alloc`; otherwise exactly
      `n * sizeof(T)` bytes are requested from `secureByteAlloc`. */
  function Allocate(h: Heap, n: Size, w: Width, initial: seq<byte>, ok: bool, lockOk: bool): (r: Result<Allocated, AllocError>)
    requires Inv(h) && (n <= MaxSize(w) ==> |initial| >= n * w)
    ensures n > MaxSize(w) ==> r == Failure(BadAlloc)
    ensures n <= MaxSize(w) ==> r == SecureByteAlloc.SecureByteAlloc(h, n * w, initial, ok, lockOk)
    ensures r.Success? ==> r.value.ptr in r.value.heap.blocks && r.value.heap.blocks[r.value.ptr].secure &&
                           |r.value.heap.blocks[r.value.ptr].contents| >= n * w
  {
    if n > MaxSize(w) then Failure(BadAlloc)
    else SecureByteAlloc.SecureByteAlloc(h, n * w, initial, ok, lockOk)
  }

  /** The two agree on every count within `max_size()`. */
  lemma AllocateAgreesWithinMaxSize(h: Heap, n: Size, w: Width, initial: seq<byte>, ok: bool, lockOk: bool)
    requires Inv(h) && n <= MaxSize(w) && |initial| >= n * w
    ensures Allocate(h, n, w, initial, ok, lockOk) == AllocateAsWritten(h, n, w, initial, ok, lockOk)
  {
  }

  /** `deallocate(p, n)`: the count is ignored and the block goes through
      `secureByteFree`, which wipes it; nothing is thrown. */
  function Deallocate(h: Heap, p: Addr, n: Size): (h': Heap)
    requires Inv(h) && (p == Null || (p in h.blocks && h.blocks[p].secure))
    ensures Inv(h') && LogExtends(h, h')
    ensures p != Null ==> p !in h'.blocks && |h'.released| == |h.released| + 1 &&
                          AllZero(h'.released[|h.released|].contents)
  {
    SecureByteFree(h, p)
  }

  /** The count passed to `deallocate` makes no difference. */
  lemma DeallocateIgnoresCount(h: Heap, p: Addr, n1: Size, n2: Size)
    requires Inv(h) && (p == Null || (p in h.blocks && h.blocks[p].secure))
    ensures Deallocate(h, p, n1) == Deallocate(h, p, n2)
  {
  }

  /** What `construct` leaves behind: the heap, and the exception that
      escaped, if any. */
  datatype ConstructError = AllocFailed(error: AllocError) | ConstructorThrew
  datatype Constructed = Constructed(heap: Heap, error: Option<ConstructError>)

  /** How the object's constructor ends: it returns, it throws something
      derived from `std::exception`, or it throws anything else. */
  datatype CtorOutcome = Built | ThrewStd | ThrewOther

  /** `construct(p, args...)`: the object's storage at `p` is registered
      through the placement `secureByteAlloc` (a null `p` is `bad_alloc`),
      then the object is built in it (`obj`). Only a `std::exception` is
      caught: then the registration is undone through the placement
      `secureByteFree`, which wipes it, and the exception is rethrown. Any
      other exception passes the handler by, and the storage stays
      registered as secure with its contents unwiped. */
  function Construct(h: Heap, p: Addr, w: Width, obj: seq<byte>, lockOk: bool, ctor: CtorOutcome): (r: Constructed)
    requires Inv(h) && |obj| >= w
    ensures Inv(r.heap)
    ensures p == Null ==> r == Constructed(h, Some(AllocFailed(BadAlloc)))
    ensures p != Null && !lockOk ==> r == Constructed(h, Some(AllocFailed(SecureBadAlloc)))
    ensures p != Null && lockOk && ctor == Built ==>
              r.error.None? && p in r.heap.placed && r.heap.placed[p] == Block(true, obj) &&
              r.heap.blocks == h.blocks && r.heap.released == h.released
    ensures p != Null && lockOk && ctor == ThrewStd ==>
              r.error == Some(ConstructorThrew) && p !in r.heap.placed && r.heap.blocks == h.blocks &&
              |r.heap.released| == |h.released| + 1 && r.heap.released[|h.released|].secure &&
              AllZero(r.heap.released[|h.released|].contents)
    ensures p != Null && lockOk && ctor == ThrewOther ==>
              r.error == Some(ConstructorThrew) && p in r.heap.placed && r.heap.placed[p] == Block(true, obj) &&
              IsSecure(r.heap, p) && r.heap.released == h.released
  {
    match SecureByteAllocAt(h, w, p, obj, lockOk)
    case Failure(e) => Constructed(h, Some(AllocFailed(e)))
    case Success(a) =>
      match ctor
      case Built => Constructed(a.heap, None)
      case ThrewStd => Constructed(SecureByteFreeAt(a.heap, a.ptr, a.ptr), Some(ConstructorThrew))
      case ThrewOther => Constructed(a.heap, Some(ConstructorThrew))
  }

  /** `destroy(p)`: the destructor runs for a non-null `p`, then the
      placement `secureByteFree` wipes and unregisters the storage; nothing
      is thrown. */
  function Destroy(h: Heap, p: Addr): (h': Heap)
    requires Inv(h) && (p == Null || (p in h.placed && h.placed[p].secure))
    ensures Inv(h') && LogExtends(h, h')
    ensures p == Null ==> h' == h
    ensures p != Null ==> p !in h'.placed && h'.blocks == h.blocks &&
                          |h'.released| == |h.released| + 1 &&
                          AllZero(h'.released[|h.released|].contents)
  {
    SecureByteFreeAt(h, p, p)
  }

  /** Constructing an object and destroying it leaves the placement table
      as it was without `p` and a wiped copy of the object in the log. */
  lemma ConstructThenDestroy(h: Heap, p: Addr, w: Width, obj: seq<byte>)
    requires Inv(h) && p != Null && |obj| >= w
    ensures var c := Construct(h, p, w, obj, true, Built);
            c.error.None? &&
            var h' := Destroy(c.heap, p);
            h'.placed == h.placed - {p} && h'.blocks == h.blocks &&
            h'.released == h.released + [Release(p, true, Zeros(|obj|))]
  {
    var c := Construct(h, p, w, obj, true, Built);
    assert c.heap.placed == h.placed[p := Block(true, obj)];
    assert c.heap.placed - {p} == h.placed - {p};
  }
}

=== FILE: secure_byte_alloc.dfy ===
/** The byte allocators under every secure container, as an abstract heap.
    Plain blocks come from conventional memory; secure blocks are in
    addition registered with the page-lock manager so they never reach a
    swap file, and their contents are wiped before release. Each allocator
    has a placement variant that lays a block over memory the caller
    already owns (the "stage"); such a block must be released through the
    matching placement free. Every release is logged with the contents the
    memory held when it was handed back, which is how the wipe is stated. */
module SecureByteAlloc {
  import opened Wrappers
  import opened Bytes

  /** A machine address; 0 is the null pointer. */
  type Addr = nat

  const Null: Addr := 0

  datatype Block = Block(secure: bool, contents: seq<byte>)

  /** A released block: where it was, whether it was secure, and what the
      memory held at the moment of release. */
  datatype Release = Release(addr: Addr, secure: bool, contents: seq<byte>)

  /** Heap blocks by address, placement blocks by stage address, the next
      unused address, and the release log. */
  datatype Heap = Heap(blocks: map<Addr, Block>, placed: map<Addr, Block>, next: Addr, released: seq<Release>)

  /** `bad_alloc` and `secure_bad_alloc`. */
  datatype AllocError = BadAlloc | SecureBadAlloc

  datatype Allocated = Allocated(heap: Heap, ptr: Addr)

  const Empty := Heap(map[], map[], 1, [])

  /** No block at null, every heap block below the next fresh address, and
      every secure release wiped. */
  ghost predicate Inv(h: Heap) {
    h.next > 0 && Null !in h.blocks && Null !in h.placed &&
    (forall a :: a in h.blocks ==> a < h.next) &&
    Wiped(h.released)
  }

  ghost predicate Wiped(log: seq<Release>) {
    forall i :: 0 <= i < |log| && log[i].secure ==> AllZero(log[i].contents)
  }

  /** Whether `p` is currently registered with the page-lock manager. */
  predicate IsSecure(h: Heap, p: Addr) {
    (p in h.blocks && h.blocks[p].secure) || (p in h.placed && h.placed[p].secure)
  }

  /** The release log only grows: earlier entries are never rewritten. */
  ghost predicate LogExtends(h: Heap, h': Heap) {
    |h.released| <= |h'.released| && h'.released[..|h.released|] == h.released
  }

  // ---------------------------------------------------------------------
  // Conventional memory

  /** `byteAlloc(n)`: a fresh non-null block of at least `n` bytes. The
      bytes it holds (`initial`) are whatever the memory held, and `ok`
      stands for whether `operator new` succeeded. */
  function ByteAlloc(h: Heap, n: nat, initial: seq<byte>, ok: bool): (r: Result<Allocated, AllocError>)
    requires Inv(h) && |initial| >= n
    ensures r.Success? <==> ok
    ensures r.Failure? ==> r.error == BadAlloc
    ensures r.Success? ==>
              Inv(r.value.heap) && r.value.ptr != Null && r.value.ptr !in h.blocks &&
              r.value.heap.blocks == h.blocks[r.value.ptr := Block(false, initial)] &&
              |r.value.heap.blocks[r.value.ptr].contents| >= n &&
              r.value.heap.placed == h.placed && r.value.heap.released == h.released
  {
    if !ok then Failure(BadAlloc)
    else Success(Allocated(h.(blocks := h.blocks[h.next := Block(false, initial)], next := h.next + 1), h.next))
  }

  /** `byteFree(ptr)`: null is accepted and does nothing; otherwise the
      block, which must come from `byteAlloc`, is released as it is. */
  function ByteFree(h: Heap, p: Addr): (h': Heap)
    requires Inv(h)
    requires p == Null || (p in h.blocks && !h.blocks[p].secure)
    ensures Inv(h') && LogExtends(h, h')
    ensures p == Null ==> h' == h
    ensures p != Null ==>
              h'.blocks == h.blocks - {p} && h'.placed == h.placed &&
              h'.released == h.released + [Release(p, false, h.blocks[p].contents)]
  {
    if p == Null then h
    else h.(blocks := h.blocks - {p}, released := h.released + [Release(p, false, h.blocks[p].contents)])
  }

  /** `byteAlloc(n, stage)`: a block laid over the caller's memory at
      `stage`; the pointer returned is the stage. */
  function ByteAllocAt(h: Heap, n: nat, stage: Addr, initial: seq<byte>): (r: Allocated)
    requires Inv(h) && stage != Null && |initial| >= n
    ensures Inv(r.heap) && r.ptr == stage
    ensures r.heap.placed == h.placed[stage := Block(false, initial)]
    ensures r.heap.blocks == h.blocks && r.heap.released == h.released
  {
    Allocated(h.(placed := h.placed[stage := Block(false, initial)]), stage)
  }

  /** `byteFree(ptr, stage)`: the placement release, null accepted. */
  function ByteFreeAt(h: Heap, p: Addr, stage: Addr): (h': Heap)
    requires Inv(h)
    requires p == Null || (p in h.placed && !h.placed[p].secure)
    ensures Inv(h') && LogExtends(h, h')
    ensures p == Null ==> h' == h
    ensures p != Null ==>
              h'.placed == h.placed - {p} && h'.blocks == h.blocks &&
              h'.released == h.released + [Release(p, false, h.placed[p].contents)]
  {
    if p == Null then h
    else h.(placed := h.placed - {p}, released := h.released + [Release(p, false, h.placed[p].contents)])
  }

  // ---------------------------------------------------------------------
  // Secure memory

  /** `secureByteAlloc(n)`: allocation as `byteAlloc`, then registration
      with the page-lock manager (`lockOk`); a failed allocation is
      `bad_alloc`, a failed lock `secure_bad_alloc`, and neither leaves a
      block behind. */
  function SecureByteAlloc(h: Heap, n: nat, initial: seq<byte>, ok: bool, lockOk: bool): (r: Result<Allocated, AllocError>)
    requires Inv(h) && |initial| >= n
    ensures r.Success? <==> ok && lockOk
    ensures !ok ==> r == Failure(BadAlloc)
    ensures ok && !lockOk ==> r == Failure(SecureBadAlloc)
    ensures r.Success? ==>
              Inv(r.value.heap) && r.value.ptr != Null && r.value.ptr !in h.blocks &&
              r.value.heap.blocks == h.blocks[r.value.ptr := Block(true, initial)] &&
              IsSecure(r.value.heap, r.value.ptr) &&
              r.value.heap.placed == h.placed && r.value.heap.released == h.released
  {
    if !ok then Failure(BadAlloc)
    else if !lockOk then Failure(SecureBadAlloc)
    else Success(Allocated(h.(blocks := h.blocks[h.next := Block(true, initial)], next := h.next + 1), h.next))
  }

  /** `secureByteAlloc(n, stage)`: a null stage is `bad_alloc`; otherwise
      the caller's memory is registered and returned. */
  function SecureByteAllocAt(h: Heap, n: nat, stage: Addr, initial: seq<byte>, lockOk: bool): (r: Result<Allocated, AllocError>)
    requires Inv(h) && |initial| >= n
    ensures stage == Null ==> r == Failure(BadAlloc)
    ensures stage != Null && !lockOk ==> r == Failure(SecureBadAlloc)
    ensures r.Success? <==> stage != Null && lockOk
    ensures r.Success? ==>
              Inv(r.value.heap) && r.value.ptr == stage && IsSecure(r.value.heap, stage) &&
              r.value.heap.placed == h.placed[stage := Block(true, initial)] &&
              r.value.heap.blocks == h.blocks && r.value.heap.released == h.released
  {
    if stage == Null then Failure(BadAlloc)
    else if !lockOk then Failure(SecureBadAlloc)
    else Success(Allocated(h.(placed := h.placed[stage := Block(true, initial)]), stage))
  }

  /** `secureByteFree(ptr)`: the block's contents are wiped, then it is
      unregistered and released. Null does nothing. */
  function SecureByteFree(h: Heap, p: Addr): (h': Heap)
    requires Inv(h)
    requires p == Null || (p in h.blocks && h.blocks[p].secure)
    ensures Inv(h') && LogExtends(h, h')
    ensures p == Null ==> h' == h
    ensures p != Null ==>
              h'.blocks == h.blocks - {p} && h'.placed == h.placed &&
              h'.released == h.released + [Release(p, true, Zeros(|h.blocks[p].contents|))]
  {
    if p == Null then h
    else h.(blocks := h.blocks - {p}, released := h.released + [Release(p, true, Zeros(|h.blocks[p].contents|))])
  }

  /** `secureByteFree(ptr, stage)`: the placement release, wiped first. */
  function SecureByteFreeAt(h: Heap, p: Addr, stage: Addr): (h': Heap)
    requires Inv(h)
    requires p == Null || (p in h.placed && h.placed[p].secure)
    ensures Inv(h') && LogExtends(h, h')
    ensures p == Null ==> h' == h
    ensures p != Null ==>
              h'.placed == h.placed - {p} && h'.blocks == h.blocks &&
              h'.released == h.released + [Release(p, true, Zeros(|h.placed[p].contents|))]
  {
    if p == Null then h
    else h.(placed := h.placed - {p}, released := h.released + [Release(p, true, Zeros(|h.placed[p].contents|))])
  }

  /** `convertToUnsecure(ptr)`: a secure heap block is unregistered and
      becomes an ordinary block, contents untouched. */
  function ConvertToUnsecure(h: Heap, p: Addr): (h': Heap)
    requires Inv(h)
    requires p == Null || (p in h.blocks && h.blocks[p].secure)
    ensures Inv(h') && h'.released == h.released && h'.placed == h.placed
    ensures p == Null ==> h' == h
    ensures p != Null ==>
              h'.blocks == h.blocks[p := Block(false, h.blocks[p].contents)] &&
              (p in h.placed || !IsSecure(h', p))
  {
    if p == Null then h
    else h.(blocks := h.blocks[p := Block(false, h.blocks[p].contents)])
  }

  // ---------------------------------------------------------------------
  // Properties

  lemma EmptyInv()
    ensures Inv(Empty) && forall p :: !IsSecure(Empty, p)
  {
  }

  /** A secure block, whatever it held, leaves nothing readable behind:
      allocating and freeing it restores the heap's blocks and logs a
      release of zeros only. */
  lemma SecureAllocThenFree(h: Heap, n: nat, initial: seq<byte>)
    requires Inv(h) && |initial| >= n
    ensures var r := SecureByteAlloc(h, n, initial, true, true);
            r.Success? &&
            var h' := SecureByteFree(r.value.heap, r.value.ptr);
            h'.blocks == h.blocks && h'.placed == h.placed &&
            h'.released == h.released + [Release(r.value.ptr, true, Zeros(|initial|))] &&
            AllZero(h'.released[|h.released|].contents)
  {
    var r := SecureByteAlloc(h, n, initial, true, true);
    assert r.value.ptr !in h.blocks;
    assert r.value.heap.blocks - {r.value.ptr} == h.blocks;
  }

  /** In contrast a plain block is released with its contents as they are. */
  lemma PlainFreeKeepsContents(h: Heap, n: nat, initial: seq<byte>)
    requires Inv(h) && |initial| >= n
    ensures var r := ByteAlloc(h, n, initial, true);
            r.Success? &&
            ByteFree(r.value.heap, r.value.ptr).released == h.released + [Release(r.value.ptr, false, initial)]
  {
  }

  /** After `convertToUnsecure`, the block may be released by the plain
      `byteFree`, and then its contents go out unwiped. */
  lemma ConvertThenPlainFree(h: Heap, p: Addr)
    requires Inv(h) && p != Null && p in h.blocks && h.blocks[p].secure
    ensures var h1 := ConvertToUnsecure(h, p);
            p in h1.blocks && !h1.blocks[p].secure &&
            ByteFree(h1, p).released == h.released + [Release(p, false, h.blocks[p].contents)]
  {
  }
}

=== FILE: status.dfy ===
/** Status messages: a 32-bit id plus a readable description. Identity is
    carried by the id alone; families of statuses are laid out as
    consecutive offsets from a base obtained by hashing a family name. */
module Status {
  import Fnv1aHash

  /** `uint32_t`, the type `StatusHash` yields. */
  type StatusType = x: int | 0 <= x < 0x1_0000_0000

  datatype Status = Status(id: StatusType, desc: string)

  /** `operator==`: ids are compared, descriptions are ignored. */
  predicate Eq(a: Status, b: Status) {
    a.id == b.id
  }

  /** `operator!=`. */
  predicate Neq(a: Status, b: Status) {
    a.id != b.id
  }

  const SUCCESS := Status(0, "Success")
  const FAILURE := Status(1, "Failure was detected at some point")

  /** `StatusHash`: the FNV-1a 32-bit hash of the family name. Family names
      are C string literals; a name with a character that no C `char` holds
      has no counterpart in the source and hashes to 0 here. */
  function StatusHash(name: string): (r: StatusType)
    ensures Fnv1aHash.CChars(name) ==> r == Fnv1aHash.Fnv1a32(name, Fnv1aHash.Offset32) as int
    ensures Fnv1aHash.Ascii(name) && Fnv1aHash.NoNul(name) ==> r == Fnv1aHash.Reference32(name, Fnv1aHash.Offset32) as int
  {
    if !Fnv1aHash.CChars(name) then 0
    else if Fnv1aHash.Ascii(name) && Fnv1aHash.NoNul(name) then
      Fnv1aHash.AsciiAgrees32(name, Fnv1aHash.Offset32);
      Fnv1aHash.Fnv1a32(name, Fnv1aHash.Offset32) as int
    else
      Fnv1aHash.Fnv1a32(name, Fnv1aHash.Offset32) as int
  }

  /** The status at offset `k` of a family: `base + k`, wrapping modulo 2^32. */
  function Member(base: StatusType, k: nat, desc: string): Status
  {
    Status((base + k) % 0x1_0000_0000, desc)
  }

  /** Two members of one family are equal exactly when their offsets are. */
  lemma MembersDistinct(base: StatusType, j: nat, k: nat, d1: string, d2: string)
    requires j < 16 && k < 16
    ensures Eq(Member(base, j, d1), Member(base, k, d2)) <==> j == k
  {
  }

  /** Equality is an equivalence relation that ignores descriptions. */
  lemma EqIsEquivalence(a: Status, b: Status, c: Status)
    ensures Eq(a, a)
    ensures Eq(a, b) ==> Eq(b, a)
    ensures Eq(a, b) && Eq(b, c) ==> Eq(a, c)
    ensures Eq(a, Status(a.id, b.desc))
  {
  }

  /** `!=` is exactly the negation of `==`. */
  lemma NeqIsNotEq(a: Status, b: Status)
    ensures Neq(a, b) <==> !Eq(a, b)
  {
  }

  /** The general statuses `SUCCESS` and `FAILURE` (ids 0 and 1) lie
      outside every family whose base is at least 2 and whose sixteen
      offsets stay below 2^32; a family that wraps past 2^32 reaches them. */
  lemma GeneralOutsideFamilies(base: StatusType, k: nat, d: string)
    requires k < 16
    ensures 2 <= base && base + 16 <= 0x1_0000_0000 ==>
              !Eq(Member(base, k, d), SUCCESS) && !Eq(Member(base, k, d), FAILURE)
    ensures Eq(Member(base, k, d), SUCCESS) <==> base + k == 0x1_0000_0000 || base + k == 0
    ensures Eq(Member(base, k, d), FAILURE) <==> base + k == 0x1_0000_0001 || base + k == 1
    ensures Neq(SUCCESS, FAILURE)
  {
  }
}

=== FILE: tarray.dfy ===
/** `TArray<T, Alloc>`: a contiguous array of trivially copyable elements
    kept in one block obtained from its allocator. An instance is its data
    pointer, the elements its allocator accounts for (the allocator's byte
    size divided by `sizeof(T)`), and whether the block was laid over
    caller memory (placement). Every operation that allocates is given the
    allocator's answer (`newPtr`): the non-null address of the new block,
    or `Null` when `byteAlloc` throws (`bad_alloc`, or `secure_bad_alloc`
    for an allocator that locks its blocks). The allocations within one
    operation share that answer: no operation compares their addresses. */
module TArray {
  import opened Wrappers
  import opened Bytes

  type Addr = nat

  const Null: Addr := 0

  datatype Buffer<T> = Buffer(ptr: Addr, contents: seq<T>, placement: bool)

  /** The exceptions an operation lets escape: the allocator's
      `getException`, raised when an instance's pointer and size disagree,
      and a `byteAlloc` that throws. */
  datatype Error = InconsistentArray | AllocFailed

  /** What an assignment leaves its target holding, and the exception it
      raised, if any. The assignments clear the target before allocating,
      so a failed allocation leaves it empty. */
  datatype Assigned<T> = Assigned(target: Buffer<T>, error: Option<Error>)

  /** The release an instance's `clear` performs on its block. */
  datatype FreeCall = PlainFree(ptr: Addr) | PlacementFree(ptr: Addr, stage: Addr)

  /** The default constructor: null pointer, no elements, not placement. */
  function Empty<T>(): Buffer<T> {
    Buffer(Null, [], false)
  }

  /** `size()`. */
  function Size<T>(a: Buffer<T>): nat {
    |a.contents|
  }

  /** A null pointer goes with no elements and a non-null one with some. */
  predicate Consistent<T>(a: Buffer<T>) {
    (a.ptr == Null) == (|a.contents| == 0)
  }

  /** `checkNumOfElements(other)`: the size, or the allocator's exception
      when the pointer is null but the size is not, or the other way round. */
  function CheckNumOfElements<T>(a: Buffer<T>): (r: Result<nat, Error>)
    ensures r.Success? <==> Consistent(a)
    ensures r.Success? ==> r.value == Size(a)
  {
    if (a.ptr == Null && |a.contents| != 0) || (a.ptr != Null && |a.contents| == 0) then Failure(InconsistentArray)
    else Success(|a.contents|)
  }

  /** The allocator's `byteAlloc`, as answered: the new block's address,
      or the exception it throws. */
  function ByteAlloc(newPtr: Addr): (r: Result<Addr, Error>)
    ensures r.Success? <==> newPtr != Null
    ensures r.Success? ==> r.value == newPtr
    ensures r.Failure? ==> r.error == AllocFailed
  {
    if newPtr == Null then Failure(AllocFailed) else Success(newPtr)
  }

  // ---------------------------------------------------------------------
  // Construction, assignment, release

  /** The copy constructor: an empty source yields an empty instance
      without allocating; otherwise a new block receives the source's
      elements. */
  function Copy<T>(other: Buffer<T>, newPtr: Addr): (r: Result<Buffer<T>, Error>)
    ensures !Consistent(other) ==> r == Failure(InconsistentArray)
    ensures Consistent(other) && Size(other) > 0 && newPtr == Null ==> r == Failure(AllocFailed)
    ensures r.Success? <==> Consistent(other) && (Size(other) == 0 || newPtr != Null)
    ensures r.Success? ==> Consistent(r.value) && r.value.contents == other.contents && !r.value.placement
    ensures r.Success? && Size(other) > 0 ==> r.value.ptr == newPtr
  {
    var size :- CheckNumOfElements(other);
    if size == 0 then Success(Empty())
    else
      var p :- ByteAlloc(newPtr);
      Success(Buffer(p, other.contents, false))
  }

  /** Copy assignment: assigning an instance with the same pointer does
      nothing; otherwise the source is checked, the target cleared and the
      source's elements copied into a new block. A failed check leaves
      the target untouched; a failed allocation leaves it cleared. */
  function CopyAssign<T>(a: Buffer<T>, other: Buffer<T>, newPtr: Addr): (r: Assigned<T>)
    ensures a.ptr == other.ptr ==> r == Assigned(a, None)
    ensures a.ptr != other.ptr && !Consistent(other) ==> r == Assigned(a, Some(InconsistentArray))
    ensures a.ptr != other.ptr && Consistent(other) && Size(other) > 0 && newPtr == Null ==>
              r == Assigned(Empty(), Some(AllocFailed))
    ensures a.ptr != other.ptr ==> (r.error.None? <==> Consistent(other) && (Size(other) == 0 || newPtr != Null))
    ensures a.ptr != other.ptr && r.error.None? ==>
              Consistent(r.target) && r.target.contents == other.contents && !r.target.placement
  {
    if a.ptr == other.ptr then Assigned(a, None)
    else
      match CheckNumOfElements(other)
      case Failure(e) => Assigned(a, Some(e))
      case Success(size) =>
        var cleared := Clear(a).0;
        if size == 0 then Assigned(cleared, None)
        else
          match ByteAlloc(newPtr)
          case Failure(e) => Assigned(cleared, Some(e))
          case Success(p) => Assigned(Buffer(p, other.contents, false), None)
  }

  /** The move constructor: the new instance takes over the source's
      pointer, elements and placement flag. The source is left with a null
      pointer and, its allocator having been moved from, no elements; its
      placement flag is not reset. The pair is (new, source after). */
  function Move<T>(other: Buffer<T>): (r: Result<(Buffer<T>, Buffer<T>), Error>)
    ensures r.Success? <==> Consistent(other)
    ensures r.Success? ==> r.value.0 == other
    ensures r.Success? ==> r.value.1.ptr == Null && Size(r.value.1) == 0 && r.value.1.placement == other.placement
  {
    var _ :- CheckNumOfElements(other);
    Success((Buffer(other.ptr, other.contents, other.placement), Buffer(Null, [], other.placement)))
  }

  /** Move assignment: a no-op for the same pointer; otherwise the source is
      checked, the target cleared, and the source's block taken over. The
      pair is (target after, source after). */
  function MoveAssign<T>(a: Buffer<T>, other: Buffer<T>): (r: Result<(Buffer<T>, Buffer<T>), Error>)
    ensures a.ptr == other.ptr ==> r == Success((a, other))
    ensures a.ptr != other.ptr ==> (r.Success? <==> Consistent(other))
    ensures a.ptr != other.ptr && r.Success? ==>
              r.value.0 == other && r.value.1.ptr == Null && Size(r.value.1) == 0
  {
    if a.ptr == other.ptr then Success((a, other))
    else
      var _ :- CheckNumOfElements(other);
      var _ := Clear(a);
      Success((Buffer(other.ptr, other.contents, other.placement), Buffer(Null, [], other.placement)))
  }

  /** `TArray(size)`: a new block of `size` elements, which hold whatever
      the memory held (`initial`). The allocator returns a non-null pointer
      even for zero elements, so a zero-sized instance fails the
      consistency check. */
  function Sized<T>(size: nat, newPtr: Addr, initial: seq<T>): (r: Result<Buffer<T>, Error>)
    requires |initial| == size
    ensures r.Success? <==> newPtr != Null
    ensures r.Failure? ==> r.error == AllocFailed
    ensures r.Success? ==> Size(r.value) == size && r.value.ptr == newPtr && !r.value.placement
    ensures r.Success? ==> (Consistent(r.value) <==> size > 0)
  {
    var p :- ByteAlloc(newPtr);
    Success(Buffer(p, initial, false))
  }

  /** The placement constructor: the block is laid over the caller's memory
      at `stage`, whose current elements it keeps. `granted` is whether the
      allocator's placement `byteAlloc` returns rather than throws. */
  function Placed<T>(size: nat, stage: Addr, initial: seq<T>, granted: bool): (r: Result<Buffer<T>, Error>)
    requires stage != Null && |initial| == size
    ensures r.Success? <==> granted
    ensures r.Failure? ==> r.error == AllocFailed
    ensures r.Success? ==> r.value.placement && r.value.ptr == stage && Size(r.value) == size
    ensures r.Success? ==> (Consistent(r.value) <==> size > 0)
  {
    if granted then Success(Buffer(stage, initial, true)) else Failure(AllocFailed)
  }

  /** The range constructor and the private `insert(begin, end)`: a new
      block holding the range. Like `TArray(size)`, an empty range leaves
      a non-null pointer with no elements. */
  function FromRange<T>(items: seq<T>, newPtr: Addr): (r: Result<Buffer<T>, Error>)
    ensures r.Success? <==> newPtr != Null
    ensures r.Failure? ==> r.error == AllocFailed
    ensures r.Success? ==> r.value.contents == items && r.value.ptr == newPtr && !r.value.placement
    ensures r.Success? ==> (Consistent(r.value) <==> |items| > 0)
  {
    var p :- ByteAlloc(newPtr);
    Success(Buffer(p, items, false))
  }

  /** `clear()`: the block is released through the free that matches how it
      was obtained, and the instance becomes empty. */
  function Clear<T>(a: Buffer<T>): (r: (Buffer<T>, FreeCall))
    ensures r.0.ptr == Null && Size(r.0) == 0 && !r.0.placement && Consistent(r.0)
    ensures r.1.ptr == a.ptr && (r.1.PlacementFree? <==> a.placement)
    ensures r.1.PlacementFree? ==> r.1.stage == a.ptr
  {
    (Empty(), if a.placement then PlacementFree(a.ptr, a.ptr) else PlainFree(a.ptr))
  }

  /** `assign(begin, end)`: clear, then hold the range in a new block; a
      failed allocation leaves the target cleared. */
  function Assign<T>(a: Buffer<T>, items: seq<T>, newPtr: Addr): (r: Assigned<T>)
    ensures newPtr == Null ==> r == Assigned(Empty(), Some(AllocFailed))
    ensures r.error.None? <==> newPtr != Null
    ensures r.error.None? ==> r.target.contents == items && r.target.ptr == newPtr && !r.target.placement
    ensures r.error.None? ==> (Consistent(r.target) <==> |items| > 0)
  {
    var cleared := Clear(a).0;
    match FromRange(items, newPtr)
    case Failure(e) => Assigned(cleared, Some(e))
    case Success(b) => Assigned(b, None)
  }

  /** `swap(other)`: instances with the same pointer are left alone;
      otherwise pointer, placement flag and allocator (hence elements) are
      exchanged. */
  function Swap<T>(a: Buffer<T>, b: Buffer<T>): (r: (Buffer<T>, Buffer<T>))
    ensures a.ptr == b.ptr ==> r == (a, b)
    ensures a.ptr != b.ptr ==> r.0.contents == b.contents && r.1.contents == a.contents &&
                               r.0.ptr == b.ptr && r.1.ptr == a.ptr &&
                               r.0.placement == b.placement && r.1.placement == a.placement
  {
    if a.ptr == b.ptr then (a, b) else (b, a)
  }

  /** Swapping twice restores both instances. */
  lemma SwapTwice<T>(a: Buffer<T>, b: Buffer<T>)
    ensures var (x, y) := Swap(a, b); Swap(x, y) == (a, b)
  {
  }

  // ---------------------------------------------------------------------
  // Concatenation

  /** `operator+=`: the other instance is checked; if it is empty nothing
      changes, otherwise both sequences of elements are copied into a new
      block, which becomes this instance's, no longer placement. The target
      itself is not checked, and it is cleared only after the allocation
      has succeeded. */
  function Append<T>(a: Buffer<T>, other: Buffer<T>, newPtr: Addr): (r: Result<Buffer<T>, Error>)
    ensures !Consistent(other) ==> r == Failure(InconsistentArray)
    ensures Consistent(other) && Size(other) > 0 && newPtr == Null ==> r == Failure(AllocFailed)
    ensures r.Success? <==> Consistent(other) && (Size(other) == 0 || newPtr != Null)
    ensures r.Success? && Size(other) == 0 ==> r.value == a
    ensures r.Success? && Size(other) > 0 ==>
              r.value.contents == a.contents + other.contents && r.value.ptr == newPtr &&
              !r.value.placement && Consistent(r.value)
  {
    var otherSize :- CheckNumOfElements(other);
    if otherSize == 0 then Success(a)
    else
      var p :- ByteAlloc(newPtr);
      var _ := Clear(a);
      Success(Buffer(p, a.contents + other.contents, false))
  }

  /** `operator+`: a new instance of the combined size holding both
      sequences of elements; neither operand is checked, but the result is
      returned through the move constructor, which checks it, so two empty
      operands give a non-null block of size 0 that fails the check. */
  function Concat<T>(lhs: Buffer<T>, rhs: Buffer<T>, newPtr: Addr): (r: Result<Buffer<T>, Error>)
    ensures newPtr == Null ==> r == Failure(AllocFailed)
    ensures newPtr != Null && Size(lhs) + Size(rhs) == 0 ==> r == Failure(InconsistentArray)
    ensures r.Success? <==> newPtr != Null && Size(lhs) + Size(rhs) > 0
    ensures r.Success? ==> r.value.contents == lhs.contents + rhs.contents && r.value.ptr == newPtr &&
                           !r.value.placement && Consistent(r.value)
  {
    var tmp :- Sized(|lhs.contents| + |rhs.contents|, newPtr, lhs.contents + rhs.contents);
    var moved :- Move(tmp);
    Success(moved.0)
  }

  /** `+=` with a non-empty consistent operand agrees with `+`, failing
      with it when the allocation fails. */
  lemma AppendIsConcat<T>(a: Buffer<T>, other: Buffer<T>, newPtr: Addr)
    requires Consistent(other) && Size(other) > 0
    ensures Concat(a, other, newPtr).Success? <==> newPtr != Null
    ensures Append(a, other, newPtr) == Concat(a, other, newPtr)
  {
  }

  // ---------------------------------------------------------------------
  // Split and insert

  function Flatten<T>(ss: seq<seq<T>>): seq<T> {
    if |ss| == 0 then [] else ss[0] + Flatten(ss[1..])
  }

  ghost predicate Increasing(cuts: seq<nat>) {
    forall j, k :: 0 <= j < k < |cuts| ==> cuts[j] < cuts[k]
  }

  /** The members of `limits` in `[i, n]`, in increasing order: the walk
      over the ordered set of limits. */
  function CutsFrom(limits: set<nat>, i: nat, n: nat): seq<nat>
    decreases n + 1 - i
  {
    if i > n then []
    else if i in limits then [i] + CutsFrom(limits, i + 1, n)
    else CutsFrom(limits, i + 1, n)
  }

  /** The walk holds exactly the limits in `[i, n]`, in increasing order. */
  lemma {:induction false} CutsFromFacts(limits: set<nat>, i: nat, n: nat)
    ensures var r := CutsFrom(limits, i, n);
            (forall k :: 0 <= k < |r| ==> i <= r[k] <= n && r[k] in limits) &&
            (forall x :: i <= x <= n && x in limits ==> x in r) &&
            Increasing(r)
    decreases n + 1 - i
  {
    if i <= n {
      CutsFromFacts(limits, i + 1, n);
      var t := CutsFrom(limits, i + 1, n);
      if i in limits {
        var r := [i] + t;
        assert forall k :: 1 <= k < |r| ==> r[k] == t[k - 1];
        assert forall x :: i < x <= n && x in limits ==> x in t;
      }
    }
  }

  /** Stepping over positions that are not limits does not change the walk. */
  lemma {:induction false} CutsSkip(limits: set<nat>, i: nat, j: nat, n: nat)
    requires i <= j <= n + 1
    requires forall x :: i <= x < j ==> x !in limits
    ensures CutsFrom(limits, i, n) == CutsFrom(limits, j, n)
    decreases j - i
  {
    if i < j {
      CutsSkip(limits, i + 1, j, n);
    }
  }

  /** The pieces between consecutive cuts. */
  function Pieces<T>(s: seq<T>, cuts: seq<nat>): (r: seq<seq<T>>)
    requires forall k :: 0 <= k < |cuts| ==> cuts[k] <= |s|
    requires Increasing(cuts)
    ensures |r| == if |cuts| == 0 then 0 else |cuts| - 1
    ensures forall k :: 0 <= k < |r| ==> |r[k]| > 0
  {
    if |cuts| == 0 then []
    else seq(|cuts| - 1, k requires 0 <= k < |cuts| - 1 => s[cuts[k]..cuts[k + 1]])
  }

  /** The pieces rejoin to the span from the first cut to the last. */
  lemma {:induction false} FlattenPieces<T>(s: seq<T>, cuts: seq<nat>)
    requires forall k :: 0 <= k < |cuts| ==> cuts[k] <= |s|
    requires Increasing(cuts) && |cuts| >= 1
    ensures Flatten(Pieces(s, cuts)) == s[cuts[0]..cuts[|cuts| - 1]]
    decreases |cuts|
  {
    if |cuts| >= 2 {
      var tail := cuts[1..];
      var first, rest := s[cuts[0]..cuts[1]], Pieces(s, tail);
      FlattenPieces(s, tail);
      PiecesTail(s, cuts);
      FlattenCons(first, rest);
      SliceJoin(s, cuts[0], cuts[1], cuts[|cuts| - 1]);
    }
  }

  /** The first piece, then the pieces of the remaining cuts. */
  lemma PiecesTail<T>(s: seq<T>, cuts: seq<nat>)
    requires forall k :: 0 <= k < |cuts| ==> cuts[k] <= |s|
    requires Increasing(cuts) && |cuts| >= 2
    ensures Pieces(s, cuts) == [s[cuts[0]..cuts[1]]] + Pieces(s, cuts[1..])
  {
  }

  lemma FlattenCons<T>(x: seq<T>, rest: seq<seq<T>>)
    ensures Flatten([x] + rest) == x + Flatten(rest)
  {
    assert ([x] + rest)[1..] == rest;
  }

  lemma SliceJoin<T>(s: seq<T>, a: nat, b: nat, c: nat)
    requires a <= b <= c <= |s|
    ensures s[a..b] + s[b..c] == s[a..c]
  {
  }

  function Contents<T>(bs: seq<Buffer<T>>): (r: seq<seq<T>>)
    ensures |r| == |bs| && forall k :: 0 <= k < |bs| ==> r[k] == bs[k].contents
  {
    seq(|bs|, k requires 0 <= k < |bs| => bs[k].contents)
  }

  /** Whether `split` keeps the array whole: no limit lies below the size
      (which covers an empty list of limits and an empty array). */
  predicate Whole<T>(a: Buffer<T>, offsets: seq<nat>) {
    forall o :: o in offsets ==> o >= |a.contents|
  }

  /** The cut points of a split that does cut: the limits, zero and the
      size, those beyond the size dropped. */
  function SplitCuts<T>(a: Buffer<T>, offsets: seq<nat>): (r: seq<nat>)
    ensures Increasing(r)
    ensures forall k :: 0 <= k < |r| ==> r[k] <= |a.contents|
    ensures forall x :: x in r <==> x <= |a.contents| && (x == 0 || x == |a.contents| || x in offsets)
    ensures |r| >= 1 && r[0] == 0 && r[|r| - 1] == |a.contents|
  {
    var n := |a.contents|;
    var limits := (set o | o in offsets) + {0, n};
    var r := CutsFrom(limits, 0, n);
    CutsFromFacts(limits, 0, n);
    assert 0 in r && n in r;
    r
  }

  /** `split(begin, end)`: when it keeps the array whole, the result is one
      copy of it (which checks it); otherwise one new instance per piece
      between consecutive cut points, every piece non-empty and so every
      one allocated. Either way the pieces rejoin to the original
      elements. */
  function Split<T>(a: Buffer<T>, offsets: seq<nat>, newPtr: Addr): (r: Result<seq<Buffer<T>>, Error>)
    ensures Whole(a, offsets) ==> (r.Success? <==> Consistent(a) && (Size(a) == 0 || newPtr != Null))
    ensures Whole(a, offsets) && r.Success? ==> |r.value| == 1
    ensures !Whole(a, offsets) ==> (r.Success? <==> newPtr != Null)
    ensures r.Failure? ==> (r.error == InconsistentArray <==> Whole(a, offsets) && !Consistent(a))
    ensures !Whole(a, offsets) && r.Success? ==> |r.value| == |SplitCuts(a, offsets)| - 1
    ensures !Whole(a, offsets) && r.Success? ==>
              forall k :: 0 <= k < |r.value| ==> Size(r.value[k]) > 0 && r.value[k].ptr == newPtr && !r.value[k].placement
    ensures !Whole(a, offsets) && r.Success? ==> Contents(r.value) == Pieces(a.contents, SplitCuts(a, offsets))
    ensures r.Success? ==> Flatten(Contents(r.value)) == a.contents
  {
    if Whole(a, offsets) then
      var copy :- Copy(a, newPtr);
      FlattenCons(copy.contents, []);
      assert Contents([copy]) == [copy.contents];
      Success([copy])
    else
      var cuts := SplitCuts(a, offsets);
      var p :- ByteAlloc(newPtr);
      FlattenPieces(a.contents, cuts);
      Success(Instances(Pieces(a.contents, cuts), p))
  }

  /** One new instance per piece, each built from it by the size constructor. */
  function Instances<T>(pieces: seq<seq<T>>, newPtr: Addr): (r: seq<Buffer<T>>)
    requires newPtr != Null
    ensures Contents(r) == pieces
    ensures forall k :: 0 <= k < |r| ==> r[k].ptr == newPtr && !r[k].placement
  {
    var r := seq(|pieces|, k requires 0 <= k < |pieces| => Sized(|pieces[k]|, newPtr, pieces[k]).value);
    assert Contents(r) == pieces;
    r
  }

  /** A split at one position strictly inside the array gives the part
      before it and the part from it on. */
  lemma SplitAtOne<T>(a: Buffer<T>, after: nat, newPtr: Addr)
    requires newPtr != Null && 0 < after < Size(a)
    ensures Split(a, [after], newPtr).Success?
    ensures Contents(Split(a, [after], newPtr).value) == [a.contents[..after], a.contents[after..]]
  {
    assert after in [after];
    assert !Whole(a, [after]);
    CutsOfOne(a, after);
    PiecesOfTwo(a.contents, after);
  }

  /** One limit strictly inside the array gives the cuts zero, it, and the size. */
  lemma CutsOfOne<T>(a: Buffer<T>, after: nat)
    requires 0 < after < Size(a)
    ensures SplitCuts(a, [after]) == [0, after, |a.contents|]
  {
    var n := |a.contents|;
    LimitsOfOne(after, n);
    assert (set o | o in [after]) + {0, n} == {0, after, n};
    CutsOfThree(after, n);
  }

  lemma CutsOfThree(after: nat, n: nat)
    requires 0 < after < n
    ensures CutsFrom({0, after, n}, 0, n) == [0, after, n]
  {
    var limits: set<nat> := {0, after, n};
    CutsLast(limits, n);
    CutsStep(limits, after, n, n, [n]);
    CutsStep(limits, 0, after, n, [after, n]);
  }

  /** The walk from the size, when the size is a limit, is just the size. */
  lemma CutsLast(limits: set<nat>, n: nat)
    requires n in limits
    ensures CutsFrom(limits, n, n) == [n]
  {
    assert CutsFrom(limits, n + 1, n) == [];
  }

  /** A limit followed by a gap without limits up to the next walk. */
  lemma CutsStep(limits: set<nat>, i: nat, j: nat, n: nat, rest: seq<nat>)
    requires i < j <= n + 1 && i in limits
    requires forall x :: i < x < j ==> x !in limits
    requires CutsFrom(limits, j, n) == rest
    ensures CutsFrom(limits, i, n) == [i] + rest
  {
    CutsSkip(limits, i + 1, j, n);
    CutsCons(limits, i, n);
  }

  lemma LimitsOfOne(after: nat, n: nat)
    ensures (set o | o in [after]) + {0, n} == {0, after, n}
  {
  }

  /** A limit at the current position is the next cut. */
  lemma CutsCons(limits: set<nat>, i: nat, n: nat)
    requires i <= n && i in limits
    ensures CutsFrom(limits, i, n) == [i] + CutsFrom(limits, i + 1, n)
  {
  }

  lemma IncreasingThree(x: nat, y: nat, z: nat)
    requires x < y < z
    ensures Increasing([x, y, z])
  {
  }

  lemma PiecesOfTwo<T>(s: seq<T>, after: nat)
    requires 0 < after < |s|
    ensures Pieces(s, [0, after, |s|]) == [s[..after], s[after..]]
  {
    IncreasingThree(0, after, |s|);
    var r := Pieces(s, [0, after, |s|]);
    assert |r| == 2 && r[0] == s[0..after] && r[1] == s[after..|s|];
    assert s[0..after] == s[..after] && s[after..|s|] == s[after..];
  }

  lemma PiecesOfOne<T>(s: seq<T>)
    requires |s| > 0
    ensures Pieces(s, [0, |s|]) == [s]
  {
    var r := Pieces(s, [0, |s|]);
    assert |r| == 1 && r[0] == s[0..|s|];
    assert s[0..|s|] == s;
  }

  /** A split at zero of a non-empty array keeps one piece, built anew
      rather than copied, so the array is not checked. */
  lemma SplitAtZero<T>(a: Buffer<T>, newPtr: Addr)
    requires newPtr != Null && Size(a) > 0
    ensures Split(a, [0], newPtr).Success?
    ensures Contents(Split(a, [0], newPtr).value) == [a.contents]
  {
    var n := |a.contents|;
    var limits := (set o | o in [0]) + {0, n};
    CutsSkip(limits, 1, n, n);
    assert SplitCuts(a, [0]) == [0, n];
    PiecesOfOne(a.contents);
  }

  /** `insert(begin, end, after)`: split at `after`; with one piece append
      the range to it, with two append the range followed by the second
      piece to the first; then take the result over by `swap`. */
  function Insert<T>(a: Buffer<T>, items: seq<T>, after: nat, newPtr: Addr): (r: Result<Buffer<T>, Error>)
    requires newPtr == Null || newPtr != a.ptr
    ensures newPtr == Null ==> r.Failure?
    ensures newPtr == Null && Consistent(a) ==> r == Failure(AllocFailed)
    ensures r.Success? ==> r.value.ptr == newPtr && !r.value.placement
  {
    var pieces :- Split(a, [after], newPtr);
    var inserted :- FromRange(items, newPtr);
    var joined :- if |pieces| == 1 then Append(pieces[0], inserted, newPtr)
                  else match Concat(inserted, pieces[1], newPtr)
                       case Failure(e) => Failure(e)
                       case Success(tail) => Append(pieces[0], tail, newPtr);
    Success(Swap(a, joined).0)
  }

  /** Inserting strictly inside the array places the range between the
      part before `after` and the rest, and always succeeds. */
  lemma InsertInside<T>(a: Buffer<T>, items: seq<T>, after: nat, newPtr: Addr)
    requires newPtr != Null && newPtr != a.ptr && 0 < after < Size(a)
    ensures Insert(a, items, after, newPtr) ==
            Success(Buffer(newPtr, a.contents[..after] + items + a.contents[after..], false))
  {
    SplitAtOne(a, after, newPtr);
    var pieces := Split(a, [after], newPtr).value;
    assert pieces[0].contents + (items + pieces[1].contents) == a.contents[..after] + items + a.contents[after..];
  }

  /** Inserting at zero into a non-empty array, or at or past its end,
      appends the range, because the split leaves one piece. An empty range
      then fails the check on the temporary instance built from it; at or
      past the end the array itself must also pass the copy's check. */
  lemma InsertAppends<T>(a: Buffer<T>, items: seq<T>, after: nat, newPtr: Addr)
    requires newPtr != Null && newPtr != a.ptr && (after == 0 || after >= Size(a))
    ensures after == 0 && Size(a) > 0 ==> (Insert(a, items, after, newPtr).Success? <==> |items| > 0)
    ensures after >= Size(a) ==> (Insert(a, items, after, newPtr).Success? <==> Consistent(a) && |items| > 0)
    ensures Insert(a, items, after, newPtr).Success? ==>
              Insert(a, items, after, newPtr).value == Buffer(newPtr, a.contents + items, false)
  {
    if after == 0 && Size(a) > 0 {
      SplitAtZero(a, newPtr);
    } else {
      assert Whole(a, [after]);
      var s := Split(a, [after], newPtr);
      if s.Success? {
        assert Flatten(Contents(s.value)) == s.value[0].contents + Flatten([]);
      }
    }
  }

  // ---------------------------------------------------------------------
  // Comparison

  /** The bytes a sequence of elements occupies in memory, each element
      laid out as `enc` of it, `w` bytes wide. */
  function Image<T(!new)>(s: seq<T>, enc: T -> seq<byte>, w: nat): (r: seq<byte>)
    requires forall x :: |enc(x)| == w
    ensures |r| == |s| * w
  {
    if |s| == 0 then [] else enc(s[0]) + Image(s[1..], enc, w)
  }

  /** A layout that tells elements apart. */
  ghost predicate Injective<T(!new)>(enc: T -> seq<byte>) {
    forall x, y :: enc(x) == enc(y) ==> x == y
  }

  /** `operator==` as written: equal sizes, then `memcmp` over `size()`
      bytes, which for elements wider than a byte is only a prefix of the
      memory the elements occupy. */
  function EqualAsWritten<T(!new)>(a: Buffer<T>, b: Buffer<T>, enc: T -> seq<byte>, w: nat): bool
    requires w >= 1 && forall x :: |enc(x)| == w
  {
    var n := |a.contents|;
    n == |b.contents| && (MulAtLeast(n, w); Image(a.contents, enc, w)[..n] == Image(b.contents, enc, w)[..n])
  }

  lemma MulAtLeast(n: nat, w: nat)
    requires w >= 1
    ensures n <= n * w
  {
    if n > 0 {
      MulSign(n, w);
    }
  }

  /** For one-byte elements the comparison as written is exact. */
  lemma EqualAsWrittenForBytes<T(!new)>(a: Buffer<T>, b: Buffer<T>, enc: T -> seq<byte>)
    requires (forall x :: |enc(x)| == 1) && Injective(enc)
    ensures EqualAsWritten(a, b, enc, 1) <==> a.contents == b.contents
  {
    if |a.contents| == |b.contents| {
      var n := |a.contents|;
      assert Image(a.contents, enc, 1)[..n] == Image(a.contents, enc, 1);
      assert Image(b.contents, enc, 1)[..n] == Image(b.contents, enc, 1);
      if Image(a.contents, enc, 1) == Image(b.contents, enc, 1) {
        ImageInjective(a.contents, b.contents, enc, 1);
      }
    }
  }

  /** Two-byte elements, stored least significant byte first. */
  type U16 = x: nat | x < 0x1_0000

  function LittleEndian16(x: U16): seq<byte> {
    [x % 256, x / 256]
  }

  /** The comparison as written declares `{0x0100}` and `{0x0200}` equal:
      their first bytes are both zero and only one byte is compared. */
  lemma EqualAsWrittenMissesDifference()
    ensures var a := Buffer(1, [0x0100 as U16], false);
            var b := Buffer(2, [0x0200 as U16], false);
            EqualAsWritten(a, b, LittleEndian16, 2) && a.contents != b.contents
  {
    var a := Buffer(1, [0x0100 as U16], false);
    var b := Buffer(2, [0x0200 as U16], false);
    assert Image(a.contents, LittleEndian16, 2) == [0, 1];
    assert Image(b.contents, LittleEndian16, 2) == [0, 2];
    assert a.contents[0] != b.contents[0];
  }

  /** `operator==` as intended: equal sizes and equal memory over all
      `size() * sizeof(T)` bytes. */
  function Equal<T(!new)>(a: Buffer<T>, b: Buffer<T>, enc: T -> seq<byte>, w: nat): bool
    requires forall x :: |enc(x)| == w
  {
    |a.contents| == |b.contents| && Image(a.contents, enc, w) == Image(b.contents, enc, w)
  }

  lemma {:induction false} ImageInjective<T(!new)>(s: seq<T>, t: seq<T>, enc: T -> seq<byte>, w: nat)
    requires (forall x :: |enc(x)| == w) && Injective(enc)
    requires |s| == |t| && Image(s, enc, w) == Image(t, enc, w)
    ensures s == t
  {
    if |s| > 0 {
      var ims, imt := Image(s, enc, w), Image(t, enc, w);
      assert ims[..w] == enc(s[0]) && imt[..w] == enc(t[0]);
      assert ims[w..] == Image(s[1..], enc, w) && imt[w..] == Image(t[1..], enc, w);
      ImageInjective(s[1..], t[1..], enc, w);
      assert s == [s[0]] + s[1..] && t == [t[0]] + t[1..];
    }
  }

  /** The corrected comparison holds exactly when the elements are equal. */
  lemma EqualIsElementEquality<T(!new)>(a: Buffer<T>, b: Buffer<T>, enc: T -> seq<byte>, w: nat)
    requires (forall x :: |enc(x)| == w) && Injective(enc)
    ensures Equal(a, b, enc, w) <==> a.contents == b.contents
  {
    if Equal(a, b, enc, w) {
      ImageInjective(a.contents, b.contents, enc, w);
    }
  }

  /** `operator!=` as written: the negation of the `==` as written, so it
      inherits that defect. It never reports a difference that is not there. */
  function NotEqualAsWritten<T(!new)>(a: Buffer<T>, b: Buffer<T>, enc: T -> seq<byte>, w: nat): (r: bool)
    requires w >= 1 && forall x :: |enc(x)| == w
    ensures r ==> a.contents != b.contents
  {
    !EqualAsWritten(a, b, enc, w)
  }

  /** The `!=` as written declares `{0x0100}` and `{0x0200}` not different. */
  lemma NotEqualAsWrittenMissesDifference()
    ensures var a := Buffer(1, [0x0100 as U16], false);
            var b := Buffer(2, [0x0200 as U16], false);
            !NotEqualAsWritten(a, b, LittleEndian16, 2) && a.contents != b.contents
  {
    EqualAsWrittenMissesDifference();
  }

  /** `operator!=` as intended: the negation of the corrected `==`, so it
      holds exactly when the elements differ. */
  function NotEqual<T(!new)>(a: Buffer<T>, b: Buffer<T>, enc: T -> seq<byte>, w: nat): (r: bool)
    requires forall x :: |enc(x)| == w
    ensures Injective(enc) ==> (r <==> a.contents != b.contents)
  {
    EqualIsElementEqualityIf(a, b, enc, w);
    !Equal(a, b, enc, w)
  }

  lemma EqualIsElementEqualityIf<T(!new)>(a: Buffer<T>, b: Buffer<T>, enc: T -> seq<byte>, w: nat)
    requires forall x :: |enc(x)| == w
    ensures Injective(enc) ==> (Equal(a, b, enc, w) <==> a.contents == b.contents)
  {
    if Injective(enc) {
      EqualIsElementEquality(a, b, enc, w);
    }
  }
}

=== FILE: thread_safe_hash.dfy ===
/** The bucketed hash map with hit counters behind the page-lock registry.
    Each key lives in bucket `hash(key) % numBuckets`; the table keeps a
    count of unique keys and a count of total hits. In general mode values
    are arbitrary and the operations are append/update/remove; in hits-counter
    mode the value is the key's hit count and the operations are
    append-or-increment and remove-or-decrement. A user action guards every
    insertion and removal. Each bucket operation runs under the bucket's lock,
    so it is modelled as one atomic step. */
module ThreadSafeHash {
  import opened Wrappers
  import Status

  /** The default number of buckets. */
  const PrimeNumber: nat := 191

  /** What the operation returned, by name; `Failed` is the general
      `FAILURE` status. */
  datatype HashStatus = Append | Increment | Remove | Decrement | Update | NotFound | Failed

  /** The guard the caller passes: it answers true, answers false, or throws. */
  datatype ActionOutcome = Succeeded | Declined | Threw

  /** The buckets, the unique-hits counter and the total-hits counter. */
  datatype Table<K, V> = Table(buckets: seq<map<K, V>>, unique: nat, total: nat)

  datatype Outcome<K, V> = Outcome(table: Table<K, V>, status: HashStatus)

  /** `mcStatusBase`: the family base, `StatusHash("HitsCounter")`. */
  function StatusBase(): Status.StatusType {
    Status.StatusHash("HitsCounter")
  }

  /** The description each family status carries. */
  function Description(s: HashStatus): string {
    match s
    case Append => "New Item was appeneded"
    case Increment => "Item exists. Counter incremented"
    case Remove => "Counter is empty. Item was removed"
    case Decrement => "Item exists. Counter decremented"
    case Update => "Item value was updated. Counter not changed"
    case NotFound => "Item not found"
    case Failed => ""
  }

  /** The `utils::Status` each result stands for: offsets 0..5 from the
      family base, or the shared `FAILURE`. */
  function ToStatus(s: HashStatus): Status.Status {
    if s == Failed then Status.FAILURE else Status.Member(StatusBase(), Offset(s), Description(s))
  }

  function Offset(s: HashStatus): nat {
    match s
    case Append => 0
    case Increment => 1
    case Remove => 2
    case Decrement => 3
    case Update => 4
    case NotFound => 5
    case Failed => 6
  }

  /** The six family statuses are pairwise distinct. */
  lemma FamilyDistinct(a: HashStatus, b: HashStatus)
    requires a != Failed && b != Failed
    ensures Status.Eq(ToStatus(a), ToStatus(b)) <==> a == b
  {
    OffsetInjective(a, b);
    Status.MembersDistinct(StatusBase(), Offset(a), Offset(b), Description(a), Description(b));
  }

  lemma OffsetInjective(a: HashStatus, b: HashStatus)
    ensures Offset(a) < 7 && (Offset(a) == Offset(b) ==> a == b)
  {
  }

  /** `getBucket`: the index of the bucket a key belongs to. */
  function BucketIndex<K(!new)>(hash: K -> nat, n: nat, key: K): (i: nat)
    requires n > 0
    ensures i < n
  {
    hash(key) % n
  }

  /** Every key sits in the bucket its hash selects. */
  ghost predicate Placed<K(!new), V>(t: Table<K, V>, hash: K -> nat) {
    |t.buckets| > 0 &&
    forall i, k :: 0 <= i < |t.buckets| && k in t.buckets[i] ==> BucketIndex(hash, |t.buckets|, k) == i
  }

  /** `getMap`: the union of all buckets. Entries of earlier buckets are
      inserted first and `std::map::insert` keeps an existing key, so on a
      clash the earlier bucket wins. */
  function Union<K(!new), V>(bs: seq<map<K, V>>): map<K, V>
  {
    if |bs| == 0 then map[] else bs[|bs| - 1] + Union(bs[..|bs| - 1])
  }

  function GetMap<K(!new), V>(t: Table<K, V>): map<K, V> {
    Union(t.buckets)
  }

  /** A key is in the union of a prefix of placed buckets exactly when its
      own bucket is in the prefix and holds it, with that bucket's value. */
  lemma {:induction false} UnionLookup<K(!new), V>(t: Table<K, V>, hash: K -> nat, n: nat, key: K)
    requires Placed(t, hash) && n <= |t.buckets|
    ensures key in Union(t.buckets[..n]) <==>
              BucketIndex(hash, |t.buckets|, key) < n && key in t.buckets[BucketIndex(hash, |t.buckets|, key)]
    ensures key in Union(t.buckets[..n]) ==>
              Union(t.buckets[..n])[key] == t.buckets[BucketIndex(hash, |t.buckets|, key)][key]
  {
    if n > 0 {
      assert t.buckets[..n][..n - 1] == t.buckets[..n - 1];
      assert t.buckets[..n][n - 1] == t.buckets[n - 1];
      UnionLookup(t, hash, n - 1, key);
    }
  }

  /** `getMap` seen through a key: exactly the content of the key's bucket. */
  lemma GetMapLookup<K(!new), V>(t: Table<K, V>, hash: K -> nat, key: K)
    requires Placed(t, hash)
    ensures key in GetMap(t) <==> key in t.buckets[BucketIndex(hash, |t.buckets|, key)]
    ensures key in GetMap(t) ==> GetMap(t)[key] == t.buckets[BucketIndex(hash, |t.buckets|, key)][key]
  {
    assert t.buckets[..|t.buckets|] == t.buckets;
    UnionLookup(t, hash, |t.buckets|, key);
  }

  /** Replacing the bucket of `key` by one that differs from it only at
      `key` changes the union only at `key`. */
  lemma {:induction false} ReplaceBucket<K(!new), V>(t: Table<K, V>, hash: K -> nat, key: K, nb: map<K, V>, t': Table<K, V>)
    requires Placed(t, hash)
    requires t'.buckets == t.buckets[BucketIndex(hash, |t.buckets|, key) := nb]
    requires forall k :: k != key ==> (k in nb <==> k in t.buckets[BucketIndex(hash, |t.buckets|, key)])
    requires forall k :: k != key && k in nb ==> nb[k] == t.buckets[BucketIndex(hash, |t.buckets|, key)][k]
    ensures Placed(t', hash)
    ensures key in nb ==> GetMap(t') == GetMap(t)[key := nb[key]]
    ensures key !in nb ==> GetMap(t') == GetMap(t) - {key}
  {
    var n := |t.buckets|;
    var b := BucketIndex(hash, n, key);
    forall i, k | 0 <= i < n && k in t'.buckets[i]
      ensures BucketIndex(hash, n, k) == i
    {
      if i != b {
        assert k in t.buckets[i];
      } else if k != key {
        assert k in t.buckets[b];
      }
    }
    var expected := if key in nb then GetMap(t)[key := nb[key]] else GetMap(t) - {key};
    var actual := GetMap(t');
    forall k
      ensures k in expected ==> k in actual
      ensures k in actual ==> k in expected && actual[k] == expected[k]
    {
      GetMapLookup(t, hash, k);
      GetMapLookup(t', hash, k);
    }
    MapExtensionality(actual, expected);
  }

  /** Two maps with the same keys and the same value at every key are equal. */
  lemma MapExtensionality<K(!new), V>(a: map<K, V>, b: map<K, V>)
    requires forall k :: k in b ==> k in a
    requires forall k :: k in a ==> k in b && a[k] == b[k]
    ensures a == b
  {
  }

  /** `find`: looks only in the key's own bucket. */
  function Find<K(!new), V>(t: Table<K, V>, hash: K -> nat, key: K): (r: Option<V>)
    requires Placed(t, hash)
    ensures r.Some? <==> key in GetMap(t)
    ensures r.Some? ==> r.value == GetMap(t)[key]
  {
    GetMapLookup(t, hash, key);
    var b := t.buckets[BucketIndex(hash, |t.buckets|, key)];
    if key in b then Some(b[key]) else None
  }

  /** The constructor: `numBuckets` empty buckets and both counters zero. */
  method New<K(!new), V>(numBuckets: nat) returns (t: Table<K, V>)
    ensures |t.buckets| == numBuckets
    ensures forall i :: 0 <= i < numBuckets ==> t.buckets[i] == map[]
    ensures GetMap(t) == map[]
    ensures t.unique == 0 && t.total == 0
  {
    var bs: seq<map<K, V>> := [];
    var i := 0;
    while i < numBuckets
      invariant i <= numBuckets
      invariant |bs| == i
      invariant forall j :: 0 <= j < i ==> bs[j] == map[]
      invariant Union(bs) == map[]
    {
      assert (bs + [map[]])[..i] == bs;
      bs := bs + [map[]];
      i := i + 1;
    }
    t := Table(bs, 0, 0);
  }

  /** The default table. */
  method Default<K(!new), V>() returns (t: Table<K, V>)
    ensures |t.buckets| == PrimeNumber
    ensures GetMap(t) == map[] && t.unique == 0 && t.total == 0
  {
    t := New(PrimeNumber);
  }

  /** The bucket of `key`. */
  function BucketOf<K(!new), V>(t: Table<K, V>, hash: K -> nat, key: K): map<K, V>
    requires |t.buckets| > 0
  {
    t.buckets[BucketIndex(hash, |t.buckets|, key)]
  }

  function WithBucket<K(!new), V>(t: Table<K, V>, hash: K -> nat, key: K, nb: map<K, V>, unique: nat, total: nat): Table<K, V>
    requires |t.buckets| > 0
  {
    Table(t.buckets[BucketIndex(hash, |t.buckets|, key) := nb], unique, total)
  }

  /** `tryAppendOrUpdate` (general mode). A present key has its value
      overwritten without consulting the action; an absent key is added,
      counting one unique and one total hit, only if the action answers true. */
  function TryAppendOrUpdate<K(!new), V>(t: Table<K, V>, hash: K -> nat, key: K, value: V, action: ActionOutcome): (o: Outcome<K, V>)
    requires Placed(t, hash)
    ensures Placed(o.table, hash)
    ensures key in GetMap(t) ==>
              o.status == Update && GetMap(o.table) == GetMap(t)[key := value] &&
              o.table.unique == t.unique && o.table.total == t.total
    ensures key !in GetMap(t) && action == Succeeded ==>
              o.status == Append && GetMap(o.table) == GetMap(t)[key := value] &&
              o.table.unique == t.unique + 1 && o.table.total == t.total + 1
    ensures key !in GetMap(t) && action != Succeeded ==> o.status == Failed && o.table == t
  {
    GetMapLookup(t, hash, key);
    var b := BucketOf(t, hash, key);
    if key in b then
      var t' := WithBucket(t, hash, key, b[key := value], t.unique, t.total);
      ReplaceBucket(t, hash, key, b[key := value], t');
      Outcome(t', Update)
    else if action == Succeeded then
      var t' := WithBucket(t, hash, key, b[key := value], t.unique + 1, t.total + 1);
      ReplaceBucket(t, hash, key, b[key := value], t');
      Outcome(t', Append)
    else
      Outcome(t, Failed)
  }

  /** `tryRemove` (general mode): an absent key is `NOT_FOUND`; a present key
      is erased, and both counters drop by one, only if the action answers
      true. The counters are `size_t`; while they count the keys
      (`GeneralInv`) a removal never finds them at zero. */
  function TryRemove<K(!new), V>(t: Table<K, V>, hash: K -> nat, key: K, action: ActionOutcome): (o: Outcome<K, V>)
    requires GeneralInv(t, hash)
    ensures Placed(o.table, hash)
    ensures key !in GetMap(t) ==> o.status == NotFound && o.table == t
    ensures key in GetMap(t) && action == Succeeded ==>
              o.status == Remove && GetMap(o.table) == GetMap(t) - {key} &&
              o.table.unique == t.unique - 1 && o.table.total == t.total - 1
    ensures key in GetMap(t) && action != Succeeded ==> o.status == Failed && o.table == t
  {
    GetMapLookup(t, hash, key);
    var b := BucketOf(t, hash, key);
    if key !in b then Outcome(t, NotFound)
    else if action == Succeeded then
      RemoveSize(GetMap(t), key);
      var t' := WithBucket(t, hash, key, b - {key}, t.unique - 1, t.total - 1);
      ReplaceBucket(t, hash, key, b - {key}, t');
      Outcome(t', Remove)
    else
      Outcome(t, Failed)
  }

  /** `tryAppendOrIncrement` (hits-counter mode): a present key gains one hit
      (total grows, unique does not) with no action consulted; an absent key
      is added with count 1 only if the action answers true. */
  function TryAppendOrIncrement<K(!new)>(t: Table<K, nat>, hash: K -> nat, key: K, action: ActionOutcome): (o: Outcome<K, nat>)
    requires Placed(t, hash)
    ensures Placed(o.table, hash)
    ensures key in GetMap(t) ==>
              o.status == Increment && GetMap(o.table) == GetMap(t)[key := GetMap(t)[key] + 1] &&
              o.table.unique == t.unique && o.table.total == t.total + 1
    ensures key !in GetMap(t) && action == Succeeded ==>
              o.status == Append && GetMap(o.table) == GetMap(t)[key := 1] &&
              o.table.unique == t.unique + 1 && o.table.total == t.total + 1
    ensures key !in GetMap(t) && action != Succeeded ==> o.status == Failed && o.table == t
  {
    GetMapLookup(t, hash, key);
    var b := BucketOf(t, hash, key);
    if key in b then
      var t' := WithBucket(t, hash, key, b[key := b[key] + 1], t.unique, t.total + 1);
      ReplaceBucket(t, hash, key, b[key := b[key] + 1], t');
      Outcome(t', Increment)
    else if action == Succeeded then
      var t' := WithBucket(t, hash, key, b[key := 1], t.unique + 1, t.total + 1);
      ReplaceBucket(t, hash, key, b[key := 1], t');
      Outcome(t', Append)
    else
      Outcome(t, Failed)
  }

  /** `tryRemoveOrDecrement` (hits-counter mode): an absent key is
      `NOT_FOUND`; a count above one loses one hit; a last hit is removed
      together with the key only if the action answers true, and otherwise
      the count and total are put back and the result is `FAILURE`. */
  function TryRemoveOrDecrement<K(!new)>(t: Table<K, nat>, hash: K -> nat, key: K, action: ActionOutcome): (o: Outcome<K, nat>)
    requires HitsInv(t, hash)
    ensures Placed(o.table, hash)
    ensures key !in GetMap(t) ==> o.status == NotFound && o.table == t
    ensures key in GetMap(t) && GetMap(t)[key] > 1 ==>
              o.status == Decrement && GetMap(o.table) == GetMap(t)[key := GetMap(t)[key] - 1] &&
              o.table.unique == t.unique && o.table.total == t.total - 1
    ensures key in GetMap(t) && GetMap(t)[key] == 1 && action == Succeeded ==>
              o.status == Remove && GetMap(o.table) == GetMap(t) - {key} &&
              o.table.unique == t.unique - 1 && o.table.total == t.total - 1
    ensures key in GetMap(t) && GetMap(t)[key] == 1 && action != Succeeded ==>
              o.status == Failed && o.table == t
  {
    GetMapLookup(t, hash, key);
    var b := BucketOf(t, hash, key);
    if key !in b then Outcome(t, NotFound)
    else
      HitsTotalsPositive(t, hash, key);
      var count := b[key] - 1;
      if count == 0 then
        if action == Succeeded then
          var t' := WithBucket(t, hash, key, b - {key}, t.unique - 1, t.total - 1);
          ReplaceBucket(t, hash, key, b - {key}, t');
          Outcome(t', Remove)
        else
          Outcome(t, Failed)
      else
        var t' := WithBucket(t, hash, key, b[key := count], t.unique, t.total - 1);
        ReplaceBucket(t, hash, key, b[key := count], t');
        Outcome(t', Decrement)
  }

  /** `getUniqueHits` / `getTotalHits`. */
  function GetUniqueHits<K(!new), V>(t: Table<K, V>): nat {
    t.unique
  }

  function GetTotalHits<K(!new), V>(t: Table<K, V>): nat {
    t.total
  }

  // ---------------------------------------------------------------------
  // Invariants

  /** General mode: every key placed, unique = total = number of keys. */
  ghost predicate GeneralInv<K(!new), V>(t: Table<K, V>, hash: K -> nat) {
    Placed(t, hash) && t.unique == |GetMap(t)| && t.total == t.unique
  }

  /** Hits-counter mode: every key placed, unique = number of keys,
      total = sum of the counts, and every count is at least one. */
  ghost predicate HitsInv<K(!new)>(t: Table<K, nat>, hash: K -> nat) {
    Placed(t, hash) && t.unique == |GetMap(t)| && t.total == Sum(GetMap(t)) &&
    forall k :: k in GetMap(t) ==> GetMap(t)[k] >= 1
  }

  ghost function Pick<K(!new)>(m: map<K, nat>): K
    requires |m| > 0
  {
    var k :| k in m; k
  }

  /** The sum of the values of a map. */
  ghost function Sum<K(!new)>(m: map<K, nat>): nat
    decreases |m|
  {
    if |m| == 0 then 0
    else
      var k := Pick(m);
      assert |m - {k}| < |m| by { assert (m - {k}).Keys == m.Keys - {k}; }
      m[k] + Sum(m - {k})
  }

  lemma RemoveSize<K(!new), V>(m: map<K, V>, x: K)
    requires x in m
    ensures |m - {x}| == |m| - 1
  {
    assert (m - {x}).Keys == m.Keys - {x};
  }

  /** Any one entry can be taken out of the sum first. */
  lemma {:induction false} SumRemove<K(!new)>(m: map<K, nat>, x: K)
    requires x in m
    ensures Sum(m) == m[x] + Sum(m - {x})
    decreases |m|
  {
    var y := Pick(m);
    if y != x {
      RemoveSize(m, y);
      RemoveSize(m, x);
      SumRemove(m - {y}, x);
      SumRemove(m - {x}, y);
      assert m - {y} - {x} == m - {x} - {y};
    }
  }

  /** A positive count never exceeds the total. */
  lemma {:induction false} SumBound<K(!new)>(m: map<K, nat>, x: K)
    requires x in m
    ensures m[x] <= Sum(m)
  {
    SumRemove(m, x);
  }

  lemma HitsTotalsPositive<K(!new)>(t: Table<K, nat>, hash: K -> nat, key: K)
    requires HitsInv(t, hash) && key in GetMap(t)
    ensures t.unique >= 1 && t.total >= GetMap(t)[key]
  {
    SumBound(GetMap(t), key);
  }

  lemma SumUpdate<K(!new)>(m: map<K, nat>, x: K, v: nat)
    ensures x in m ==> Sum(m[x := v]) == Sum(m) - m[x] + v
    ensures x !in m ==> Sum(m[x := v]) == Sum(m) + v
  {
    SumRemove(m[x := v], x);
    UpdateThenRemove(m, x, v);
    if x in m {
      SumRemove(m, x);
    } else {
      RemoveAbsent(m, x);
    }
  }

  lemma UpdateThenRemove<K(!new), V>(m: map<K, V>, x: K, v: V)
    ensures m[x := v] - {x} == m - {x}
  {
    assert (m[x := v] - {x}).Keys == (m - {x}).Keys;
  }

  lemma RemoveAbsent<K(!new), V>(m: map<K, V>, x: K)
    requires x !in m
    ensures m - {x} == m
  {
    assert (m - {x}).Keys == m.Keys;
  }

  lemma SizeUpdate<K(!new), V>(m: map<K, V>, x: K, v: V)
    ensures x in m ==> |m[x := v]| == |m|
    ensures x !in m ==> |m[x := v]| == |m| + 1
  {
    if x in m {
      assert m[x := v].Keys == m.Keys;
    } else {
      assert m[x := v].Keys == m.Keys + {x};
    }
  }

  /** A freshly constructed table with at least one bucket satisfies both
      invariants, whatever the hash function. */
  lemma NewInv<K(!new), V>(t: Table<K, V>, t2: Table<K, nat>, hash: K -> nat)
    requires |t.buckets| > 0 && GetMap(t) == map[] && t.unique == 0 && t.total == 0
    requires |t2.buckets| > 0 && GetMap(t2) == map[] && t2.unique == 0 && t2.total == 0
    requires forall i :: 0 <= i < |t.buckets| ==> t.buckets[i] == map[]
    requires forall i :: 0 <= i < |t2.buckets| ==> t2.buckets[i] == map[]
    ensures GeneralInv(t, hash)
    ensures HitsInv(t2, hash)
  {
    assert |GetMap(t)| == 0 && |GetMap(t2)| == 0;
  }

  lemma AppendOrUpdatePreservesInv<K(!new), V>(t: Table<K, V>, hash: K -> nat, key: K, value: V, action: ActionOutcome)
    requires GeneralInv(t, hash)
    ensures GeneralInv(TryAppendOrUpdate(t, hash, key, value, action).table, hash)
  {
    SizeUpdate(GetMap(t), key, value);
  }

  lemma RemovePreservesInv<K(!new), V>(t: Table<K, V>, hash: K -> nat, key: K, action: ActionOutcome)
    requires GeneralInv(t, hash)
    ensures GeneralInv(TryRemove(t, hash, key, action).table, hash)
  {
    if key in GetMap(t) {
      RemoveSize(GetMap(t), key);
    }
  }

  /** Setting one key to a positive count, with the counters following,
      keeps the hits-counter invariant. */
  lemma HitsSet<K(!new)>(t: Table<K, nat>, t': Table<K, nat>, hash: K -> nat, key: K, v: nat)
    requires HitsInv(t, hash) && Placed(t', hash) && v >= 1
    requires GetMap(t') == GetMap(t)[key := v]
    requires t'.unique == if key in GetMap(t) then t.unique else t.unique + 1
    requires t'.total == if key in GetMap(t) then t.total - GetMap(t)[key] + v else t.total + v
    ensures HitsInv(t', hash)
  {
    SizeUpdate(GetMap(t), key, v);
    SumUpdate(GetMap(t), key, v);
  }

  /** Dropping a key, with the counters following, keeps the hits-counter
      invariant. */
  lemma HitsDrop<K(!new)>(t: Table<K, nat>, t': Table<K, nat>, hash: K -> nat, key: K)
    requires HitsInv(t, hash) && Placed(t', hash) && key in GetMap(t)
    requires GetMap(t') == GetMap(t) - {key}
    requires t'.unique == t.unique - 1 && t'.total == t.total - GetMap(t)[key]
    ensures HitsInv(t', hash)
  {
    RemoveSize(GetMap(t), key);
    SumRemove(GetMap(t), key);
  }

  lemma AppendOrIncrementPreservesInv<K(!new)>(t: Table<K, nat>, hash: K -> nat, key: K, action: ActionOutcome)
    requires HitsInv(t, hash)
    ensures HitsInv(TryAppendOrIncrement(t, hash, key, action).table, hash)
  {
    var m := GetMap(t);
    var t' := TryAppendOrIncrement(t, hash, key, action).table;
    if key in m {
      HitsSet(t, t', hash, key, m[key] + 1);
    } else if action == Succeeded {
      HitsSet(t, t', hash, key, 1);
    }
  }

  lemma RemoveOrDecrementPreservesInv<K(!new)>(t: Table<K, nat>, hash: K -> nat, key: K, action: ActionOutcome)
    requires HitsInv(t, hash)
    ensures HitsInv(TryRemoveOrDecrement(t, hash, key, action).table, hash)
  {
    var m := GetMap(t);
    var t' := TryRemoveOrDecrement(t, hash, key, action).table;
    if key in m && m[key] > 1 {
      HitsSet(t, t', hash, key, m[key] - 1);
    } else if key in m && action == Succeeded {
      HitsDrop(t, t', hash, key);
    }
  }

  /** A hit followed by an un-hit of the same key, with both actions
      answering true, restores the table's contents and counters. */
  lemma IncrementThenDecrement<K(!new)>(t: Table<K, nat>, hash: K -> nat, key: K)
    requires HitsInv(t, hash)
    ensures HitsInv(TryAppendOrIncrement(t, hash, key, Succeeded).table, hash)
    ensures var t2 := TryRemoveOrDecrement(TryAppendOrIncrement(t, hash, key, Succeeded).table, hash, key, Succeeded).table;
            GetMap(t2) == GetMap(t) && t2.unique == t.unique && t2.total == t.total
  {
    AppendOrIncrementPreservesInv(t, hash, key, Succeeded);
    var t1 := TryAppendOrIncrement(t, hash, key, Succeeded).table;
    if key in GetMap(t) {
      IncrementMap(t, hash, key);
      IncrementThenDecrementPresent(t, t1, hash, key);
    } else {
      AppendMap(t, hash, key);
      IncrementThenDecrementAbsent(t, t1, hash, key);
    }
  }

  /** Undoing an increment of a present key, stated on the maps. */
  lemma IncrementThenDecrementPresent<K(!new)>(t: Table<K, nat>, t1: Table<K, nat>, hash: K -> nat, key: K)
    requires key in GetMap(t) && GetMap(t)[key] >= 1 && HitsInv(t1, hash)
    requires GetMap(t1) == GetMap(t)[key := GetMap(t)[key] + 1] && t1.unique == t.unique && t1.total == t.total + 1
    ensures var t2 := TryRemoveOrDecrement(t1, hash, key, Succeeded).table;
            GetMap(t2) == GetMap(t) && t2.unique == t.unique && t2.total == t.total
  {
    var m, m1 := GetMap(t), GetMap(t1);
    var t2 := TryRemoveOrDecrement(t1, hash, key, Succeeded).table;
    assert m1[key] > 1;
    assert GetMap(t2) == m1[key := m1[key] - 1] && t2.unique == t1.unique && t2.total == t1.total - 1 by {
      DecrementMap(t1, hash, key);
    }
    UpThenDown(m, m1, GetMap(t2), key);
  }

  /** Undoing the append of an absent key, stated on the maps. */
  lemma IncrementThenDecrementAbsent<K(!new)>(t: Table<K, nat>, t1: Table<K, nat>, hash: K -> nat, key: K)
    requires key !in GetMap(t) && HitsInv(t1, hash)
    requires GetMap(t1) == GetMap(t)[key := 1] && t1.unique == t.unique + 1 && t1.total == t.total + 1
    ensures var t2 := TryRemoveOrDecrement(t1, hash, key, Succeeded).table;
            GetMap(t2) == GetMap(t) && t2.unique == t.unique && t2.total == t.total
  {
    var m, m1 := GetMap(t), GetMap(t1);
    var t2 := TryRemoveOrDecrement(t1, hash, key, Succeeded).table;
    assert GetMap(t2) == m1 - {key} && t2.unique == t1.unique - 1 && t2.total == t1.total - 1 by {
      DropMap(t1, hash, key);
    }
    AddThenDrop(m, m1, GetMap(t2), key);
  }

  /** Raising a count by one and lowering it again gives the map back. */
  lemma UpThenDown<K(!new)>(m: map<K, nat>, m1: map<K, nat>, m2: map<K, nat>, key: K)
    requires key in m && m1 == m[key := m[key] + 1] && m2 == m1[key := m1[key] - 1]
    ensures m2 == m
  {
    assert m2.Keys == m.Keys;
  }

  /** Adding an absent key and dropping it again gives the map back. */
  lemma AddThenDrop<K(!new)>(m: map<K, nat>, m1: map<K, nat>, m2: map<K, nat>, key: K)
    requires key !in m && m1 == m[key := 1] && m2 == m1 - {key}
    ensures m2 == m
  {
    assert m2.Keys == m.Keys;
  }

  lemma IncrementMap<K(!new)>(t: Table<K, nat>, hash: K -> nat, key: K)
    requires Placed(t, hash) && key in GetMap(t)
    ensures var t1 := TryAppendOrIncrement(t, hash, key, Succeeded).table;
            GetMap(t1) == GetMap(t)[key := GetMap(t)[key] + 1] && t1.unique == t.unique && t1.total == t.total + 1
  {
  }

  lemma AppendMap<K(!new)>(t: Table<K, nat>, hash: K -> nat, key: K)
    requires Placed(t, hash) && key !in GetMap(t)
    ensures var t1 := TryAppendOrIncrement(t, hash, key, Succeeded).table;
            GetMap(t1) == GetMap(t)[key := 1] && t1.unique == t.unique + 1 && t1.total == t.total + 1
  {
  }

  lemma DecrementMap<K(!new)>(t: Table<K, nat>, hash: K -> nat, key: K)
    requires HitsInv(t, hash) && key in GetMap(t) && GetMap(t)[key] > 1
    ensures var t1 := TryRemoveOrDecrement(t, hash, key, Succeeded).table;
            GetMap(t1) == GetMap(t)[key := GetMap(t)[key] - 1] && t1.unique == t.unique && t1.total == t.total - 1
  {
  }

  lemma DropMap<K(!new)>(t: Table<K, nat>, hash: K -> nat, key: K)
    requires HitsInv(t, hash) && key in GetMap(t) && GetMap(t)[key] == 1
    ensures var t1 := TryRemoveOrDecrement(t, hash, key, Succeeded).table;
            GetMap(t1) == GetMap(t) - {key} && t1.unique == t.unique - 1 && t1.total == t.total - 1
  {
  }

  /** Raising a key's value and putting it back gives the map again. */
  lemma UpdateTwice<K(!new), V>(m: map<K, V>, x: K, v: V)
    requires x in m
    ensures m[x := v][x := m[x]] == m
  {
    assert m[x := v][x := m[x]].Keys == m.Keys;
  }
}

=== FILE: uint.dfy ===
/** Fixed-width unsigned integers stored as `Bits/8` raw bytes
    (`UIntArray<256>` and `UIntArray<160>`). */
module UInt {
  import opened Wrappers
  import opened Bytes

  datatype Error = InvalidArgument(badSize: nat)

  /** Widths in use: 256 and 160 bits. */
  type Width = bits: nat | bits == 256 || bits == 160 witness 256

  /** The byte array a `UIntArray<bits>` holds. */
  datatype UIntArray = UIntArray(bits: Width, bytes: seq<byte>)
  {
    predicate Valid() {
      |bytes| == bits / 8
    }
  }

  function Uint256(bytes: seq<byte>): Result<UIntArray, Error> {
    New(256, bytes)
  }

  function Uint160(bytes: seq<byte>): Result<UIntArray, Error> {
    New(160, bytes)
  }

  /** The constructor: rejects any input whose length is not the array's
      byte width, otherwise copies the bytes in. */
  function New(bits: Width, bytes: seq<byte>): (r: Result<UIntArray, Error>)
    ensures r.Success? <==> |bytes| == bits / 8
    ensures r.Success? ==> r.value.Valid() && r.value.bits == bits
    ensures r.Failure? ==> r.error == InvalidArgument(|bytes|)
  {
    if |bytes| != bits / 8 then Failure(InvalidArgument(|bytes|))
    else Success(UIntArray(bits, bytes))
  }

  /** `size()`: the width in bytes, independent of the value. */
  function Size(u: UIntArray): (n: nat)
    requires u.Valid()
    ensures n == |u.bytes|
    ensures u.bits == 256 ==> n == 32
    ensures u.bits == 160 ==> n == 20
  {
    u.bits / 8
  }

  function ToVector(u: UIntArray): seq<byte> {
    u.bytes
  }

  /** Constructing from a vector and reading it back yields the same bytes,
      and a valid array survives the reverse trip. */
  lemma ToVectorRoundTrip(bits: Width, bytes: seq<byte>, u: UIntArray)
    ensures New(bits, bytes).Success? ==> ToVector(New(bits, bytes).value) == bytes
    ensures u.Valid() ==> New(u.bits, ToVector(u)) == Success(u)
  {
  }

  /** `operator==`: `memcmp` over the byte width, a byte at a time. */
  method Equal(a: UIntArray, b: UIntArray) returns (eq: bool)
    requires a.Valid() && b.Valid() && a.bits == b.bits
    ensures eq <==> a == b
  {
    var i := 0;
    while i < |a.bytes|
      invariant 0 <= i <= |a.bytes|
      invariant a.bytes[..i] == b.bytes[..i]
    {
      if a.bytes[i] != b.bytes[i] {
        return false;
      }
      i := i + 1;
    }
    assert a.bytes == a.bytes[..i] && b.bytes == b.bytes[..i];
    return true;
  }

  /** `operator!=`: the negation of `==`. */
  method NotEqual(a: UIntArray, b: UIntArray) returns (ne: bool)
    requires a.Valid() && b.Valid() && a.bits == b.bits
    ensures ne <==> a.bytes != b.bytes
  {
    var eq := Equal(a, b);
    ne := !eq;
  }
}

=== FILE: wrappers.dfy ===
/** Failure-carrying result types shared by every module of the model.
    An exception thrown by the original code becomes a `Failure` carrying
    the module's own error datatype; a null or "not found" return becomes `None`. */
module Wrappers {

  datatype Option<+T> = None | Some(value: T) {
    predicate IsFailure() { None? }

    function PropagateFailure<U>(): Option<U>
      requires None?
    {
      None
    }

    function Extract(): T
      requires Some?
    {
      value
    }
  }

  datatype Result<+T, +E> = Success(value: T) | Failure(error: E) {
    predicate IsFailure() { Failure? }

    function PropagateFailure<U>(): Result<U, E>
      requires Failure?
    {
      Failure(error)
    }

    function Extract(): T
      requires Success?
    {
      value
    }
  }
}
